=== FILE: README.md ===
# Completa storefront — a Dafny model of its rules

Completa is a React fashion storefront. It has a catalogue with filters and
sorts, a bag (cart), a wishlist, a four-step checkout, a PagBank payment
handoff and an admin area. This project models the deterministic rules
inside those screens and contexts as pure Dafny functions over immutable
records, and proves what the code promises about them.

What the rules cover:
- **Bag.** Lines are merged by (product id, size). A quantity of zero or
  less removes the line. The total and the piece count are folds over the
  lines.
- **Wishlist.** A list of ids without duplicates.
- **Shipping.** Two quote rules: the shipping service's tiers, and the mock
  tiers the checkout wizard uses.
- **Catalogue.** The filter chain, the search, the sorts, the home-page
  showcases and the "load more" pagination.
- **Checkout.** The wizard's step machine and totals, and the bag page's
  guards and payload.
- **Payment.** The payment server function's check order and payload
  mapping, and the browser service's address check and error text.
- **Admin.** The order list, the product clean-up and flag toggles, the
  product form, the dashboard figures, the product list and the showcase
  screen.
- **Sign-in.** The order of the sign-in form's checks.

Money is a Dafny `real` (reais). Text is `seq<char>`, one element per Unicode
character. JavaScript's `length` counts UTF-16 code units instead, so the one
length rule on free text, the password rule of the sign-in form, is measured
with `Text.Utf16Length`. The other lengths the code compares are of digit-only
CEPs, where the two counts agree. Lists are `seq`.

Effects become parameters or reply values:
- the database and HTTP calls;
- `parseFloat`, `parseInt`, number printing;
- the clock and the server timestamp;
- the authentication service.

A property of the form "the check happens before the call" is therefore
stated as: the outcome is the same whatever the call would have answered.

The modules follow the source files:
- `Types`: types.ts
- `CartContext`, `WishlistContext`: the contexts
- `ShippingService`: the shipping service
- `FilterBar`
- `Listing`: the filter chain and sort shared by Home.tsx and Shop.tsx
- `Home`, `Shop`
- `CheckoutWizard`: Checkout.tsx
- `CartPage`: Cart.tsx
- `ProductDetail`, `WishlistPage`
- `PagBankApi`: the server function
- `PagBankService`
- `OrderList`, `ProductContext`, `ProductForm`, `Dashboard`, `ProductList`, `Vitrines`
- `Login`

`Seqs` holds the generic sequence helpers (filter, subsequence, toggle,
folds, a stable sort). `Text` holds the generic text helpers (digits,
lower-casing, `includes`). `Wrappers` holds `Option` and `Result`.

Some of the code's rules are easy to misread:
- The bag's key is (id, size). The colour is not part of it.
- Setting a quantity of zero or less removes the line.
- The payment link is the first `PAY` link's address, or else the first
  link's address, whatever its kind.
- The product clean-up lists `salePrice` among its numeric keys, not
  `promoPrice`. So a promotional price is stored exactly as the form sends
  it.

## Model

| member | source | states |
|---|---|---|
| Types.ParseOrderStatus | types.ts:36 | a text read as an order state is that state's stored text |
| Types.OrderStatusClosed | types.ts:36 | exactly the four texts 'aguardando_pagamento', 'pago', 'cancelado', 'enviado' are order states, one per state |
| Types.ParseSortOption | types.ts:80 | a menu value read as a sort option is that option's value |
| Types.SortOptionRoundTrip | types.ts:80 | each of the six sort options is read back from its own menu value and from no other |
| Types.EffectivePrice | context/CartContext.tsx:66 | a present, non-zero promotional price is the price paid; an absent or zero one leaves the base price |
| CartContext.FindLine | context/CartContext.tsx:37 | the found position is the first line with the (id, size) key, and none is found exactly when no line has the key |
| CartContext.AddToCart | context/CartContext.tsx:35-46 | the key is present afterwards; an existing key keeps the length and grows only its line by q; an absent key appends exactly the line (product, q, size); other lines are untouched |
| CartContext.AddDefault | context/CartContext.tsx:35-46 | adding without a quantity puts the key in the bag, and a new key gets a line of exactly one piece |
| CartContext.RemoveFromCart | context/CartContext.tsx:61-63 | no line of the key remains, every other line remains, and the result is a subsequence of the bag |
| CartContext.UpdateQuantity | context/CartContext.tsx:49-59 | the key survives exactly when q > 0 and it was there; with q > 0 the length is kept and only lines of the key change, to quantity q |
| CartContext.CartCount | context/CartContext.tsx:70 | the piece count of a bag with no negative quantities is non-negative |
| CartContext.CartTotal | context/CartContext.tsx:65-68 | the total of lines with non-negative totals is non-negative |
| CartContext.OnlyLine | context/CartContext.tsx:37-45 | in a bag with unique keys a line is the only one with its key |
| CartContext.AddKeepsKeysUnique | context/CartContext.tsx:35-46 | adding keeps every key on at most one line |
| CartContext.UpdateKeepsKeysUnique | context/CartContext.tsx:49-59 | changing a quantity keeps every key on at most one line |
| CartContext.RemoveKeepsKeysUnique | context/CartContext.tsx:61-63 | removing keeps every key on at most one line |
| CartContext.AddCount | context/CartContext.tsx:37-70 | adding q pieces raises the piece count by exactly q, in both branches |
| CartContext.AddDefaultCountsOne | context/CartContext.tsx:35-70 | adding without a quantity raises the piece count by exactly one |
| CartContext.AddTotalExisting | context/CartContext.tsx:39-68 | adding q pieces to an existing line raises the total by q times that line's effective price |
| CartContext.AddTotalNew | context/CartContext.tsx:35-68 | adding q pieces of a product whose key is not in the bag raises the total by q times its effective price |
| CartContext.AddNewAppends | context/CartContext.tsx:45 | adding a key the bag does not hold appends one new line at the end |
| CartContext.LineTotalGrows | context/CartContext.tsx:41-67 | a line grown by q pieces costs q effective prices more |
| CartContext.RemoveDropsOneLine | context/CartContext.tsx:61-63 | with unique keys, removing deletes exactly the one line of the key and keeps the order of the rest |
| CartContext.RemoveCount | context/CartContext.tsx:62-70 | removing a line lowers the piece count by its quantity |
| CartContext.RemoveTotal | context/CartContext.tsx:61-68 | removing a line lowers the total by exactly that line's cost |
| CartContext.UpdateCount | context/CartContext.tsx:54-70 | setting a line to q > 0 pieces changes the count by q minus the old quantity |
| CartContext.UpdateTotal | context/CartContext.tsx:49-68 | setting a line to q > 0 pieces replaces its cost by q times its snapshot's effective price |
| CartContext.RemoveAfterAdd | context/CartContext.tsx:35-63 | removing a key after adding to it is the same as removing it from the bag before the add |
| CartContext.RemoveIdempotent | context/CartContext.tsx:61-63 | removing twice is removing once |
| CartContext.UpdateIdempotent | context/CartContext.tsx:49-59 | setting the same quantity twice is setting it once |
| CartContext.UpdateToZeroRemoves | context/CartContext.tsx:50-53 | a quantity of zero or less is exactly a removal |
| WishlistContext.AddToWishlist | context/WishlistContext.tsx:31-38 | the id set gains exactly the id, the list grows by at most one, and earlier ids keep their places |
| WishlistContext.RemoveFromWishlist | context/WishlistContext.tsx:40-42 | the id set loses exactly the id, and the rest keep their order |
| WishlistContext.WishlistCount | context/WishlistContext.tsx:46 | for a duplicate-free list the count is the number of distinct ids |
| WishlistContext.AddKeepsNoDuplicates | context/WishlistContext.tsx:31-38 | adding never creates a duplicate |
| WishlistContext.RemoveKeepsNoDuplicates | context/WishlistContext.tsx:40-42 | removing never creates a duplicate |
| WishlistContext.AddIdempotent | context/WishlistContext.tsx:33-36 | adding twice is adding once |
| WishlistContext.RemoveUndoesAdd | context/WishlistContext.tsx:31-42 | removing a freshly added id restores the list |
| WishlistContext.MembershipAfter | context/WishlistContext.tsx:31-44 | after adding, the id is in the list and after removing it is not; every other id's membership is unchanged |
| ShippingService.RegionTierTable | services/shippingService.ts:44-62 | prefixes 01–19 give (14, 2 days); 20–28, 30–39 and 80–99 give (19, 4); 00, 29 and 40–79 give (24, 7) |
| ShippingService.RegionTier | services/shippingService.ts:44-62 | every prefix gets one of the three tiers (14, 2 days), (19, 4) or (24, 7), and the São Paulo tier exactly for prefixes 1–19 |
| ShippingService.VolumeSurcharge | services/shippingService.ts:65-66 | the surcharge is even and half of it, k, satisfies 3k ≤ n < 3k + 3, so it is 2·⌊n/3⌋: R$ 2 per complete group of three pieces; for n ≥ 0 it is non-negative and at most two thirds of n |
| ShippingService.VolumeSurchargeSteps | services/shippingService.ts:66 | three more pieces cost exactly 2 more, and more pieces never cost less |
| ShippingService.CalculateShipping | services/shippingService.ts:26-73 | a CEP without exactly 8 digits gives 'Indisponível' at 0 in 0 days; a valid CEP with subtotal ≥ 199 gives free shipping in 5 days; it is free exactly then and the standard service exactly otherwise |
| ShippingService.Prefix | services/shippingService.ts:42 | the region code of a valid CEP is between 0 and 99 |
| ShippingService.PaidQuote | services/shippingService.ts:41-72 | a paid quote costs the region's base plus 2·⌊n/3⌋ for n pieces, in the region's days |
| ShippingService.PaidQuoteBounds | services/shippingService.ts:44-71 | with no negative quantity a paid quote costs at least 14 and takes 2, 4 or 7 days |
| ShippingService.MorePiecesNeverCheaper | services/shippingService.ts:65-71 | the price is non-decreasing in the piece count |
| ShippingService.FormattingIrrelevant | services/shippingService.ts:27 | punctuation in the CEP never changes the quote |
| FilterBar.ToggleFilter | components/FilterBar.tsx:42-51 | the value's membership in the named list flips, an absent value is appended at the end, other values keep their membership, other lists and both price bounds are unchanged |
| Seqs.Toggle | components/FilterBar.tsx:44-49 | the value's membership flips, an absent value is appended at the end, and every other value keeps its membership |
| FilterBar.ToggleTwiceRestores | components/FilterBar.tsx:44-49 | toggling an absent value twice restores the filters |
| FilterBar.ToggleMovesCountByOne | components/FilterBar.tsx:44-49 | on a duplicate-free list a toggle moves the active-filter count by exactly one and keeps the list duplicate-free |
| FilterBar.PriceInput | components/FilterBar.tsx:109-117 | the empty text gives the empty marker and any other text a number |
| FilterBar.SetMinPrice | components/FilterBar.tsx:109 | the lower bound is unset exactly for the empty text; nothing else changes |
| FilterBar.SetMaxPrice | components/FilterBar.tsx:117 | the upper bound is unset exactly for the empty text; nothing else changes |
| FilterBar.ClearPrice | components/FilterBar.tsx:209 | the price chip's clear unsets both bounds and keeps every list |
| FilterBar.ClearPriceCount | components/FilterBar.tsx:209 | after the clear the count is the sum of the list lengths |
| FilterBar.EmptyInputClears | components/FilterBar.tsx:109-209 | emptying both inputs has the same effect as the chip's clear |
| Listing.ActiveProducts | components/Home.tsx:13 | the active products, in catalogue order |
| Listing.ActiveFiltersCount | components/Home.tsx:44-46 | the count is zero exactly when no filter is set |
| Listing.ClearFilters | components/Home.tsx:33-42 | after clearing, the active-filter count is 0 |
| Listing.StepFuses | components/Home.tsx:52-69 | one conditional filter step after a filter is a single filter by the conjunction |
| Listing.ApplyFiltersIsFilter | components/Home.tsx:49-72 | the chain of six conditional steps is one filter by the conjunction of the switched-on criteria |
| Listing.ApplyFilters | components/Home.tsx:49-72 | the chain never lengthens the list and keeps only products of it |
| Listing.FilterResults | components/Home.tsx:52-69 | a product survives exactly when it meets every switched-on criterion (category, colour or size overlap, brand present and listed, base price within bounds), and the output is a subsequence |
| Listing.NoFiltersKeepAll | components/Home.tsx:49-72 | with no filter the chain changes nothing |
| Listing.DiscountRate | components/Shop.tsx:119-120 | on a non-zero price the rate is the saving (price minus the price paid) as a fraction of the price; no truthy promotion means a rate of 0; a promotion strictly between 0 and the price gives a rate strictly between 0 and 1 |
| Listing.FractionBounds | components/Shop.tsx:119 | a positive part of a larger whole is a fraction strictly between 0 and 1 |
| Listing.SortProducts | components/Shop.tsx:96-127 | the result is a permutation; 'relevance' is the identity; the other options order by newest first, most sold first, effective price up, effective price down, biggest discount first |
| Listing.SortKeepsLength | components/Shop.tsx:96-127 | sorting keeps the number of products |
| Listing.PriceDescIsReversedAsc | components/Shop.tsx:102-115 | with distinct effective prices, 'price_desc' is 'price_asc' reversed |
| Listing.SortOrderedIsIdentity | components/Shop.tsx:96-122 | the stable sort leaves a list already in the option's order unchanged |
| Home.NewArrivals | components/Home.tsx:16 | at most 4 products, each active and a launch |
| Home.BestSellers | components/Home.tsx:19 | at most 4 products, each active and a best seller |
| Home.NewArrivalsAreFirstLaunches | components/Home.tsx:13-16 | the showcase is the first four active launches in catalogue order, and it is full when there are four |
| Home.BestSellersAreFirstBestSellers | components/Home.tsx:13-19 | the showcase is the first four active best sellers in catalogue order |
| Home.Results | components/Home.tsx:75-105 | the page's results are a rearrangement of the filtered active products, and 'price_asc' orders them by base price, as the page's own sort does |
| Home.Filtered | components/Home.tsx:13-72 | every filtered product is an active product of the catalogue |
| Home.CorrectedResults | components/Shop.tsx:96-127 | the same pipeline with the promotion-aware sort orders 'price_asc' by the price paid |
| Home.ResultsSpec | components/Home.tsx:13-105 | the results are exactly the active products meeting every switched-on criterion, each at most as often as in the catalogue, and the corrected pipeline lists the same products |
| Home.ResultsAgreeOutsidePrices | components/Home.tsx:75-105 | for 'newest', 'best_selling' and 'relevance' the page's pipeline and the corrected one give the same list |
| Home.Displayed | components/Home.tsx:106 | the displayed list is the first min(displayCount, results) results |
| Home.LoadMoreHiddenIffAllShown | components/Home.tsx:220 | "load more" is hidden exactly when every result is displayed |
| Home.DisplayCountAfterClicks | components/Home.tsx:31-223 | after k clicks the display count is 8 + 4k |
| Home.ClicksReachEnd | components/Home.tsx:31-223 | enough clicks always display every result and hide the button |
| Home.SortProductsAsWritten | components/Home.tsx:75-103 | the home page's sort as written is a permutation; its 'price_asc' orders by base price upwards and its 'price_desc' by base price downwards |
| Home.AsWrittenDiscountIsIdentity | components/Home.tsx:93-98 | as written, 'discount' never reorders anything |
| Home.AsWrittenPriceSortIgnoresPromotion | components/Home.tsx:82-86 | a promoted dress dearer in base price but cheaper to buy is listed after a plain dress by the as-written sort, and before it by the promotion-aware sort |
| Home.AsWrittenOrder | components/Home.tsx:82-86 | the as-written sort orders the two dresses by base price |
| Home.CorrectedOrder | components/Shop.tsx:102-108 | the promotion-aware sort orders the two dresses by the price paid |
| Home.HomeListsPlainDressFirst | components/Home.tsx:82-105 | with no filter, the page lists the R$ 80 dress before the dress sold for R$ 50, and the corrected pipeline the other way round |
| Shop.SearchFilter | components/Shop.tsx:61-68 | with a truthy term exactly the products whose lower-cased name or category contains the lower-cased term remain, as a subsequence; otherwise all remain |
| Shop.SearchIgnoresCase | components/Shop.tsx:63-66 | lower-casing the term changes no result |
| Shop.ResultsSpec | components/Shop.tsx:12-94 | the results are exactly the active products matching the search and every switched-on criterion, each at most as often as in the catalogue |
| Shop.Results | components/Shop.tsx:58-129 | every result is an active product of the catalogue that matches a truthy search term |
| Shop.EmptySearchKeepsAll | components/Shop.tsx:62 | an absent or empty search keeps everything |
| Shop.InitFromParams | components/Shop.tsx:27-41 | a truthy category sets the category filter to exactly that value; sort 'new' selects newest and 'best' best-selling; any other value leaves the sort |
| Shop.CategoryLinkShowsCategory | components/Shop.tsx:12-72 | opening a category link lists exactly the active products of that category |
| WishlistPage.WishlistProducts | components/Wishlist.tsx:13 | exactly the wishlisted active products, in catalogue order |
| WishlistPage.DependsOnlyOnIdSet | components/Wishlist.tsx:13 | the page depends only on the set of wishlisted ids, not on their order |
| WishlistPage.EmptyWishlistShowsNothing | components/Wishlist.tsx:13-38 | an empty wishlist shows the empty state |
| WishlistPage.InactiveHidden | components/Wishlist.tsx:13 | inactive products are never shown |
| CheckoutWizard.StepAt | components/Checkout.tsx:8 | the step at an index has that index |
| CheckoutWizard.Forward | components/Checkout.tsx:186-192 | forward moves one step on, and stays on the payment step |
| CheckoutWizard.Back | components/Checkout.tsx:173-183 | there is no back from the bag; elsewhere back moves one step earlier |
| CheckoutWizard.BackUndoesForward | components/Checkout.tsx:173-192 | back undoes forward on the first three steps, and forward undoes back |
| CheckoutWizard.ForwardTimesIndex | components/Checkout.tsx:186-192 | n presses forward reach index min(start + n, 3) |
| CheckoutWizard.PressContinueSpec | components/Checkout.tsx:186-193 | on the bag, continue moves on exactly when a quote exists or the mode is pickup; elsewhere it is forward |
| CheckoutWizard.PressContinue | components/Checkout.tsx:186-193 | on the bag, continue reaches identification exactly when there is a quote or the order is picked up; on the later steps it moves forward |
| CheckoutWizard.CepField | components/Checkout.tsx:109 | the field keeps at most 8 characters, all digits, in typed order; digits-only input within the limit is kept as is |
| CheckoutWizard.LineWeight | components/Checkout.tsx:25 | a line of non-negative weight and quantity weighs nothing negative, and a line of zero pieces weighs nothing |
| CheckoutWizard.TotalWeight | components/Checkout.tsx:25 | a bag with no negative weight or quantity weighs nothing negative |
| CheckoutWizard.MockTierTable | components/Checkout.tsx:33-38 | prefixes 10–19 give (10, 2 days); 30–39 give (20, 4); 80 and above give (35, 7); every other prefix gives (15, 3) |
| CheckoutWizard.TimeLabelReadsBack | components/Checkout.tsx:41 | the time label starts with the tier's days and names the range days to days + 3 |
| CheckoutWizard.TimeLabel | components/Checkout.tsx:41 | the label starts with the day count and ends with " dias úteis" |
| CheckoutWizard.CalculateShippingMock | components/Checkout.tsx:27-44 | a CEP shorter than 8 leaves the quote as it was; any other gives a quote |
| CheckoutWizard.MockQuoteSpec | components/Checkout.tsx:25-41 | the quote costs the tier base plus 5 per kilogram of total weight, with the tier's time label |
| CheckoutWizard.MockQuote | components/Checkout.tsx:31-41 | the quote minus 5 per kilogram is one of the four bases 10, 15, 20 or 35 |
| CheckoutWizard.MockQuoteMonotone | components/Checkout.tsx:25-40 | a heavier bag never gets a cheaper quote |
| CheckoutWizard.MockQuoteAtLeastBase | components/Checkout.tsx:33-40 | with non-negative weights and quantities the quote costs at least its base, and at least 10 |
| CheckoutWizard.NonNegativeProduct | components/Checkout.tsx:25 | a line weight of non-negative factors is non-negative |
| CheckoutWizard.FinalShippingPrice | components/Checkout.tsx:46 | pickup or no quote costs nothing; a delivery costs the quote's price |
| CheckoutWizard.FinalTotalSpec | components/Checkout.tsx:46-47 | the total is the bag total plus the shipping charge, and never less than the bag total |
| CheckoutWizard.FinalTotal | components/Checkout.tsx:46-47 | pickup pays the bag total alone, and a non-negative quote never lowers the total |
| CartPage.QuoteRequestFor | components/Cart.tsx:63-83 | no request is sent for a CEP shorter than 8; otherwise one parcel per line is sent to that CEP |
| CartPage.CalculateShipping | components/Cart.tsx:62-96 | a short CEP sets 'CEP inválido' and keeps the quote; a quote replaces it and clears the error; a failure keeps it and sets the retry message |
| CartPage.CalculateShippingKeepsQuote | components/Cart.tsx:62-96 | a quote is never lost, and the error is clear exactly after a successful quote |
| CartPage.PayloadItemOf | components/Cart.tsx:36-43 | a payload line carries the line's id, quantity and size, at the effective price, so price × quantity is the line total |
| CartPage.HandleCheckout | components/Cart.tsx:19-60 | checkout is refused with the message and no request exactly when no quote exists; otherwise the payload has one item per line and the quote as shipping |
| CartPage.PayloadTotalAddsUp | components/Cart.tsx:36-45 | the payload's total is the sum of its items plus the shipping price |
| CartPage.DisplayedTotalMatchesWizard | components/Cart.tsx:108 | the bag page's total is the wizard's delivery total |
| CartPage.DisplayedTotal | components/Cart.tsx:108 | without a quote the page shows the bag total, and a non-negative quote never lowers it |
| CartPage.QuoteUnlocksCheckout | components/Cart.tsx:20-89 | after a successful quote, checkout is sent |
| ProductDetail.FindById | components/ProductDetail.tsx:18 | the first product with the id, and none exactly when no product has it |
| ProductDetail.ViewFor | components/ProductDetail.tsx:18-22 | a detail shows an active product of the catalogue with the id; not-found exactly when the first product with the id is missing or inactive |
| ProductDetail.ViewWithUniqueIds | components/ProductDetail.tsx:18-22 | with unique ids a product's page shows it exactly when it is in the catalogue and active |
| ProductDetail.Decrement | components/ProductDetail.tsx:119 | the decremented quantity is one less, but never below 1 |
| ProductDetail.Increment | components/ProductDetail.tsx:126 | the incremented quantity is one more, capped at the stock (or 99 without stock) |
| ProductDetail.StepperBounds | components/ProductDetail.tsx:119-126 | any sequence of presses keeps the quantity between 1 and the cap |
| ProductDetail.Run | components/ProductDetail.tsx:119-126 | an empty run leaves the quantity as it is, and from 1..cap with a non-negative stock every run of presses stays within 1..cap |
| ProductDetail.StepperFromStart | components/ProductDetail.tsx:16-126 | from the initial 1 the quantity never goes below 1 or above a positive stock |
| ProductDetail.AddSelected | components/ProductDetail.tsx:26-30 | without a selected size nothing is added; with one the bag holds the key |
| ProductDetail.AddSelectedCount | components/ProductDetail.tsx:26-30 | with a size selected, the piece count grows by the chosen quantity |
| ProductDetail.ToggleWishlist | components/ProductDetail.tsx:32-38 | the product's membership flips and every other id keeps its membership |
| ProductDetail.ToggleWishlistTwice | components/ProductDetail.tsx:32-38 | two toggles restore the id set, and the list itself when the id was absent |
| PagBankApi.OrElse | api/pagbank/createCheckout.ts:31 | `a || b` keeps a truthy first value and otherwise gives the second |
| PagBankApi.RoundCents | api/pagbank/createCheckout.ts:34 | the cents are within half a cent of the amount |
| PagBankApi.RoundCentsExact | api/pagbank/createCheckout.ts:34 | an amount of whole cents is converted exactly |
| PagBankApi.ChargedPrice | api/pagbank/createCheckout.ts:34 | the promotional price when truthy, else the price |
| PagBankApi.MapItem | api/pagbank/createCheckout.ts:30-35 | reference = id or productId; name = "name (size/color)"; quantity copied; amount = charged price in cents |
| PagBankApi.MapItems | api/pagbank/createCheckout.ts:30-35 | one provider item per bag item, in order |
| PagBankApi.MapItemWholeCents | api/pagbank/createCheckout.ts:34 | a price in whole cents is sent as exactly those cents |
| PagBankApi.SplitPhone | api/pagbank/createCheckout.ts:49-56 | area code followed by number is every digit of the phone, the area code being the first two |
| PagBankApi.MapCustomer | api/pagbank/createCheckout.ts:44-57 | the tax id is sent as digits only; a missing tax id or phone makes the mapping fail |
| PagBankApi.MapAddress | api/pagbank/createCheckout.ts:59-69 | the postal code is sent as digits only; a missing CEP makes the mapping fail |
| PagBankApi.BuildOrder | api/pagbank/createCheckout.ts:42-80 | the order is built exactly when tax id, phone and CEP are present; its items are the mapped items and its reference is the given one or ORDER_ and the time |
| PagBankApi.FindPay | api/pagbank/createCheckout.ts:118 | the first PAY link, and none exactly when no link is PAY |
| PagBankApi.CheckoutUrl | api/pagbank/createCheckout.ts:118 | no links give no address |
| PagBankApi.CheckoutUrlChoice | api/pagbank/createCheckout.ts:118 | the first PAY link's address when it is truthy, else the first link's |
| PagBankApi.CheckoutUrlWithoutPay | api/pagbank/createCheckout.ts:118 | with no PAY link the first link's address is used |
| PagBankApi.Handle | api/pagbank/createCheckout.ts:6-125 | a non-POST gives 405 first; then a missing token gives 500; then missing data gives 400; once those pass, a missing tax id, phone or CEP or a thrown call gives 500, a non-OK reply gives its own status with 'PagBank API Error', and an OK reply gives 200 with the order id, the links and the chosen payment link |
| PagBankApi.HandleOrder | api/pagbank/createCheckout.ts:7-80 | each refusal implies every earlier check passed |
| PagBankApi.ChecksPrecedeProviderCall | api/pagbank/createCheckout.ts:7-93 | a request refused by a check gets the same response whatever the provider would answer |
| PagBankService.ErrorMessage | services/pagbankService.ts:47-52 | a text error is shown as it is; an object's message when truthy; otherwise the generic retry text |
| PagBankService.ErrorMessageNonEmpty | services/pagbankService.ts:47-52 | the shown text is empty only when the server sent an empty text |
| PagBankService.CreateCheckout | services/pagbankService.ts:29-67 | a delivery with an incomplete address is rejected before any request; a failed or unsuccessful reply shows the chosen error text; a started checkout reports success with the server's address and order id |
| PagBankService.ValidationBeforeRequest | services/pagbankService.ts:29-34 | a rejection is the same whatever the server would answer, and pickup is never rejected |
| PagBankService.EachFieldRequired | services/pagbankService.ts:29-34 | each of cep, street, number, neighborhood, city, state is required; the complement never matters |
| PagBankService.StartedMeansSuccess | services/pagbankService.ts:55-63 | an ok reply without an explicit false starts the checkout with success, the flag defaulting to true |
| OrderList.WithStatus | components/admin/OrderList.tsx:28-31 | the status is written, the payment stamp is the time exactly for 'pago' and cleared otherwise, nothing else changes |
| OrderList.UpdateOrderStatus | components/admin/OrderList.tsx:26-35 | an unknown id fails with the alert; otherwise every order with the id is rewritten and no other changes |
| OrderList.UpdateOrderStatusSpec | components/admin/OrderList.tsx:26-35 | after marking, the order has the status, is stamped exactly when 'pago', and the other orders are unchanged |
| OrderList.RemarkingRestamps | components/admin/OrderList.tsx:26-31 | marking a paid order paid again replaces its stamp |
| OrderList.SetPaymentLink | components/admin/OrderList.tsx:37-42 | a cancelled or empty answer changes nothing; otherwise only the orders with the id get the link |
| OrderList.FilteredOrders | components/admin/OrderList.tsx:44-47 | exactly the orders matching by case-insensitive name or case-sensitive id, as a subsequence |
| OrderList.EmptySearchListsAll | components/admin/OrderList.tsx:44-47 | an empty search lists every order |
| OrderList.NameSearchIgnoresCase | components/admin/OrderList.tsx:45 | a name match survives lower-casing the term |
| OrderList.StatusBadge | components/admin/OrderList.tsx:49-55 | the two styled badges belong exactly to awaiting and paid; any other status shows its text |
| OrderList.ActionFor | components/admin/OrderList.tsx:117-133 | "mark paid" is offered exactly for orders not paid |
| OrderList.WhatsAppLink | components/admin/OrderList.tsx:127 | the link opens a wa.me chat with the customer's phone and a prefilled text |
| OrderList.MarkPaidThenNotify | components/admin/OrderList.tsx:117-133 | pressing "mark paid" turns the row's action into the WhatsApp message |
| ProductContext.SanitizeNumber | context/ProductContext.tsx:65-67 | an empty text is 0; other text has its first comma read as a point before parsing; a number is kept |
| ProductContext.Sanitize | context/ProductContext.tsx:56-75 | exactly the keys with defined values are kept; numeric keys are cleaned and all others copied unchanged |
| ProductContext.SanitizeIdempotent | context/ProductContext.tsx:56-75 | after cleaning, every numeric key holds a number or NaN, and cleaning again changes nothing |
| ProductContext.CommaIsDecimalPoint | context/ProductContext.tsx:66-67 | "49,90" is parsed as "49.90" |
| ProductContext.AddProduct | context/ProductContext.tsx:77-93 | a new product is stored with sales count 0 and server creation and update times |
| ProductContext.UpdateProduct | context/ProductContext.tsx:95-110 | an update stores a server update time and keeps every other defined non-numeric key |
| ProductContext.AddProductDefaults | context/ProductContext.tsx:59-85 | whatever sales count the payload carries, 0 is stored, and the other non-numeric keys are stored as given |
| ProductContext.WithFlag | context/ProductContext.tsx:126-128 | the named flag takes the value and the other flags keep theirs |
| ProductContext.FirstWithId | context/ProductContext.tsx:124 | the first product with the id, and none exactly when no product has it |
| ProductContext.ToggleProductStatus | context/ProductContext.tsx:122-134 | the length is kept, products with another id are untouched, and an absent id changes nothing |
| ProductContext.ToggleKeepsOtherFlags | context/ProductContext.tsx:124-129 | no other flag of any product changes |
| ProductContext.ToggleFlipsOneFlag | context/ProductContext.tsx:124-129 | with unique ids the named flag of the named product is negated and stamped, the others keep theirs, and a second toggle restores it |
| ProductForm.Prefill | components/admin/ProductForm.tsx:44-70 | absent fields take the form defaults (stock '1', weight '0.3', category 'Vestidos', the first brand, active, neither launch nor best seller, no promotion); present flags and lists are copied; present non-empty texts and numbers that print non-empty are copied |
| ProductForm.EmptyStoredPrefillsNewForm | components/admin/ProductForm.tsx:19-70 | a product with no fields prefills exactly the new-product form |
| ProductForm.HandleArrayChange | components/admin/ProductForm.tsx:77-85 | the value's membership in sizes or colours flips, other values keep theirs, and no other field changes |
| ProductForm.ArrayChangeTwice | components/admin/ProductForm.tsx:77-85 | ticking twice restores a list that lacked the value |
| ProductForm.PayloadOf | components/admin/ProductForm.tsx:151-161 | an empty promotional price is saved as null, any other as its parse; the image field is the given address |
| ProductForm.Submit | components/admin/ProductForm.tsx:133-175 | non-admins are ignored; a non-empty promotion not below the price is rejected exactly then; after the checks, the error alert appears exactly when the upload or the write is refused, with the write's message when only the write failed; the product is saved exactly when neither is refused; a saved product has the uploaded address when a file was chosen and the form's otherwise |
| ProductForm.ChecksBeforeUpload | components/admin/ProductForm.tsx:135-149 | a refused submit ends the same whatever the upload and the write would do |
| ProductForm.UploadBeforeSave | components/admin/ProductForm.tsx:143-171 | a refused upload ends the submit the same whatever the write would do |
| ProductForm.SavedPromoBelowPrice | components/admin/ProductForm.tsx:138-161 | a saved promotion is below its price, and an empty one is stored as null |
| Dashboard.StatsOf | components/admin/Dashboard.tsx:8-36 | the total is the number of products, and the active and low-stock counts never exceed it |
| Dashboard.ActivePlusInactive | components/admin/Dashboard.tsx:8-36 | active plus inactive products make the total |
| Dashboard.AllActiveIff | components/admin/Dashboard.tsx:8-36 | the active count is the total exactly when all products are active; the low-stock count is 0 exactly when every product has at least 5 units |
| Dashboard.EmptyCatalogue | components/admin/Dashboard.tsx:8-36 | an empty catalogue shows zeros |
| Dashboard.StockBound | components/admin/Dashboard.tsx:9-10 | with no negative stock the total stock is at least 5 per product not running low, so it is non-negative |
| Dashboard.StockChange | components/admin/Dashboard.tsx:9 | a change to one product's stock changes the total stock by the same amount |
| ProductList.Filtered | components/admin/ProductList.tsx:10-13 | exactly the products whose lower-cased name or category contains the lower-cased term, as a subsequence |
| ProductList.View | components/admin/ProductList.tsx:10-117 | the shown count is the number of rows, and the empty note appears exactly when no product matches |
| ProductList.EmptySearchListsAll | components/admin/ProductList.tsx:10-43 | an empty search lists every product |
| ProductList.SameAsShopSearch | components/admin/ProductList.tsx:10-13 | the admin search gives the same products as the shop's search for every term |
| ProductList.ToggleStatus | components/admin/ProductList.tsx:91 | the status button changes neither the launch nor the best-seller flag, and no product with another id |
| ProductList.StatusButtonFlips | components/admin/ProductList.tsx:91 | with unique ids the button negates the product's active flag |
| Vitrines.Filtered | components/admin/Vitrines.tsx:9-11 | exactly the active products whose lower-cased name contains the lower-cased term, as a subsequence |
| Vitrines.EmptySearchListsActive | components/admin/Vitrines.tsx:9-11 | an empty search lists exactly the active products |
| Vitrines.WithinProductList | components/admin/Vitrines.tsx:9-11 | every showcase row is a row of the admin product list for the same term, in the same order |
| Vitrines.CategoryNotSearched | components/admin/Vitrines.tsx:9-11 | a match by category alone is listed by the product list but not here |
| Vitrines.ToggleLaunch | components/admin/Vitrines.tsx:62 | the launch button changes neither the active nor the best-seller flag, and no product with another id |
| Vitrines.ToggleBestSeller | components/admin/Vitrines.tsx:75 | the best-seller button changes neither the active nor the launch flag, and no product with another id |
| Vitrines.ButtonsFlip | components/admin/Vitrines.tsx:62-75 | with unique ids each button negates its own flag, and a listed row stays listed |
| Login.ToggleMode | components/auth/Login.tsx:25-30 | the mode is set and the error, the success message and the reset view are cleared; nothing else changes |
| Login.Submit | components/auth/Login.tsx:32-81 | loading always ends; no call is made exactly when a local check fails, whose message is shown; reset sends the e-mail, sign-in sends e-mail and password, registration sends only matching passwords of 6 or more UTF-16 code units; the page moves on exactly after a successful sign-in or registration |
| Login.LocalRejection | components/auth/Login.tsx:40-71 | the local check yields nothing, the e-mail prompt, the mismatch or the length message; sign-in is never rejected locally; the mismatch is reported exactly for a registration with differing passwords, and the length message only for matching passwords shorter than 6 UTF-16 units |
| Login.ChecksBeforeRequest | components/auth/Login.tsx:40-71 | a locally rejected submit ends the same whatever the service would answer |
| Login.ForgotNeedsEmail | components/auth/Login.tsx:40-45 | a reset with no e-mail shows the prompt and sends nothing |
| Login.MismatchBeforeLength | components/auth/Login.tsx:62-72 | registration reports a mismatch before the length, rejects matching passwords shorter than 6 code units, and sends the others |
| Text.Utf16Length | components/auth/Login.tsx:67 | `length` counts one code unit per character plus one more for each character outside the Basic Multilingual Plane, so it lies between the character count and twice it |
| Text.Utf16LengthOfBmp | components/auth/Login.tsx:67 | on text inside the Basic Multilingual Plane `length` is the character count |
| Text.Utf16LengthOfEmoji | components/auth/Login.tsx:67 | "ab" and two emoji are four characters but six code units |
| Login.SignInSkipsPasswordChecks | components/auth/Login.tsx:58-59 | sign-in sends any password, whatever the confirmation holds |
| Login.ResetReturnsToSignIn | components/auth/Login.tsx:46-50 | a sent reset returns to sign-in with the notice |
| Login.GoogleLogin | components/auth/Login.tsx:83-93 | the Google call is always made; a failure shows its message and stops loading, a success moves on |
| Login.FirstFailureShowsFallback | components/auth/Login.tsx:75-80 | a failed sign-in with no earlier error shows the form's fallback text, not this attempt's error |
| Login.FailureShowsPriorError | components/auth/Login.tsx:75-80 | a failed sign-in shows the error the context held before the submit |
| Login.EmojiPasswordLongEnough | components/auth/Login.tsx:67-73 | a password of two letters and two emoji is six code units long, so registration sends it |

## Left out

- Firebase: the product and order subscriptions, the database writes and the authentication service. A write is modelled as a change of the list; the service is a reply parameter.
- The bag and wishlist persistence in localStorage. It is a side effect that contains no rules.
- Every `fetch`, the `setTimeout` delays and the choice of API base address. Their replies are parameters.
- The simulated carrier (api/shipping.ts), the echo checkout (api/checkout.ts), the upload endpoint and `getAddressByCep`. They are outside the modelled core.
- Floating point. Money is an exact real. The provider's `Math.round(x*100)` is a floor of x·100 + 0.5.
- `parseFloat`, `parseInt`, `Number(...)` and number printing. They are parameters, not models of JavaScript's number grammar.
- Date parsing for the 'newest' sort. Creation time is an integer timestamp.
- `serverTimestamp()` and the order stamps' ISO text. The first is a marker value; the stamps are a text parameter.
- The `Intl` currency formatting and all rendering, routing and layout.
- The AI image service and the virtual studio.
- Deleting a product. It is a database call with no rule around it.
- The bag page's `selectedColor` in the payload. Bag lines have no colour field, so it is always undefined.
- The call sites that pass a colour to the bag's remove and update. The context's contract is modelled instead.
- Stored product records that lack `stock` or hold non-boolean flags. `Product` follows types.ts, where these fields always exist. So `stock || 0` is the stock itself, and toggling a flag is negation.
- `Types.Product.createdAt`: modelled as a number, though types.ts allows any value.
- `PagBankApi.Handle`: the text of a crash is the runtime's own error message, so it is not modelled; only its status, 500, is. The PagBank environment choice is not modelled, and neither is the `details` field of the error reply (`data.error_messages || data`, createCheckout.ts:99-102), which echoes the provider's raw JSON: `Failure` carries the status and the `error` text only.
- `ProductDetail.StepperBounds`: with a negative stock the increment can drop the quantity below 1. The bound is stated only for stock ≥ 0, which stored products have.
- `CheckoutWizard.CepField`: the browser's `maxLength` is modelled as keeping the first 8 typed characters before the digits are filtered.
- `CartContext.CartTotal`: its own contract states only the sign. How each operation moves the total is stated by `AddTotalExisting`, `AddTotalNew`, `RemoveTotal` and `UpdateTotal`.
- `Listing.DiscountRate`: a promotion on a product priced 0 divides by zero in the source. Dafny's real division by 0 gives 0 there, which differs from JavaScript's `Infinity` or `NaN`.
- `Text.ToLower`: lowers only A–Z and the Latin-1 capitals U+00C0–U+00DE. JavaScript's `toLowerCase` also lowers other scripts ("Ā", Greek, Cyrillic), and for "İ" (U+0130) it lengthens the text. Searches over text outside Latin-1 are therefore not modelled.
- `Login.Submit`: the error text the authentication call records during this submit is not modelled. The handler only reads the error captured before the call, which is the `priorError` parameter.
- The checkout result's `paymentType`, `pixCode`, `qrCodeBase64` and `expiration` (services/pagbankService.ts:59-62). They echo server fields that no rule reads, so `CheckoutResult` leaves them out.

## Findings

| source | as written | input that shows it | evidently intended | confidence | as-written member | corrected member |
|---|---|---|---|---|---|---|
| components/Home.tsx:82-98 | the home page's price and discount sorts read `salePrice`, a field that no longer exists on `Product` (types.ts:7 renamed it `promoPrice`); so 'price_asc' and 'price_desc' sort by base price and 'discount' never reorders | a dress at R$ 100 promoted to R$ 50 and a dress at R$ 80: 'price_asc' lists the R$ 80 dress first although the other costs R$ 50 | sort by `promoPrice || price` and by the `promoPrice` discount, as components/Shop.tsx:102-122 does | high (not executed) | Home.AsWrittenPriceSortIgnoresPromotion | Listing.SortProducts |

=== FILE: cart.dfy ===
/** The shopping bag (context/CartContext.tsx): a list of lines keyed by
    product id and size, with add, quantity update, removal and two totals. */
module CartContext {
  import opened Wrappers
  import opened Seqs
  import opened Types

  /** The quantity `addToCart` uses when none is given. */
  const DefaultQuantity: int := 1

  /** The line belongs to product `id` in size `size`. The colour is not part of the key. */
  predicate IsLine(it: CartItem, id: string, size: string) {
    it.product.id == id && it.selectedSize == size
  }

  /** Some line of the bag has the key. */
  predicate HasLine(items: seq<CartItem>, id: string, size: string) {
    exists i :: 0 <= i < |items| && IsLine(items[i], id, size)
  }

  /** Two lines have different keys. */
  predicate DistinctKeys(a: CartItem, b: CartItem) {
    !IsLine(a, b.product.id, b.selectedSize)
  }

  /** The bag's invariant: no key occurs on two lines. */
  predicate KeysUnique(items: seq<CartItem>) {
    Pairwise(items, DistinctKeys)
  }

  /** `prev.find(...)`: the position of the first line with the key. */
  function FindLine(items: seq<CartItem>, id: string, size: string): (r: Option<nat>)
    ensures r.None? <==> !HasLine(items, id, size)
    ensures r.Some? ==> r.value < |items| && IsLine(items[r.value], id, size)
    ensures r.Some? ==> forall j :: 0 <= j < r.value ==> !IsLine(items[j], id, size)
  {
    if |items| == 0 then None
    else if IsLine(items[0], id, size) then Some(0)
    else
      match FindLine(items[1..], id, size)
      case None =>
        assert forall i :: 1 <= i < |items| ==> items[i] == items[1..][i - 1];
        None
      case Some(k) =>
        assert items[1..][k] == items[k + 1];
        assert forall j :: 1 <= j < k + 1 ==> items[j] == items[1..][j - 1];
        Some(k + 1)
  }

  /** Every line with the key gets the quantity `newQty(old)`; the others are untouched. */
  function MapLines(items: seq<CartItem>, id: string, size: string, newQty: int -> int): seq<CartItem>
  {
    seq(|items|, i requires 0 <= i < |items| =>
      if IsLine(items[i], id, size) then items[i].(quantity := newQty(items[i].quantity)) else items[i])
  }

  /** `addToCart(product, size, quantity)`: an existing line of the key grows
      by `q` (keeping the product snapshot it was added with); otherwise a new
      line is appended. */
  function AddToCart(items: seq<CartItem>, p: Product, size: string, q: int): (r: seq<CartItem>)
    ensures HasLine(r, p.id, size)
    ensures |r| == if HasLine(items, p.id, size) then |items| else |items| + 1
    ensures forall i :: 0 <= i < |items| && !IsLine(items[i], p.id, size) ==> r[i] == items[i]
    ensures forall i :: 0 <= i < |items| && IsLine(items[i], p.id, size) ==>
              r[i] == items[i].(quantity := items[i].quantity + q)
    ensures !HasLine(items, p.id, size) ==> r[|items|] == CartItem(p, q, size)
  {
    match FindLine(items, p.id, size)
    case Some(k) =>
      var r := MapLines(items, p.id, size, n => n + q);
      assert IsLine(r[k], p.id, size);
      r
    case None =>
      var r := items + [CartItem(p, q, size)];
      assert IsLine(r[|items|], p.id, size);
      r
  }

  /** `removeFromCart(id, size)`: every line of the key goes; the rest stay in order. */
  function RemoveFromCart(items: seq<CartItem>, id: string, size: string): (r: seq<CartItem>)
    ensures !HasLine(r, id, size)
    ensures forall it :: it in r <==> it in items && !IsLine(it, id, size)
    ensures IsSubsequence(r, items)
  {
    var r := Filter(items, it => !IsLine(it, id, size));
    assert forall i :: 0 <= i < |r| ==> r[i] in r;
    FilterIsSubsequence(items, it => !IsLine(it, id, size));
    r
  }

  /** `updateCartItemQuantity(id, size, q)`: a quantity of zero or less removes
      the line; otherwise every line of the key gets quantity `q`. */
  function UpdateQuantity(items: seq<CartItem>, id: string, size: string, q: int): (r: seq<CartItem>)
    ensures HasLine(r, id, size) <==> q > 0 && HasLine(items, id, size)
    ensures q > 0 ==> |r| == |items|
    ensures q > 0 ==> forall i :: 0 <= i < |items| ==>
              r[i] == if IsLine(items[i], id, size) then items[i].(quantity := q) else items[i]
    ensures forall i :: 0 <= i < |r| && IsLine(r[i], id, size) ==> r[i].quantity == q
  {
    if q <= 0 then RemoveFromCart(items, id, size)
    else
      var r := MapLines(items, id, size, n => q);
      assert forall i :: 0 <= i < |items| ==> (IsLine(r[i], id, size) <==> IsLine(items[i], id, size));
      r
  }

  /** The quantity of a line. */
  function Quantity(it: CartItem): int {
    it.quantity
  }

  /** What a line costs: the effective price of its snapshot times its quantity. */
  function LineTotal(it: CartItem): real {
    EffectivePrice(it.product) * it.quantity as real
  }

  /** `cartCount`: the number of pieces in the bag. */
  function CartCount(items: seq<CartItem>): (n: int)
    ensures (forall i :: 0 <= i < |items| ==> items[i].quantity >= 0) ==> n >= 0
  {
    assert (forall i :: 0 <= i < |items| ==> items[i].quantity >= 0) ==> SumOfInt(items, Quantity) >= 0 by {
      if forall i :: 0 <= i < |items| ==> items[i].quantity >= 0 {
        SumOfIntNonNegative(items, Quantity);
      }
    }
    SumOfInt(items, Quantity)
  }

  /** `cartTotal`: the sum of the line totals. */
  function CartTotal(items: seq<CartItem>): (t: real)
    ensures (forall i :: 0 <= i < |items| ==> LineTotal(items[i]) >= 0.0) ==> t >= 0.0
  {
    assert (forall i :: 0 <= i < |items| ==> LineTotal(items[i]) >= 0.0) ==> SumOf(items, LineTotal) >= 0.0 by {
      if forall i :: 0 <= i < |items| ==> LineTotal(items[i]) >= 0.0 {
        SumOfNonNegative(items, LineTotal);
      }
    }
    SumOf(items, LineTotal)
  }

  /** Under unique keys, the line at `k` is the only line of its key. */
  lemma OnlyLine(items: seq<CartItem>, k: nat, id: string, size: string)
    requires KeysUnique(items) && k < |items| && IsLine(items[k], id, size)
    ensures forall i :: 0 <= i < |items| && i != k ==> !IsLine(items[i], id, size)
  {
    forall i | 0 <= i < |items| && i != k
      ensures !IsLine(items[i], id, size)
    {
      if i < k {
        assert DistinctKeys(items[i], items[k]);
      } else {
        assert DistinctKeys(items[k], items[i]);
      }
    }
  }

  /** Adding keeps the keys unique. */
  lemma AddKeepsKeysUnique(items: seq<CartItem>, p: Product, size: string, q: int)
    requires KeysUnique(items)
    ensures KeysUnique(AddToCart(items, p, size, q))
  {
    var r := AddToCart(items, p, size, q);
    forall i, j | 0 <= i < j < |r|
      ensures DistinctKeys(r[i], r[j])
    {
      assert DistinctKeys(items[i], if j < |items| then items[j] else CartItem(p, q, size));
    }
  }

  /** Changing a quantity keeps the keys unique. */
  lemma UpdateKeepsKeysUnique(items: seq<CartItem>, id: string, size: string, q: int)
    requires KeysUnique(items)
    ensures KeysUnique(UpdateQuantity(items, id, size, q))
  {
    if q <= 0 {
      FilterPairwise(items, it => !IsLine(it, id, size), DistinctKeys);
    } else {
      var r := UpdateQuantity(items, id, size, q);
      forall i, j | 0 <= i < j < |r|
        ensures DistinctKeys(r[i], r[j])
      {
        assert DistinctKeys(items[i], items[j]);
      }
    }
  }

  /** Removing keeps the keys unique. */
  lemma RemoveKeepsKeysUnique(items: seq<CartItem>, id: string, size: string)
    requires KeysUnique(items)
    ensures KeysUnique(RemoveFromCart(items, id, size))
  {
    FilterPairwise(items, it => !IsLine(it, id, size), DistinctKeys);
  }

  /** Adding `q` pieces raises the piece count by `q`. */
  lemma {:induction false} AddCount(items: seq<CartItem>, p: Product, size: string, q: int)
    requires KeysUnique(items)
    ensures CartCount(AddToCart(items, p, size, q)) == CartCount(items) + q
  {
    var r := AddToCart(items, p, size, q);
    match FindLine(items, p.id, size)
    case Some(k) =>
      OnlyLine(items, k, p.id, size);
      SumOfIntPointChange(items, r, k, Quantity);
    case None =>
      SumOfIntAppend(items, CartItem(p, q, size), Quantity);
  }

  /** `addToCart(product, size)` with the quantity left out: one piece. */
  function AddDefault(items: seq<CartItem>, p: Product, size: string): (r: seq<CartItem>)
    ensures HasLine(r, p.id, size)
    ensures |r| == if HasLine(items, p.id, size) then |items| else |items| + 1
    ensures !HasLine(items, p.id, size) ==> r[|items|] == CartItem(p, 1, size)
  {
    AddToCart(items, p, size, DefaultQuantity)
  }

  /** Adding with the default quantity raises the piece count by exactly one. */
  lemma AddDefaultCountsOne(items: seq<CartItem>, p: Product, size: string)
    requires KeysUnique(items)
    ensures CartCount(AddDefault(items, p, size)) == CartCount(items) + 1
  {
    AddCount(items, p, size, DefaultQuantity);
  }

  /** Adding to the existing line at `k` raises the total by `q` times the
      effective price of that line's snapshot, not of the product being added. */
  lemma AddTotalExisting(items: seq<CartItem>, k: nat, p: Product, size: string, q: int)
    requires KeysUnique(items) && k < |items| && IsLine(items[k], p.id, size)
    ensures CartTotal(AddToCart(items, p, size, q))
            == CartTotal(items) + EffectivePrice(items[k].product) * q as real
  {
    var r := AddToCart(items, p, size, q);
    OnlyLine(items, k, p.id, size);
    LineTotalGrows(items[k], r[k], q);
    SumOfPointDelta(items, r, k, LineTotal, EffectivePrice(items[k].product) * q as real);
  }

  /** Adding a product whose key is not in the bag raises the total by `q`
      of its effective price. */
  lemma AddTotalNew(items: seq<CartItem>, p: Product, size: string, q: int)
    requires !HasLine(items, p.id, size)
    ensures CartTotal(AddToCart(items, p, size, q)) == CartTotal(items) + EffectivePrice(p) * q as real
  {
    AddNewAppends(items, p, size, q);
    SumOfAppend(items, CartItem(p, q, size), LineTotal);
  }

  /** Adding a key the bag does not hold appends one new line. */
  lemma AddNewAppends(items: seq<CartItem>, p: Product, size: string, q: int)
    requires !HasLine(items, p.id, size)
    ensures AddToCart(items, p, size, q) == items + [CartItem(p, q, size)]
  {
    var r := AddToCart(items, p, size, q);
    assert forall i :: 0 <= i < |items| ==> !IsLine(items[i], p.id, size);
    assert forall i :: 0 <= i < |r| ==> r[i] == (items + [CartItem(p, q, size)])[i];
  }

  /** A line whose quantity grows by `q` costs `q` effective prices more. */
  lemma LineTotalGrows(a: CartItem, b: CartItem, q: int)
    requires b == a.(quantity := a.quantity + q)
    ensures LineTotal(b) == LineTotal(a) + EffectivePrice(a.product) * q as real
  {
    var e := EffectivePrice(a.product);
    assert (a.quantity + q) as real == a.quantity as real + q as real;
    assert e * (a.quantity as real + q as real) == e * a.quantity as real + e * q as real;
  }

  /** Under unique keys, removing drops exactly the one line of the key. */
  lemma {:induction false} RemoveDropsOneLine(items: seq<CartItem>, k: nat, id: string, size: string)
    requires KeysUnique(items) && k < |items| && IsLine(items[k], id, size)
    ensures RemoveFromCart(items, id, size) == items[..k] + items[k + 1..]
  {
    OnlyLine(items, k, id, size);
    FilterDropsOne(items, k, (it: CartItem) => !IsLine(it, id, size));
  }

  /** Removing the line at `k` lowers the piece count by its quantity. */
  lemma RemoveCount(items: seq<CartItem>, k: nat, id: string, size: string)
    requires KeysUnique(items) && k < |items| && IsLine(items[k], id, size)
    ensures CartCount(RemoveFromCart(items, id, size)) == CartCount(items) - items[k].quantity
  {
    RemoveDropsOneLine(items, k, id, size);
    assert items == items[..k] + [items[k]] + items[k + 1..];
    SumOfIntConcat(items[..k] + [items[k]], items[k + 1..], Quantity);
    SumOfIntAppend(items[..k], items[k], Quantity);
    SumOfIntConcat(items[..k], items[k + 1..], Quantity);
  }

  /** Setting the line at `k` to `q > 0` pieces changes the count by the difference. */
  lemma UpdateCount(items: seq<CartItem>, k: nat, id: string, size: string, q: int)
    requires KeysUnique(items) && k < |items| && IsLine(items[k], id, size) && q > 0
    ensures CartCount(UpdateQuantity(items, id, size, q)) == CartCount(items) - items[k].quantity + q
  {
    OnlyLine(items, k, id, size);
    SumOfIntPointChange(items, UpdateQuantity(items, id, size, q), k, Quantity);
  }

  /** Removing the line at `k` lowers the total by what that line costs. */
  lemma RemoveTotal(items: seq<CartItem>, k: nat, id: string, size: string)
    requires KeysUnique(items) && k < |items| && IsLine(items[k], id, size)
    ensures CartTotal(RemoveFromCart(items, id, size)) == CartTotal(items) - LineTotal(items[k])
  {
    RemoveDropsOneLine(items, k, id, size);
    assert items == items[..k] + [items[k]] + items[k + 1..];
    SumOfConcat(items[..k] + [items[k]], items[k + 1..], LineTotal);
    SumOfAppend(items[..k], items[k], LineTotal);
    SumOfConcat(items[..k], items[k + 1..], LineTotal);
  }

  /** Setting the line at `k` to `q > 0` pieces replaces its cost by `q` of
      its snapshot's effective price. */
  lemma UpdateTotal(items: seq<CartItem>, k: nat, id: string, size: string, q: int)
    requires KeysUnique(items) && k < |items| && IsLine(items[k], id, size) && q > 0
    ensures CartTotal(UpdateQuantity(items, id, size, q))
            == CartTotal(items) - LineTotal(items[k]) + EffectivePrice(items[k].product) * q as real
  {
    var r := UpdateQuantity(items, id, size, q);
    OnlyLine(items, k, id, size);
    forall i | 0 <= i < |items| && i != k
      ensures LineTotal(items[i]) == LineTotal(r[i])
    {
      assert r[i] == items[i];
    }
    assert r[k] == items[k].(quantity := q);
    assert LineTotal(r[k]) == EffectivePrice(items[k].product) * q as real;
    SumOfPointChange(items, r, k, LineTotal);
  }

  /** Removing after adding is the same as removing: add touches only its own key. */
  lemma RemoveAfterAdd(items: seq<CartItem>, p: Product, size: string, q: int)
    ensures RemoveFromCart(AddToCart(items, p, size, q), p.id, size) == RemoveFromCart(items, p.id, size)
  {
    var keep := (it: CartItem) => !IsLine(it, p.id, size);
    if HasLine(items, p.id, size) {
      FilterAgree(items, AddToCart(items, p, size, q), keep);
    } else {
      FilterConcat(items, [CartItem(p, q, size)], keep);
      assert Filter([CartItem(p, q, size)], keep) == [] by {
        FilterNone([CartItem(p, q, size)], keep);
      }
    }
  }

  /** Removing twice is removing once. */
  lemma RemoveIdempotent(items: seq<CartItem>, id: string, size: string)
    ensures RemoveFromCart(RemoveFromCart(items, id, size), id, size) == RemoveFromCart(items, id, size)
  {
    var keep := (it: CartItem) => !IsLine(it, id, size);
    FilterFusion(items, keep, keep, keep);
  }

  /** Setting the same quantity twice is setting it once. */
  lemma UpdateIdempotent(items: seq<CartItem>, id: string, size: string, q: int)
    ensures UpdateQuantity(UpdateQuantity(items, id, size, q), id, size, q) == UpdateQuantity(items, id, size, q)
  {
    if q <= 0 {
      RemoveIdempotent(items, id, size);
    }
  }

  /** Setting a quantity of zero or less is removing the line. */
  lemma UpdateToZeroRemoves(items: seq<CartItem>, id: string, size: string, q: int)
    requires q <= 0
    ensures UpdateQuantity(items, id, size, q) == RemoveFromCart(items, id, size)
  {
  }
}

=== FILE: cart_page.dfy ===
/** The cart page (components/Cart.tsx): the shipping quote request with
    its CEP guard and error texts, and the checkout request that is refused
    until a quote exists. */
module CartPage {
  import opened Wrappers
  import opened Seqs
  import opened Text
  import opened Types
  import opened CartContext
  import CheckoutWizard

  /** The error shown for a CEP shorter than eight digits. */
  const InvalidCepMessage: string := "CEP inválido"

  /** The error shown when the quote request fails. */
  const QuoteFailedMessage: string := "Erro ao calcular frete. Tente novamente."

  /** The alert shown when checkout is pressed without a quote. */
  const NeedQuoteMessage: string := "Por favor, calcule o frete antes de finalizar."

  /** The page's shipping state: the CEP field, the current quote and the error line. */
  datatype PageState = PageState(cep: Digits, quote: Option<ShippingQuote>, error: string)

  /** The dimensions of one line as sent to the quote service. */
  datatype Parcel = Parcel(weight: real, height: real, width: real, length: real, quantity: int)

  /** The body of the quote request. */
  datatype QuoteRequest = QuoteRequest(cepDestino: string, products: seq<Parcel>)

  /** What came back from the quote service: a price and a delivery-time
      text, or a failure (a network error or a response that is not ok). */
  datatype QuoteReply = Quoted(price: real, deliveryTime: string) | QuoteFailed

  /** The parcel of one cart line. */
  function ParcelOf(it: CartItem): Parcel {
    Parcel(it.product.weightKg, it.product.heightCm, it.product.widthCm, it.product.lengthCm, it.quantity)
  }

  /** The request `handleCalculateShipping` sends, or none when the CEP is
      shorter than eight digits. */
  function QuoteRequestFor(st: PageState, items: seq<CartItem>): (r: Option<QuoteRequest>)
    ensures r.None? <==> |st.cep| < 8
    ensures r.Some? ==> r.value.cepDestino == st.cep && |r.value.products| == |items|
    ensures r.Some? ==> forall i :: 0 <= i < |items| ==>
              r.value.products[i].quantity == items[i].quantity
              && r.value.products[i].weight == items[i].product.weightKg
  {
    if |st.cep| < 8 then None
    else Some(QuoteRequest(st.cep, seq(|items|, i requires 0 <= i < |items| => ParcelOf(items[i]))))
  }

  /** `handleCalculateShipping`, with the reply of the quote service as a
      parameter: a short CEP only sets the error; otherwise the error is
      cleared and a quote replaces the old one, or a failure keeps the old
      quote and sets the retry message. */
  function CalculateShipping(st: PageState, reply: QuoteReply): (r: PageState)
    ensures r.cep == st.cep
    ensures |st.cep| < 8 ==> r.quote == st.quote && r.error == InvalidCepMessage
    ensures |st.cep| >= 8 && reply.Quoted? ==>
              r.quote == Some(ShippingQuote(reply.price, reply.deliveryTime)) && r.error == ""
    ensures |st.cep| >= 8 && reply.QuoteFailed? ==> r.quote == st.quote && r.error == QuoteFailedMessage
  {
    if |st.cep| < 8 then st.(error := InvalidCepMessage)
    else match reply
      case Quoted(price, time) => st.(quote := Some(ShippingQuote(price, time)), error := "")
      case QuoteFailed => st.(error := QuoteFailedMessage)
  }

  /** A quote, once obtained, is never lost by asking again, and the error
      line is empty exactly when the last request succeeded. */
  lemma CalculateShippingKeepsQuote(st: PageState, reply: QuoteReply)
    ensures st.quote.Some? ==> CalculateShipping(st, reply).quote.Some?
    ensures CalculateShipping(st, reply).error == "" <==> |st.cep| >= 8 && reply.Quoted?
  {
  }

  /** One line of the checkout request. The storefront also sends
      `selectedColor`, which a cart line does not have, so it is always
      undefined and left out of the JSON. */
  datatype PayloadItem = PayloadItem(id: string, name: string, quantity: int, price: real, selectedSize: string)

  /** The body of the checkout request. */
  datatype Payload = Payload(
    userId: Option<string>,
    customerName: Option<string>,
    customerEmail: Option<string>,
    items: seq<PayloadItem>,
    shipping: ShippingQuote,
    total: real)

  /** Pressing checkout: refused with the alert, or the request that is sent. */
  datatype CheckoutAttempt = Refused(message: string) | Send(payload: Payload)

  /** The line of the request for one cart line, at its effective price. */
  function PayloadItemOf(it: CartItem): (r: PayloadItem)
    ensures r.id == it.product.id && r.quantity == it.quantity && r.selectedSize == it.selectedSize
    ensures r.price * r.quantity as real == LineTotal(it)
  {
    PayloadItem(it.product.id, it.product.name, it.quantity, EffectivePrice(it.product), it.selectedSize)
  }

  /** What a request line charges. */
  function PayloadLineTotal(it: PayloadItem): real {
    it.price * it.quantity as real
  }

  /** `cartTotal + (shippingResult?.price || 0)`: the total the page displays. */
  function DisplayedTotal(items: seq<CartItem>, quote: Option<ShippingQuote>): (t: real)
    ensures quote.None? ==> t == CartTotal(items)
    ensures (quote.Some? ==> quote.value.price >= 0.0) ==> t >= CartTotal(items)
  {
    CartTotal(items) + (match quote case Some(q) => q.price case None => 0.0)
  }

  /** `handleCheckout`: without a quote nothing is sent; otherwise every
      line goes out at its effective price with the quote and the total. */
  function HandleCheckout(user: Option<User>, items: seq<CartItem>, quote: Option<ShippingQuote>): (r: CheckoutAttempt)
    ensures r.Refused? <==> quote.None?
    ensures r.Refused? ==> r.message == NeedQuoteMessage
    ensures r.Send? ==> r.payload.shipping == quote.value
    ensures r.Send? ==> |r.payload.items| == |items|
    ensures r.Send? ==> forall i :: 0 <= i < |items| ==>
              r.payload.items[i].id == items[i].product.id
              && r.payload.items[i].price == EffectivePrice(items[i].product)
              && r.payload.items[i].quantity == items[i].quantity
  {
    match quote
    case None => Refused(NeedQuoteMessage)
    case Some(q) =>
      Send(Payload(
        if user.Some? then Some(user.value.id) else None,
        if user.Some? then Some(user.value.name) else None,
        if user.Some? then Some(user.value.email) else None,
        seq(|items|, i requires 0 <= i < |items| => PayloadItemOf(items[i])),
        q,
        CartTotal(items) + q.price))
  }

  /** The total sent is what the request's own lines charge plus the
      shipping price, and it is the total the page displays. */
  lemma {:induction false} PayloadTotalAddsUp(user: Option<User>, items: seq<CartItem>, quote: Option<ShippingQuote>)
    requires quote.Some?
    ensures var p := HandleCheckout(user, items, quote).payload;
            p.total == SumOf(p.items, PayloadLineTotal) + p.shipping.price
            && p.total == DisplayedTotal(items, quote)
  {
    var p := HandleCheckout(user, items, quote).payload;
    SumOfAgree(items, p.items, LineTotal, PayloadLineTotal);
  }

  /** The cart page shows the same total as the checkout wizard with home delivery. */
  lemma DisplayedTotalMatchesWizard(items: seq<CartItem>, quote: Option<ShippingQuote>)
    ensures DisplayedTotal(items, quote) == CheckoutWizard.FinalTotal(items, CheckoutWizard.Delivery, quote)
  {
  }

  /** A successful quote request is enough to unlock checkout. */
  lemma QuoteUnlocksCheckout(st: PageState, price: real, time: string, user: Option<User>, items: seq<CartItem>)
    requires |st.cep| >= 8
    ensures HandleCheckout(user, items, CalculateShipping(st, Quoted(price, time)).quote).Send?
  {
  }
}

=== FILE: checkout.dfy ===
/** The checkout wizard (components/Checkout.tsx): four steps walked with
    Continue and Back, a mock shipping quote from a CEP tier table and the
    cart weight, and the total with delivery or store pickup. */
module CheckoutWizard {
  import opened Wrappers
  import opened Seqs
  import opened Text
  import opened Types
  import opened CartContext
  import ShippingService

  // ---------------------------------------------------------------------------
  // Steps
  // ---------------------------------------------------------------------------

  /** The wizard's steps, in order: bag, identification, delivery, payment. */
  datatype Step = Sacola | Identificacao | Entrega | Pagamento {
    /** The position of the step, from 0 for the bag to 3 for payment. */
    function Index(): nat {
      match this
      case Sacola => 0
      case Identificacao => 1
      case Entrega => 2
      case Pagamento => 3
    }
  }

  /** The step at a position 0..3. */
  function StepAt(i: nat): (s: Step)
    requires i <= 3
    ensures s.Index() == i
  {
    if i == 0 then Sacola else if i == 1 then Identificacao else if i == 2 then Entrega else Pagamento
  }

  /** The Continue button's step change. On the payment step it only shows
      the "finished" alert and the step stays where it is. */
  function Forward(s: Step): (r: Step)
    ensures s != Pagamento ==> r.Index() == s.Index() + 1
    ensures s == Pagamento ==> r == s
  {
    match s
    case Sacola => Identificacao
    case Identificacao => Entrega
    case Entrega => Pagamento
    case Pagamento => Pagamento
  }

  /** Continue on the payment step finishes the order (the alert) instead of moving. */
  predicate FinishesOrder(s: Step) {
    s == Pagamento
  }

  /** The Back button's step change; the bag step has no Back button. */
  function Back(s: Step): (r: Option<Step>)
    ensures r.None? <==> s == Sacola
    ensures r.Some? ==> r.value.Index() + 1 == s.Index()
  {
    match s
    case Sacola => None
    case Identificacao => Some(Sacola)
    case Entrega => Some(Identificacao)
    case Pagamento => Some(Entrega)
  }

  /** Back undoes Continue on the first three steps, and Continue undoes Back. */
  lemma BackUndoesForward(s: Step)
    ensures s != Pagamento ==> Back(Forward(s)) == Some(s)
    ensures Back(s).Some? ==> Forward(Back(s).value) == s
  {
  }

  /** `n` presses of Continue (never disabled) from step `s`. */
  function ForwardTimes(s: Step, n: nat): Step
    decreases n
  {
    if n == 0 then s else ForwardTimes(Forward(s), n - 1)
  }

  /** Continue walks the steps in order and stops at payment: after `n`
      presses the wizard is `n` steps further on, but never past payment. */
  lemma {:induction false} ForwardTimesIndex(s: Step, n: nat)
    ensures ForwardTimes(s, n).Index() == if s.Index() + n <= 3 then s.Index() + n else 3
    decreases n
  {
    if n > 0 {
      ForwardTimesIndex(Forward(s), n - 1);
    }
  }

  /** How the order reaches the customer. */
  datatype DeliveryMode = Delivery | Pickup

  /** `step === 'sacola' && !shippingData && deliveryMode === 'entrega'`: on
      the bag step, delivery needs a quote before Continue is enabled. */
  predicate ContinueDisabled(s: Step, quote: Option<ShippingQuote>, mode: DeliveryMode) {
    s == Sacola && quote.None? && mode == Delivery
  }

  /** A press of Continue: nothing when the button is disabled. */
  function PressContinue(s: Step, quote: Option<ShippingQuote>, mode: DeliveryMode): (t: Step)
    ensures s == Sacola ==> (t == Identificacao <==> quote.Some? || mode == Pickup)
    ensures s != Sacola ==> t == Forward(s)
  {
    if ContinueDisabled(s, quote, mode) then s else Forward(s)
  }

  /** Leaving the bag step needs a quote unless the order is picked up; the
      later steps never wait for one. */
  lemma PressContinueSpec(s: Step, quote: Option<ShippingQuote>, mode: DeliveryMode)
    ensures s == Sacola ==> (PressContinue(s, quote, mode) == Identificacao <==> quote.Some? || mode == Pickup)
    ensures s == Sacola ==> (PressContinue(s, quote, mode) == Sacola <==> quote.None? && mode == Delivery)
    ensures s != Sacola ==> PressContinue(s, quote, mode) == Forward(s)
  {
  }

  // ---------------------------------------------------------------------------
  // The mock quote
  // ---------------------------------------------------------------------------

  /** The CEP field: at most eight characters typed, of which only the digits are kept. */
  function CepField(typed: string): (cep: Digits)
    ensures |cep| <= 8
    ensures IsSubsequence(cep, Take(typed, 8))
    ensures IsDigits(typed) && |typed| <= 8 ==> cep == typed
  {
    DigitsOnlyIsSubsequence(Take(typed, 8));
    assert IsDigits(typed) && |typed| <= 8 ==> DigitsOnly(typed) == typed by {
      if IsDigits(typed) && |typed| <= 8 {
        DigitsOnlyOfDigits(typed);
      }
    }
    DigitsOnly(Take(typed, 8))
  }

  /** The weight in the bag: `Σ weightKg × quantity`. */
  function TotalWeight(items: seq<CartItem>): (w: real)
    ensures (forall i :: 0 <= i < |items| ==> items[i].product.weightKg >= 0.0 && items[i].quantity >= 0) ==> w >= 0.0
  {
    assert (forall i :: 0 <= i < |items| ==> items[i].product.weightKg >= 0.0 && items[i].quantity >= 0)
           ==> SumOf(items, LineWeight) >= 0.0 by {
      if forall i :: 0 <= i < |items| ==> items[i].product.weightKg >= 0.0 && items[i].quantity >= 0 {
        SumOfNonNegative(items, LineWeight);
      }
    }
    SumOf(items, LineWeight)
  }

  /** What one line weighs. */
  function LineWeight(it: CartItem): (w: real)
    ensures it.product.weightKg >= 0.0 && it.quantity >= 0 ==> w >= 0.0
    ensures it.quantity == 0 ==> w == 0.0
  {
    it.product.weightKg * it.quantity as real
  }

  /** The mock's tier of a two-digit prefix: 10-19 first, then 30-39, then
      80 and above, else the default of R$ 15 in 3 days. */
  function MockTier(prefix: int): ShippingService.Tier
  {
    if 10 <= prefix <= 19 then ShippingService.Tier(10, 2)
    else if 30 <= prefix <= 39 then ShippingService.Tier(20, 4)
    else if prefix >= 80 then ShippingService.Tier(35, 7)
    else ShippingService.Tier(15, 3)
  }

  /** The four mock tiers by prefix range. */
  lemma MockTierTable(prefix: nat)
    requires prefix <= 99
    ensures prefix < 10 || 20 <= prefix < 30 || 40 <= prefix < 80 <==> MockTier(prefix) == ShippingService.Tier(15, 3)
    ensures 10 <= prefix <= 19 <==> MockTier(prefix) == ShippingService.Tier(10, 2)
    ensures 30 <= prefix <= 39 <==> MockTier(prefix) == ShippingService.Tier(20, 4)
    ensures 80 <= prefix <= 99 <==> MockTier(prefix) == ShippingService.Tier(35, 7)
  {
  }

  /** `${days} a ${days + 3} dias úteis`. */
  function TimeLabel(days: nat): (l: string)
    ensures StartsWith(l, NatToString(days))
    ensures |l| >= |" dias úteis"| && l[|l| - |" dias úteis"|..] == " dias úteis"
  {
    NatToString(days) + " a " + NatToString(days + 3) + " dias úteis"
  }

  /** The label opens with the day count, printed so that it reads back. */
  lemma TimeLabelReadsBack(days: nat)
    ensures StartsWith(TimeLabel(days), NatToString(days))
    ensures DigitsValue(NatToString(days)) == days
    ensures DigitsValue(NatToString(days + 3)) == days + 3
  {
    NatToStringRoundTrip(days);
    NatToStringRoundTrip(days + 3);
    assert TimeLabel(days)[..|NatToString(days)|] == NatToString(days);
  }

  /** The mock quote for a CEP of at least eight digits: the tier of
      `parseInt(cep.substring(0, 2))` plus R$ 5 per kilogram. */
  function MockQuote(cep: Digits, items: seq<CartItem>): (q: ShippingQuote)
    requires |cep| >= 8
    ensures q.price - TotalWeight(items) * 5.0 in {10.0, 15.0, 20.0, 35.0}
  {
    var tier := MockTier(DigitsValue(cep[..2]));
    ShippingQuote(tier.basePrice as real + TotalWeight(items) * 5.0, TimeLabel(tier.days))
  }

  /** `handleCalculateShipping`: a CEP shorter than eight digits leaves the
      quote as it was; otherwise the mock quote replaces it. */
  function CalculateShippingMock(cep: Digits, items: seq<CartItem>, current: Option<ShippingQuote>): (r: Option<ShippingQuote>)
    ensures |cep| < 8 ==> r == current
    ensures |cep| >= 8 ==> r.Some?
  {
    if |cep| < 8 then current else Some(MockQuote(cep, items))
  }

  /** A mock quote costs the tier's base plus five reais per kilogram, and
      its label names the tier's delivery window. */
  lemma MockQuoteSpec(cep: Digits, items: seq<CartItem>)
    requires |cep| >= 8
    ensures var prefix := 10 * DigitValue(cep[0]) + DigitValue(cep[1]);
            var q := MockQuote(cep, items);
            q.price == MockTier(prefix).basePrice as real + 5.0 * TotalWeight(items)
            && q.time == TimeLabel(MockTier(prefix).days)
  {
    TwoDigitsRange(cep[..2]);
  }

  /** A heavier bag never gets a cheaper mock quote for the same CEP. */
  lemma MockQuoteMonotone(cep: Digits, a: seq<CartItem>, b: seq<CartItem>)
    requires |cep| >= 8
    requires TotalWeight(a) <= TotalWeight(b)
    ensures MockQuote(cep, a).price <= MockQuote(cep, b).price
  {
  }

  /** With non-negative weights and quantities the quote is at least the tier's base, so at least R$ 10. */
  lemma MockQuoteAtLeastBase(cep: Digits, items: seq<CartItem>)
    requires |cep| >= 8
    requires forall i :: 0 <= i < |items| ==> items[i].product.weightKg >= 0.0 && items[i].quantity >= 0
    ensures MockQuote(cep, items).price >= MockTier(DigitsValue(cep[..2])).basePrice as real >= 10.0
  {
    forall i | 0 <= i < |items|
      ensures LineWeight(items[i]) >= 0.0
    {
      NonNegativeProduct(items[i].product.weightKg, items[i].quantity as real);
    }
    SumOfNonNegative(items, LineWeight);
  }

  /** A product of non-negative numbers is non-negative. */
  lemma NonNegativeProduct(x: real, y: real)
    requires x >= 0.0 && y >= 0.0
    ensures x * y >= 0.0
  {
  }

  // ---------------------------------------------------------------------------
  // Totals
  // ---------------------------------------------------------------------------

  /** `deliveryMode === 'retirada' ? 0 : (shippingData?.price || 0)`. */
  function FinalShippingPrice(mode: DeliveryMode, quote: Option<ShippingQuote>): (c: real)
    ensures mode == Pickup || quote.None? ==> c == 0.0
    ensures mode == Delivery && quote.Some? ==> c == quote.value.price
  {
    if mode == Pickup then 0.0
    else match quote
      case Some(q) => q.price
      case None => 0.0
  }

  /** `cartTotal + finalShippingPrice`. */
  function FinalTotal(items: seq<CartItem>, mode: DeliveryMode, quote: Option<ShippingQuote>): (t: real)
    ensures mode == Pickup ==> t == CartTotal(items)
    ensures (quote.Some? ==> quote.value.price >= 0.0) ==> t >= CartTotal(items)
  {
    CartTotal(items) + FinalShippingPrice(mode, quote)
  }

  /** Pickup costs the bag alone; delivery adds the quoted price, which never
      lowers the total when it is not negative. */
  lemma FinalTotalSpec(items: seq<CartItem>, mode: DeliveryMode, quote: Option<ShippingQuote>)
    ensures mode == Pickup ==> FinalTotal(items, mode, quote) == CartTotal(items)
    ensures mode == Delivery && quote.Some? ==> FinalTotal(items, mode, quote) == CartTotal(items) + quote.value.price
    ensures (quote.Some? ==> quote.value.price >= 0.0) ==> FinalTotal(items, mode, quote) >= CartTotal(items)
  {
  }

  /** `items.length === 0`: the page shows the empty-bag message instead of the wizard. */
  predicate EmptyBag(items: seq<CartItem>) {
    |items| == 0
  }
}

=== FILE: dashboard.dfy ===
/** The admin dashboard's figures (components/admin/Dashboard.tsx): the
    number of products, of active products, the total stock and the number
    of products running low. Stock is a whole number on every product, so
    `stock || 0` is the stock itself. */
module Dashboard {
  import opened Seqs
  import opened Types

  /** Below this many units a product counts as running low. */
  const LowStockLimit: int := 5

  predicate IsActive(p: Product) {
    p.isActive
  }

  predicate IsInactive(p: Product) {
    !p.isActive
  }

  predicate IsLow(p: Product) {
    p.stock < LowStockLimit
  }

  predicate IsStocked(p: Product) {
    p.stock >= LowStockLimit
  }

  function StockOf(p: Product): int {
    p.stock
  }

  /** The four cards of the dashboard. */
  datatype Stats = Stats(total: nat, active: nat, totalStock: int, lowStock: nat)

  /** The figures of a catalogue. */
  function StatsOf(products: seq<Product>): (s: Stats)
    ensures s.total == |products|
    ensures s.active <= s.total
    ensures s.lowStock <= s.total
  {
    Stats(|products|, CountWhere(products, IsActive), SumOfInt(products, StockOf), CountWhere(products, IsLow))
  }

  /** Every product is either active or not: the active count and the
      inactive count make up the total. */
  lemma ActivePlusInactive(products: seq<Product>)
    ensures StatsOf(products).active + CountWhere(products, IsInactive) == StatsOf(products).total
  {
    CountSplit(products, IsActive, IsInactive);
  }

  /** Every product is active exactly when the two counts agree, and none
      is running low exactly when the low-stock count is zero. */
  lemma AllActiveIff(products: seq<Product>)
    ensures StatsOf(products).active == StatsOf(products).total <==>
              forall i :: 0 <= i < |products| ==> products[i].isActive
    ensures StatsOf(products).lowStock == 0 <==>
              forall i :: 0 <= i < |products| ==> products[i].stock >= LowStockLimit
  {
    CountWhereAll(products, IsActive);
    CountWhereAll(products, IsStocked);
    CountSplit(products, IsLow, IsStocked);
  }

  /** An empty catalogue shows zeros everywhere. */
  lemma EmptyCatalogue()
    ensures StatsOf([]) == Stats(0, 0, 0, 0)
  {
  }

  /** With no negative stock, each product that is not running low holds at
      least five units, so the total stock is at least five times the number
      of products that are not low. */
  lemma {:induction false} StockBound(products: seq<Product>)
    requires forall i :: 0 <= i < |products| ==> products[i].stock >= 0
    ensures StatsOf(products).totalStock >= LowStockLimit * (StatsOf(products).total - StatsOf(products).lowStock)
    ensures StatsOf(products).totalStock >= 0
    decreases |products|
  {
    if |products| > 0 {
      var n := |products| - 1;
      var init, last := products[..n], products[n];
      assert products == init + [last];
      StockBound(init);
      FilterConcat(init, [last], IsLow);
      assert Filter([last], IsLow) == (if IsLow(last) then [last] else []) by {
        assert [last][1..] == [];
      }
    }
  }

  /** One product's stock changing changes the total stock by the same amount. */
  lemma StockChange(products: seq<Product>, k: nat, stock: int)
    requires k < |products|
    ensures StatsOf(products[k := products[k].(stock := stock)]).totalStock
            == StatsOf(products).totalStock - products[k].stock + stock
  {
    SumOfIntPointChange(products, products[k := products[k].(stock := stock)], k, StockOf);
  }
}

=== FILE: filters.dfy ===
/** The filter bar (components/FilterBar.tsx): list-value toggles, the two
    price inputs and the price chip's clear button. */
module FilterBar {
  import opened Seqs
  import opened Types
  import opened Listing

  /** The four list-valued fields of the filter state. */
  datatype ListField = CategoryField | ColorsField | SizesField | BrandsField

  /** The values selected in one list field. */
  function Values(f: FilterState, k: ListField): seq<string>
  {
    match k
    case CategoryField => f.category
    case ColorsField => f.colors
    case SizesField => f.sizes
    case BrandsField => f.brands
  }

  /** `toggleFilter(type, value)`: the value is removed from the named list if
      present, appended otherwise; nothing else changes. */
  function ToggleFilter(f: FilterState, k: ListField, v: string): (r: FilterState)
    ensures v in Values(r, k) <==> v !in Values(f, k)
    ensures v !in Values(f, k) ==> Values(r, k) == Values(f, k) + [v]
    ensures forall x :: x != v ==> (x in Values(r, k) <==> x in Values(f, k))
    ensures forall other :: other != k ==> Values(r, other) == Values(f, other)
    ensures r.minPrice == f.minPrice && r.maxPrice == f.maxPrice
  {
    var t := Toggle(Values(f, k), v);
    match k
    case CategoryField => f.(category := t)
    case ColorsField => f.(colors := t)
    case SizesField => f.(sizes := t)
    case BrandsField => f.(brands := t)
  }

  /** Toggling a value twice restores the filters when it was not selected. */
  lemma ToggleTwiceRestores(f: FilterState, k: ListField, v: string)
    requires v !in Values(f, k)
    ensures ToggleFilter(ToggleFilter(f, k, v), k, v) == f
  {
    ToggleTwiceAbsent(Values(f, k), v);
  }

  /** On duplicate-free lists a toggle moves the active-filter count by exactly one. */
  lemma ToggleMovesCountByOne(f: FilterState, k: ListField, v: string)
    requires NoDuplicates(Values(f, k))
    ensures ActiveFiltersCount(ToggleFilter(f, k, v))
            == ActiveFiltersCount(f) + (if v in Values(f, k) then -1 else 1)
    ensures NoDuplicates(Values(ToggleFilter(f, k, v), k))
  {
    ToggleNoDuplicates(Values(f, k), v);
    if v in Values(f, k) {
      RemoveAllLength(Values(f, k), v);
    }
  }

  /** A price input: `e.target.value ? Number(e.target.value) : ''`. The text
      to number conversion is a parameter. */
  function PriceInput(text: string, toNumber: string -> real): (b: PriceBound)
    ensures b.Unset? <==> text == ""
  {
    if text != "" then Bound(toNumber(text)) else Unset
  }

  /** Typing into the minimum field. */
  function SetMinPrice(f: FilterState, text: string, toNumber: string -> real): (r: FilterState)
    ensures r.minPrice.Unset? <==> text == ""
    ensures r.(minPrice := f.minPrice) == f
  {
    f.(minPrice := PriceInput(text, toNumber))
  }

  /** Typing into the maximum field. */
  function SetMaxPrice(f: FilterState, text: string, toNumber: string -> real): (r: FilterState)
    ensures r.maxPrice.Unset? <==> text == ""
    ensures r.(maxPrice := f.maxPrice) == f
  {
    f.(maxPrice := PriceInput(text, toNumber))
  }

  /** The price chip's clear button: both bounds emptied, list filters untouched. */
  function ClearPrice(f: FilterState): (r: FilterState)
    ensures r.minPrice == Unset && r.maxPrice == Unset
    ensures forall k :: Values(r, k) == Values(f, k)
  {
    f.(minPrice := Unset, maxPrice := Unset)
  }

  /** Clearing the price range removes its one count and no other. */
  lemma ClearPriceCount(f: FilterState)
    ensures ActiveFiltersCount(ClearPrice(f))
            == ActiveFiltersCount(f) - (if f.minPrice != Unset || f.maxPrice != Unset then 1 else 0)
  {
  }

  /** Clearing the typed bound restores a filter state without that bound. */
  lemma EmptyInputClears(f: FilterState, toNumber: string -> real)
    ensures SetMinPrice(SetMaxPrice(f, "", toNumber), "", toNumber) == ClearPrice(f)
  {
  }
}

=== FILE: home.dfy ===
/** The home page (components/Home.tsx): the two showcases, the filtered and
    sorted catalogue and its "load more" pagination. */
module Home {
  import opened Wrappers
  import opened Seqs
  import opened Types
  import opened Listing

  /** How many products each showcase holds. */
  const ShowcaseSize: nat := 4

  /** How many results are displayed at first. */
  const InitialDisplayCount: nat := 8

  /** How many more results each "load more" click displays. */
  const LoadMoreStep: nat := 4

  predicate IsLaunch(p: Product) {
    p.isLaunch
  }

  predicate IsBestSeller(p: Product) {
    p.isBestSeller
  }

  /** `activeProducts.filter(p => p.isLaunch).slice(0, 4)`. */
  function NewArrivals(products: seq<Product>): (r: seq<Product>)
    ensures |r| <= ShowcaseSize
    ensures forall p :: p in r ==> p in products && p.isActive && p.isLaunch
  {
    Take(Filter(ActiveProducts(products), IsLaunch), ShowcaseSize)
  }

  /** `activeProducts.filter(p => p.isBestSeller).slice(0, 4)`. */
  function BestSellers(products: seq<Product>): (r: seq<Product>)
    ensures |r| <= ShowcaseSize
    ensures forall p :: p in r ==> p in products && p.isActive && p.isBestSeller
  {
    Take(Filter(ActiveProducts(products), IsBestSeller), ShowcaseSize)
  }

  /** The new-arrivals showcase is the first four active launches of the
      catalogue, and it is full whenever there are four of them. */
  lemma NewArrivalsAreFirstLaunches(products: seq<Product>)
    ensures NewArrivals(products)
            == Take(Filter(products, (p: Product) => p.isActive && p.isLaunch), ShowcaseSize)
    ensures |Filter(products, (p: Product) => p.isActive && p.isLaunch)| >= ShowcaseSize
            ==> |NewArrivals(products)| == ShowcaseSize
  {
    FilterFusion(products, IsActive, IsLaunch, (p: Product) => p.isActive && p.isLaunch);
  }

  /** The best-seller showcase is the first four active best sellers of the catalogue. */
  lemma BestSellersAreFirstBestSellers(products: seq<Product>)
    ensures BestSellers(products)
            == Take(Filter(products, (p: Product) => p.isActive && p.isBestSeller), ShowcaseSize)
  {
    FilterFusion(products, IsActive, IsBestSeller, (p: Product) => p.isActive && p.isBestSeller);
  }

  /** The filtered active products, before any sort. */
  function Filtered(products: seq<Product>, f: FilterState): (r: seq<Product>)
    ensures forall p :: p in r ==> p in products && p.isActive
  {
    ApplyFilters(ActiveProducts(products), f)
  }

  /** `sortProducts(filterProducts())`, with the page's own sort as written:
      'price_asc' orders by base price, whatever the promotion. */
  function Results(products: seq<Product>, f: FilterState, o: SortOption): (r: seq<Product>)
    ensures multiset(r) == multiset(Filtered(products, f))
    ensures o == PriceAsc ==> forall i, j :: 0 <= i < j < |r| ==> r[i].price <= r[j].price
  {
    SortProductsAsWritten(Filtered(products, f), o)
  }

  /** The same pipeline with the promotion-aware sort of the shop page:
      'price_asc' orders by the price paid. */
  function CorrectedResults(products: seq<Product>, f: FilterState, o: SortOption): (r: seq<Product>)
    ensures multiset(r) == multiset(Filtered(products, f))
    ensures o == PriceAsc ==> forall i, j :: 0 <= i < j < |r| ==> EffectivePrice(r[i]) <= EffectivePrice(r[j])
  {
    SortProducts(Filtered(products, f), o)
  }

  /** Two lists with the same elements, counted with multiplicity, hold the same values. */
  lemma SameMultisetSameMembers(a: seq<Product>, b: seq<Product>)
    requires multiset(a) == multiset(b)
    ensures forall p :: p in a <==> p in b
  {
    forall p
      ensures p in a <==> p in b
    {
      assert p in a <==> p in multiset(a);
      assert p in b <==> p in multiset(b);
    }
  }

  /** The page's sort and the shop's differ only in the price and discount
      orders: for 'newest', 'best_selling' and 'relevance' the home page
      lists the same products in the same order. */
  lemma ResultsAgreeOutsidePrices(products: seq<Product>, f: FilterState, o: SortOption)
    requires o.Newest? || o.BestSelling? || o.Relevance?
    ensures Results(products, f, o) == CorrectedResults(products, f, o)
  {
    if !o.Relevance? {
      SortByCongruent(Filtered(products, f), (p: Product) => SortKeyAsWritten(o, p), (p: Product) => SortKey(o, p));
    }
  }

  /** The results, with either sort, are exactly the active products meeting
      every switched-on criterion, each appearing as often as in the catalogue. */
  lemma ResultsSpec(products: seq<Product>, f: FilterState, o: SortOption)
    ensures forall p :: p in Results(products, f, o) <==> p in products && p.isActive && MeetsCriteria(f, p)
    ensures forall p :: p in CorrectedResults(products, f, o) <==> p in Results(products, f, o)
    ensures multiset(Results(products, f, o)) <= multiset(products)
  {
    var active := ActiveProducts(products);
    var filtered := Filtered(products, f);
    FilterResults(active, f);
    SubsequenceSubMultiset(filtered, active);
    SubsequenceSubMultiset(active, products);
    SameMultisetSameMembers(Results(products, f, o), filtered);
    SameMultisetSameMembers(CorrectedResults(products, f, o), filtered);
  }

  /** `filteredProducts.slice(0, displayCount)`. */
  function Displayed(results: seq<Product>, displayCount: nat): (r: seq<Product>)
    ensures |r| == if displayCount < |results| then displayCount else |results|
    ensures r == results[..|r|]
  {
    Take(results, displayCount)
  }

  /** The "load more" button is shown while fewer results are displayed than exist. */
  predicate ShowLoadMore(results: seq<Product>, displayCount: nat) {
    displayCount < |results|
  }

  /** The button is hidden exactly when every result is displayed. */
  lemma LoadMoreHiddenIffAllShown(results: seq<Product>, displayCount: nat)
    ensures !ShowLoadMore(results, displayCount) <==> Displayed(results, displayCount) == results
  {
    if ShowLoadMore(results, displayCount) {
      assert |Displayed(results, displayCount)| < |results|;
    }
  }

  /** The display count after `k` clicks on "load more". */
  function DisplayCountAfter(k: nat): nat
  {
    if k == 0 then InitialDisplayCount else DisplayCountAfter(k - 1) + LoadMoreStep
  }

  /** Each click shows four more: after `k` clicks `8 + 4k` results are displayable. */
  lemma {:induction false} DisplayCountAfterClicks(k: nat)
    ensures DisplayCountAfter(k) == InitialDisplayCount + LoadMoreStep * k
  {
    if k > 0 {
      DisplayCountAfterClicks(k - 1);
    }
  }

  /** Enough clicks always reach the end of the results, and then the button is gone. */
  lemma ClicksReachEnd(results: seq<Product>, k: nat)
    requires InitialDisplayCount + LoadMoreStep * k >= |results|
    ensures !ShowLoadMore(results, DisplayCountAfter(k))
    ensures Displayed(results, DisplayCountAfter(k)) == results
  {
    DisplayCountAfterClicks(k);
  }

  // ---------------------------------------------------------------------------
  // The sort as the page writes it
  // ---------------------------------------------------------------------------

  /** The keys of Home.tsx's own `sortProducts`. Its price and discount
      comparators read `salePrice`, a field products do not have, so the
      promotional price is ignored: the price orders use the base price and
      every product's discount is 0. */
  function SortKeyAsWritten(o: SortOption, p: Product): real
  {
    match o
    case Newest => -(p.createdAt as real)
    case BestSelling => -(p.soldCount as real)
    case PriceAsc => p.price
    case PriceDesc => -p.price
    case Discount => 0.0
    case Relevance => 0.0
  }

  /** Home.tsx's `sortProducts` as written. */
  function SortProductsAsWritten(s: seq<Product>, o: SortOption): (r: seq<Product>)
    ensures multiset(r) == multiset(s)
    ensures o == PriceAsc ==> forall i, j :: 0 <= i < j < |r| ==> r[i].price <= r[j].price
    ensures o == PriceDesc ==> forall i, j :: 0 <= i < j < |r| ==> r[i].price >= r[j].price
  {
    if o == Relevance then s
    else
      var r := SortBy(s, (p: Product) => SortKeyAsWritten(o, p));
      assert forall i, j :: 0 <= i < j < |r| ==> SortKeyAsWritten(o, r[i]) <= SortKeyAsWritten(o, r[j]);
      r
  }

  /** As written, "biggest discount" never reorders anything. */
  lemma AsWrittenDiscountIsIdentity(s: seq<Product>)
    ensures SortProductsAsWritten(s, Discount) == s
  {
    SortBySorted(s, (p: Product) => SortKeyAsWritten(Discount, p));
  }

  /** A product for the counterexample below. */
  function Sample(id: string, price: real, promo: Option<real>): Product
  {
    Product(id, id, "", price, promo, "Vestidos", None, "", [], [], 1,
            0.3, 25.0, 18.0, 4.0, true, false, false, 0, None, 0)
  }

  /** A dress at R$ 100 on promotion for R$ 50 and a dress at R$ 80: sorting by
      lowest price as written puts the R$ 80 dress first, although the
      shopper pays R$ 50 for the other one; the corrected sort puts it first. */
  lemma AsWrittenPriceSortIgnoresPromotion()
    ensures SortProductsAsWritten([PromoDress(), PlainDress()], PriceAsc) == [PlainDress(), PromoDress()]
    ensures SortProducts([PromoDress(), PlainDress()], PriceAsc) == [PromoDress(), PlainDress()]
    ensures EffectivePrice(PromoDress()) < EffectivePrice(PlainDress())
  {
    AsWrittenOrder();
    CorrectedOrder();
  }

  /** R$ 100 on promotion for R$ 50. */
  function PromoDress(): Product {
    Sample("a", 100.0, Some(50.0))
  }

  /** R$ 80, no promotion. */
  function PlainDress(): Product {
    Sample("b", 80.0, None)
  }

  /** The as-written sort orders the pair by base price. */
  lemma AsWrittenOrder()
    ensures SortProductsAsWritten([PromoDress(), PlainDress()], PriceAsc) == [PlainDress(), PromoDress()]
  {
    var a, b := PromoDress(), PlainDress();
    var written := (p: Product) => SortKeyAsWritten(PriceAsc, p);
    assert SortBy([b], written) == [b];
    assert [a, b][1..] == [b];
    assert Insert(a, [b], written) == [b] + Insert(a, [], written);
  }

  /** The corrected sort orders the pair by the price paid. */
  lemma CorrectedOrder()
    ensures SortProducts([PromoDress(), PlainDress()], PriceAsc) == [PromoDress(), PlainDress()]
  {
    var a, b := PromoDress(), PlainDress();
    var fixed := (p: Product) => SortKey(PriceAsc, p);
    assert SortBy([b], fixed) == [b];
    assert [a, b][1..] == [b];
    assert Insert(a, [b], fixed) == [a, b];
  }

  /** On the home page itself, with no filter set, 'price_asc' lists the
      R$ 80 dress before the dress the shopper pays R$ 50 for, while the
      promotion-aware pipeline lists them the other way round. */
  lemma HomeListsPlainDressFirst()
    ensures Results([PromoDress(), PlainDress()], EmptyFilters, PriceAsc) == [PlainDress(), PromoDress()]
    ensures CorrectedResults([PromoDress(), PlainDress()], EmptyFilters, PriceAsc) == [PromoDress(), PlainDress()]
  {
    PairUnfiltered();
    AsWrittenOrder();
    CorrectedOrder();
  }

  /** Both dresses are active, so with no filter set both are results. */
  lemma PairUnfiltered()
    ensures Filtered([PromoDress(), PlainDress()], EmptyFilters) == [PromoDress(), PlainDress()]
  {
    var s := [PromoDress(), PlainDress()];
    FilterAll(s, IsActive);
    NoFiltersKeepAll(s);
  }
}

=== FILE: listing.dfy ===
/** The catalogue query shared by the home page (components/Home.tsx) and the
    shop page (components/Shop.tsx): the active-filter count, the conjunctive
    filter chain and the promotion-aware sort orders. */
module Listing {
  import opened Wrappers
  import opened Seqs
  import opened Types

  /** `products.filter(p => p.isActive)`. */
  function ActiveProducts(products: seq<Product>): (r: seq<Product>)
    ensures forall p :: p in r <==> p in products && p.isActive
    ensures IsSubsequence(r, products)
  {
    FilterIsSubsequence(products, IsActive);
    Filter(products, IsActive)
  }

  predicate IsActive(p: Product) {
    p.isActive
  }

  /** `getActiveFiltersCount()`: one per selected list value, plus one for a price range. */
  function ActiveFiltersCount(f: FilterState): (n: nat)
    ensures n == 0 <==> f == EmptyFilters
  {
    |f.category| + |f.colors| + |f.sizes| + |f.brands|
    + (if f.minPrice != Unset || f.maxPrice != Unset then 1 else 0)
  }

  /** `clearFilters()`: every list emptied and both bounds set to the empty marker. */
  function ClearFilters(f: FilterState): (r: FilterState)
    ensures ActiveFiltersCount(r) == 0
  {
    EmptyFilters
  }

  // ---------------------------------------------------------------------------
  // The six criteria
  // ---------------------------------------------------------------------------

  /** `filters.category.includes(p.category)`. */
  predicate InCategory(f: FilterState, p: Product) {
    p.category in f.category
  }

  /** `p.colors.some(c => filters.colors.includes(c))`. */
  predicate SharesColor(f: FilterState, p: Product) {
    exists i :: 0 <= i < |p.colors| && p.colors[i] in f.colors
  }

  /** `p.brand && filters.brands.includes(p.brand)`: a missing or empty brand never matches. */
  predicate BrandListed(f: FilterState, p: Product) {
    HasBrand(p) && p.brand.value in f.brands
  }

  /** `p.sizes.some(s => filters.sizes.includes(s))`. */
  predicate SharesSize(f: FilterState, p: Product) {
    exists i :: 0 <= i < |p.sizes| && p.sizes[i] in f.sizes
  }

  /** `p.price >= Number(filters.minPrice)`: the base price, not the promotional one. */
  predicate AboveMin(f: FilterState, p: Product) {
    f.minPrice.Bound? ==> p.price >= f.minPrice.value
  }

  /** `p.price <= Number(filters.maxPrice)`. */
  predicate BelowMax(f: FilterState, p: Product) {
    f.maxPrice.Bound? ==> p.price <= f.maxPrice.value
  }

  /** A product passes every criterion that is switched on; an empty list or
      an empty bound switches its criterion off. */
  predicate MeetsCriteria(f: FilterState, p: Product) {
    (|f.category| > 0 ==> InCategory(f, p))
    && (|f.colors| > 0 ==> SharesColor(f, p))
    && (|f.brands| > 0 ==> BrandListed(f, p))
    && (|f.sizes| > 0 ==> SharesSize(f, p))
    && (f.minPrice.Bound? ==> AboveMin(f, p))
    && (f.maxPrice.Bound? ==> BelowMax(f, p))
  }

  /** The body of `filterProducts()` after its starting list: six conditional
      filter steps in the TypeScript's order. */
  function ApplyFilters(s: seq<Product>, f: FilterState): (r: seq<Product>)
    ensures |r| <= |s|
    ensures forall p :: p in r ==> p in s
  {
    var r1 := FilterIf(s, |f.category| > 0, (p: Product) => InCategory(f, p));
    var r2 := FilterIf(r1, |f.colors| > 0, (p: Product) => SharesColor(f, p));
    var r3 := FilterIf(r2, |f.brands| > 0, (p: Product) => BrandListed(f, p));
    var r4 := FilterIf(r3, |f.sizes| > 0, (p: Product) => SharesSize(f, p));
    var r5 := FilterIf(r4, f.minPrice.Bound?, (p: Product) => AboveMin(f, p));
    FilterIf(r5, f.maxPrice.Bound?, (p: Product) => BelowMax(f, p))
  }

  /** One conditional step after a filter is a single filter by the conjunction. */
  lemma StepFuses(s: seq<Product>, before: Product -> bool, cond: bool,
                  keep: Product -> bool, after: Product -> bool)
    requires forall p :: after(p) == (before(p) && (!cond || keep(p)))
    ensures FilterIf(Filter(s, before), cond, keep) == Filter(s, after)
  {
    var step := (p: Product) => !cond || keep(p);
    FilterIfIsFilter(Filter(s, before), cond, keep, step);
    FilterFusion(s, before, step, after);
  }

  /** The chain of six steps is one filter by `MeetsCriteria`, whatever the order of the steps. */
  lemma {:induction false} ApplyFiltersIsFilter(s: seq<Product>, f: FilterState)
    ensures ApplyFilters(s, f) == Filter(s, (p: Product) => MeetsCriteria(f, p))
  {
    var c1 := (p: Product) => |f.category| > 0 ==> InCategory(f, p);
    var c2 := (p: Product) => c1(p) && (|f.colors| > 0 ==> SharesColor(f, p));
    var c3 := (p: Product) => c2(p) && (|f.brands| > 0 ==> BrandListed(f, p));
    var c4 := (p: Product) => c3(p) && (|f.sizes| > 0 ==> SharesSize(f, p));
    var c5 := (p: Product) => c4(p) && (f.minPrice.Bound? ==> AboveMin(f, p));
    var all := (p: Product) => MeetsCriteria(f, p);
    FilterAll(s, (p: Product) => true);
    StepFuses(s, (p: Product) => true, |f.category| > 0, (p: Product) => InCategory(f, p), c1);
    StepFuses(s, c1, |f.colors| > 0, (p: Product) => SharesColor(f, p), c2);
    StepFuses(s, c2, |f.brands| > 0, (p: Product) => BrandListed(f, p), c3);
    StepFuses(s, c3, |f.sizes| > 0, (p: Product) => SharesSize(f, p), c4);
    StepFuses(s, c4, f.minPrice.Bound?, (p: Product) => AboveMin(f, p), c5);
    StepFuses(s, c5, f.maxPrice.Bound?, (p: Product) => BelowMax(f, p), all);
  }

  /** The filter keeps exactly the products that meet every switched-on
      criterion, in their original order. */
  lemma FilterResults(s: seq<Product>, f: FilterState)
    ensures forall p :: p in ApplyFilters(s, f) <==> p in s && MeetsCriteria(f, p)
    ensures IsSubsequence(ApplyFilters(s, f), s)
  {
    ApplyFiltersIsFilter(s, f);
    FilterIsSubsequence(s, (p: Product) => MeetsCriteria(f, p));
  }

  /** With no filter selected the chain changes nothing. */
  lemma NoFiltersKeepAll(s: seq<Product>)
    ensures ApplyFilters(s, EmptyFilters) == s
  {
    ApplyFiltersIsFilter(s, EmptyFilters);
    FilterAll(s, (p: Product) => MeetsCriteria(EmptyFilters, p));
  }

  // ---------------------------------------------------------------------------
  // Sorting
  // ---------------------------------------------------------------------------

  /** `p.promoPrice ? (p.price - p.promoPrice) / p.price : 0`: the fraction
      saved, zero without a (truthy) promotional price. A zero base price is
      read as no discount. */
  function DiscountRate(p: Product): (d: real)
    ensures p.price != 0.0 ==> d * p.price == p.price - EffectivePrice(p)
    ensures p.promoPrice.None? || p.promoPrice == Some(0.0) ==> d == 0.0
    ensures d != 0.0 ==> p.promoPrice.Some? && EffectivePrice(p) != p.price
    ensures 0.0 < p.promoPrice.GetOr(0.0) < p.price ==> 0.0 < d < 1.0
  {
    if p.promoPrice.Some? && p.promoPrice.value != 0.0 && p.price != 0.0
    then
      var d := (p.price - p.promoPrice.value) / p.price;
      assert 0.0 < p.promoPrice.value < p.price ==> 0.0 < d < 1.0 by {
        if 0.0 < p.promoPrice.value < p.price {
          FractionBounds(p.price - p.promoPrice.value, p.price);
        }
      }
      d
    else 0.0
  }

  /** A positive part of a larger positive whole is a fraction strictly between 0 and 1. */
  lemma FractionBounds(part: real, whole: real)
    requires 0.0 < part < whole
    ensures 0.0 < part / whole < 1.0
  {
    var d := part / whole;
    assert d * whole == part;
    if d <= 0.0 || d >= 1.0 {
      assert false;
    }
  }

  /** The ascending key a stable sort uses for each option: the comparators
      `b - a` order by the negated key. Relevance has no comparator. */
  function SortKey(o: SortOption, p: Product): real
  {
    match o
    case Newest => -(p.createdAt as real)
    case BestSelling => -(p.soldCount as real)
    case PriceAsc => EffectivePrice(p)
    case PriceDesc => -EffectivePrice(p)
    case Discount => -DiscountRate(p)
    case Relevance => 0.0
  }

  /** `sortProducts(products)` on the shop page: a stable sort by the
      option's key; 'relevance' returns the list as it is. */
  function SortProducts(s: seq<Product>, o: SortOption): (r: seq<Product>)
    ensures multiset(r) == multiset(s)
    ensures o == Relevance ==> r == s
    ensures o == Newest ==> forall i, j :: 0 <= i < j < |r| ==> r[i].createdAt >= r[j].createdAt
    ensures o == BestSelling ==> forall i, j :: 0 <= i < j < |r| ==> r[i].soldCount >= r[j].soldCount
    ensures o == PriceAsc ==> forall i, j :: 0 <= i < j < |r| ==> EffectivePrice(r[i]) <= EffectivePrice(r[j])
    ensures o == PriceDesc ==> forall i, j :: 0 <= i < j < |r| ==> EffectivePrice(r[i]) >= EffectivePrice(r[j])
    ensures o == Discount ==> forall i, j :: 0 <= i < j < |r| ==> DiscountRate(r[i]) >= DiscountRate(r[j])
  {
    if o == Relevance then s
    else
      var r := SortBy(s, (p: Product) => SortKey(o, p));
      assert forall i, j :: 0 <= i < j < |r| ==> SortKey(o, r[i]) <= SortKey(o, r[j]);
      r
  }

  /** Sorting keeps the number of products. */
  lemma SortKeepsLength(s: seq<Product>, o: SortOption)
    ensures |SortProducts(s, o)| == |s|
  {
    assert |multiset(SortProducts(s, o))| == |multiset(s)|;
  }

  /** When no two listed products share an effective price, 'price_desc' is
      'price_asc' read backwards. */
  lemma PriceDescIsReversedAsc(s: seq<Product>)
    requires KeyInjective(s, EffectivePrice)
    ensures SortProducts(s, PriceDesc) == Reverse(SortProducts(s, PriceAsc))
  {
    var up := (p: Product) => SortKey(PriceAsc, p);
    var key := (p: Product) => SortKey(PriceDesc, p);
    var asc := SortBy(s, up);
    var desc := SortBy(s, key);
    assert SortProducts(s, PriceAsc) == asc && SortProducts(s, PriceDesc) == desc;
    ReverseSorted(asc, up, key);
    ReverseMultiset(asc);
    DescKeyInjective(s, desc, key);
    SortedUnique(desc, Reverse(asc), key);
  }

  /** A rearrangement of products with distinct effective prices has
      distinct descending keys. */
  lemma DescKeyInjective(s: seq<Product>, desc: seq<Product>, key: Product -> real)
    requires KeyInjective(s, EffectivePrice) && multiset(desc) == multiset(s)
    requires forall p :: key(p) == -EffectivePrice(p)
    ensures KeyInjective(desc, key)
  {
    forall p
      ensures p in desc <==> p in s
    {
      assert p in desc <==> p in multiset(desc);
      assert p in s <==> p in multiset(s);
    }
  }

  /** Sorting a list that is already in the option's order returns it unchanged. */
  lemma SortOrderedIsIdentity(s: seq<Product>, o: SortOption)
    requires SortedBy(s, (p: Product) => SortKey(o, p))
    ensures SortProducts(s, o) == s
  {
    if o != Relevance {
      SortBySorted(s, (p: Product) => SortKey(o, p));
    }
  }
}

=== FILE: login.dfy ===
/** The sign-in form (components/auth/Login.tsx): the mode switch, the
    order of the checks made before any call to the authentication
    service, and the messages the form shows. The service's success flag is
    a parameter, and so is `priorError`: the authentication context's error
    as the form saw it when it was last drawn, before this submit. The
    handler reads that captured value, not the error the call itself
    records, so a failure reports the previous attempt's error, or the
    form's own fallback text when there was none. */
module Login {
  import opened Text

  /** The two forms of the screen. */
  datatype AuthMode = LoginMode | RegisterMode

  /** The form's state. */
  datatype FormState = FormState(
    mode: AuthMode,
    loading: bool,
    localError: string,
    successMessage: string,
    showForgotPassword: bool,
    email: string,
    password: string,
    confirmPassword: string,
    name: string)

  /** The shortest password registration accepts, in UTF-16 code units
      (`password.length`). */
  const MinPasswordLength: nat := 6

  const EmptyEmailMessage: string := "Digite seu e-mail para recuperar a senha."
  const ResetSentMessage: string := "E-mail de recuperação enviado! Verifique sua caixa de entrada."
  const ResetFailedMessage: string := "Erro ao enviar e-mail."
  const MismatchMessage: string := "As senhas não coincidem."
  const ShortPasswordMessage: string := "A senha deve ter pelo menos 6 caracteres."
  const SignInFailedMessage: string := "Ocorreu um erro. Verifique seus dados."
  const GoogleFailedMessage: string := "Falha ao conectar com Google."

  /** `toggleMode(newMode)`: the new mode, with the error, the success
      message and the password-reset view cleared. */
  function ToggleMode(st: FormState, newMode: AuthMode): (r: FormState)
    ensures r.mode == newMode
    ensures r.localError == "" && r.successMessage == "" && !r.showForgotPassword
    ensures r.(mode := st.mode, localError := st.localError, successMessage := st.successMessage,
               showForgotPassword := st.showForgotPassword) == st
  {
    st.(mode := newMode, localError := "", successMessage := "", showForgotPassword := false)
  }

  /** The call a submit makes to the authentication service, if any. */
  datatype AuthRequest =
    | NoRequest
    | ResetRequest(email: string)
    | SignInRequest(email: string, password: string)
    | RegisterRequest(name: string, email: string, password: string)
    | GoogleRequest

  /** The end of a submit: the form's state, the call made, and whether the
      page moved to the store's home. */
  datatype Submitted = Submitted(state: FormState, request: AuthRequest, navigated: bool)

  /** `authError || fallback`, with the error captured before the submit. */
  function ErrorOr(priorError: string, fallback: string): string {
    if priorError != "" then priorError else fallback
  }

  /** The local check that stops a submit before any call, if one does. */
  function LocalRejection(st: FormState): (m: string)
    ensures m in {"", EmptyEmailMessage, MismatchMessage, ShortPasswordMessage}
    ensures !st.showForgotPassword && st.mode.LoginMode? ==> m == ""
    ensures m == MismatchMessage <==> !st.showForgotPassword && st.mode.RegisterMode? && st.password != st.confirmPassword
    ensures m == ShortPasswordMessage ==> st.password == st.confirmPassword && Utf16Length(st.password) < MinPasswordLength
  {
    if st.showForgotPassword then
      (if st.email == "" then EmptyEmailMessage else "")
    else if st.mode.RegisterMode? then
      (if st.password != st.confirmPassword then MismatchMessage
       else if Utf16Length(st.password) < MinPasswordLength then ShortPasswordMessage
       else "")
    else ""
  }

  /** `handleSubmit`, given the service's success flag and the error the
      context held before the submit. */
  function Submit(st: FormState, success: bool, priorError: string): (r: Submitted)
    ensures !r.state.loading
    ensures r.request.NoRequest? <==> LocalRejection(st) != ""
    ensures r.request.NoRequest? ==> r.state.localError == LocalRejection(st) && !r.navigated
    ensures r.navigated <==> !st.showForgotPassword && !r.request.NoRequest? && success
    ensures st.showForgotPassword && !r.request.NoRequest? ==> r.request == ResetRequest(st.email)
    ensures !st.showForgotPassword && st.mode.LoginMode? ==> r.request == SignInRequest(st.email, st.password)
    ensures !st.showForgotPassword && st.mode.RegisterMode? && !r.request.NoRequest? ==>
              r.request == RegisterRequest(st.name, st.email, st.password)
              && st.password == st.confirmPassword && Utf16Length(st.password) >= MinPasswordLength
  {
    var cleared := st.(localError := "", successMessage := "", loading := true);
    var rejection := LocalRejection(st);
    if rejection != "" then
      Submitted(cleared.(localError := rejection, loading := false), NoRequest, false)
    else if st.showForgotPassword then
      if success then
        Submitted(cleared.(successMessage := ResetSentMessage, showForgotPassword := false,
                           mode := LoginMode, loading := false), ResetRequest(st.email), false)
      else
        Submitted(cleared.(localError := ErrorOr(priorError, ResetFailedMessage), loading := false),
                  ResetRequest(st.email), false)
    else
      var request := if st.mode.LoginMode? then SignInRequest(st.email, st.password)
                     else RegisterRequest(st.name, st.email, st.password);
      if success then Submitted(cleared.(loading := false), request, true)
      else Submitted(cleared.(localError := ErrorOr(priorError, SignInFailedMessage), loading := false),
                     request, false)
  }

  /** A locally rejected submit calls nothing: its end is the same whatever
      the service would have answered. */
  lemma ChecksBeforeRequest(st: FormState, s1: bool, e1: string, s2: bool, e2: string)
    requires Submit(st, s1, e1).request.NoRequest?
    ensures Submit(st, s1, e1) == Submit(st, s2, e2)
  {
  }

  /** A password reset with no e-mail shows the prompt and sends nothing. */
  lemma ForgotNeedsEmail(st: FormState, success: bool, priorError: string)
    requires st.showForgotPassword && st.email == ""
    ensures Submit(st, success, priorError).request == NoRequest
    ensures Submit(st, success, priorError).state.localError == EmptyEmailMessage
  {
  }

  /** Registration compares the passwords before it measures them: two
      different short passwords get the mismatch message; matching ones
      shorter than six characters get the length message. */
  lemma MismatchBeforeLength(st: FormState, success: bool, priorError: string)
    requires !st.showForgotPassword && st.mode.RegisterMode?
    ensures st.password != st.confirmPassword ==>
              Submit(st, success, priorError).state.localError == MismatchMessage
    ensures st.password == st.confirmPassword && Utf16Length(st.password) < MinPasswordLength ==>
              Submit(st, success, priorError).state.localError == ShortPasswordMessage
    ensures st.password == st.confirmPassword && Utf16Length(st.password) >= MinPasswordLength ==>
              Submit(st, success, priorError).request == RegisterRequest(st.name, st.email, st.password)
  {
  }

  /** Signing in makes neither password check: any password, however short
      and whatever the confirmation field holds, is sent. */
  lemma SignInSkipsPasswordChecks(st: FormState, password: string, confirm: string, success: bool, priorError: string)
    requires !st.showForgotPassword && st.mode.LoginMode?
    ensures Submit(st.(password := password, confirmPassword := confirm), success, priorError).request
            == SignInRequest(st.email, password)
  {
  }

  /** A reset that was sent returns the form to sign-in with the notice. */
  lemma ResetReturnsToSignIn(st: FormState, priorError: string)
    requires st.showForgotPassword && st.email != ""
    ensures var r := Submit(st, true, priorError);
            r.state.mode == LoginMode && !r.state.showForgotPassword
            && r.state.successMessage == ResetSentMessage && r.state.localError == ""
  {
  }

  /** `handleGoogleLogin`: the call is made with no local check; a failure
      shows its message and stops loading; a success moves on while still
      loading. */
  function GoogleLogin(st: FormState, success: bool): (r: Submitted)
    ensures r.request == GoogleRequest
    ensures r.navigated <==> success
    ensures r.state.loading <==> success
    ensures !success ==> r.state.localError == GoogleFailedMessage
    ensures success ==> r.state.localError == ""
  {
    var started := st.(localError := "", loading := true);
    if success then Submitted(started, GoogleRequest, true)
    else Submitted(started.(localError := GoogleFailedMessage, loading := false), GoogleRequest, false)
  }

  /** A failed sign-in after a clean start shows the form's fallback text,
      whatever the service reported for this attempt: the handler only sees
      the error from before the call. */
  lemma FirstFailureShowsFallback(st: FormState)
    requires !st.showForgotPassword && st.mode.LoginMode?
    ensures Submit(st, false, "").state.localError == SignInFailedMessage
    ensures !Submit(st, false, "").navigated
  {
  }

  /** A later failure shows the error left by the attempt before it. */
  lemma FailureShowsPriorError(st: FormState, priorError: string)
    requires !st.showForgotPassword && st.mode.LoginMode? && priorError != ""
    ensures Submit(st, false, priorError).state.localError == priorError
  {
  }

  /** The length rule counts code units: two letters and two emoji make six,
      so registration sends the request, though the password has only four
      characters. */
  lemma EmojiPasswordLongEnough(st: FormState, success: bool, priorError: string)
    requires !st.showForgotPassword && st.mode.RegisterMode?
    requires st.password == "ab\U{1F600}\U{1F600}" && st.confirmPassword == st.password
    ensures Submit(st, success, priorError).request == RegisterRequest(st.name, st.email, st.password)
  {
    Utf16LengthOfEmoji();
  }
}

=== FILE: order_list.dfy ===
/** The admin order list (components/admin/OrderList.tsx): the status
    update with its payment stamp, the payment-link prompt, the search box,
    the status badge and the per-order action. The database write is
    modelled as an update of the list of orders. */
module OrderList {
  import opened Wrappers
  import opened Seqs
  import opened Text
  import opened Types

  /** The alert shown when the status write fails (no such order). */
  const UpdateFailedMessage: string := "Erro ao atualizar pedido."

  /** Some order has this id. */
  predicate HasOrder(orders: seq<Order>, id: string) {
    exists i :: 0 <= i < |orders| && orders[i].id == id
  }

  /** The order with `status` written and `paidAt` stamped with `now` for
      'pago', cleared otherwise. */
  function WithStatus(o: Order, status: OrderStatus, now: string): (r: Order)
    ensures r.status == status
    ensures r.paidAt == (if status == Paid then Some(now) else None)
    ensures r.(status := o.status, paidAt := o.paidAt) == o
  {
    o.(status := status, paidAt := if status == Paid then Some(now) else None)
  }

  /** `updateOrderStatus(orderId, status)` at time `now`: every order with the
      id is rewritten, with no look at its current state; an unknown id
      fails with the alert. */
  function UpdateOrderStatus(orders: seq<Order>, id: string, status: OrderStatus, now: string): (r: Result<seq<Order>, string>)
    ensures r.Err? <==> !HasOrder(orders, id)
    ensures r.Err? ==> r.error == UpdateFailedMessage
    ensures r.Ok? ==> |r.value| == |orders|
    ensures r.Ok? ==> forall i :: 0 <= i < |orders| ==>
              r.value[i] == (if orders[i].id == id then WithStatus(orders[i], status, now) else orders[i])
  {
    if !HasOrder(orders, id) then Err(UpdateFailedMessage)
    else Ok(seq(|orders|, i requires 0 <= i < |orders| =>
                if orders[i].id == id then WithStatus(orders[i], status, now) else orders[i]))
  }

  /** After marking an order paid it is paid with the stamp; after any other
      status it carries no stamp; the other orders do not change. */
  lemma UpdateOrderStatusSpec(orders: seq<Order>, k: nat, status: OrderStatus, now: string)
    requires k < |orders|
    ensures var r := UpdateOrderStatus(orders, orders[k].id, status, now);
            r.Ok? && r.value[k].status == status
            && (status == Paid <==> r.value[k].paidAt == Some(now))
            && (status != Paid ==> r.value[k].paidAt.None?)
            && forall i :: 0 <= i < |orders| && orders[i].id != orders[k].id ==> r.value[i] == orders[i]
  {
  }

  /** There is no guard on the current state: marking a paid order paid
      again replaces its stamp with the new time. */
  lemma RemarkingRestamps(orders: seq<Order>, k: nat, first: string, second: string)
    requires k < |orders|
    ensures var once := UpdateOrderStatus(orders, orders[k].id, Paid, first);
            once.Ok? && UpdateOrderStatus(once.value, orders[k].id, Paid, second).Ok?
            && UpdateOrderStatus(once.value, orders[k].id, Paid, second).value[k].paidAt == Some(second)
  {
    var once := UpdateOrderStatus(orders, orders[k].id, Paid, first);
    assert once.value[k].id == orders[k].id;
  }

  /** `setPaymentLink(orderId)`: the prompt's answer (`None` when it is
      cancelled) is written only when it is not empty. */
  function SetPaymentLink(orders: seq<Order>, id: string, answer: Option<string>): (r: seq<Order>)
    ensures |r| == |orders|
    ensures answer.None? || answer == Some("") ==> r == orders
    ensures forall i :: 0 <= i < |orders| ==>
              r[i] == (if orders[i].id == id && answer.Some? && answer.value != ""
                       then orders[i].(paymentLink := answer) else orders[i])
  {
    if answer.Some? && answer.value != "" then
      seq(|orders|, i requires 0 <= i < |orders| =>
        if orders[i].id == id then orders[i].(paymentLink := answer) else orders[i])
    else orders
  }

  /** `customerName.toLowerCase().includes(term.toLowerCase()) || id.includes(term)`:
      the name ignores letter case, the id does not. */
  predicate OrderMatches(term: string, o: Order) {
    Contains(ToLower(o.customerName), ToLower(term)) || Contains(o.id, term)
  }

  /** `filteredOrders`. */
  function FilteredOrders(orders: seq<Order>, term: string): (r: seq<Order>)
    ensures forall o :: o in r <==> o in orders && OrderMatches(term, o)
    ensures IsSubsequence(r, orders)
  {
    FilterIsSubsequence(orders, (o: Order) => OrderMatches(term, o));
    Filter(orders, (o: Order) => OrderMatches(term, o))
  }

  /** An empty search lists every order. */
  lemma EmptySearchListsAll(orders: seq<Order>)
    ensures FilteredOrders(orders, "") == orders
  {
    forall o: Order
      ensures OrderMatches("", o)
    {
      ContainsEmpty(o.id);
    }
    FilterAll(orders, (o: Order) => OrderMatches("", o));
  }

  /** Lower-casing the search term never loses a match by name; a match by
      id needs the id's own letter case. */
  lemma NameSearchIgnoresCase(term: string, o: Order)
    ensures Contains(ToLower(o.customerName), ToLower(term)) ==> OrderMatches(ToLower(term), o)
  {
    ToLowerIdempotent(term);
  }

  /** The badge of a status: two styled labels, and the raw text for the others. */
  datatype Badge = AwaitingBadge | PaidBadge | PlainBadge(text: string)

  /** `getStatusBadge(status)`. */
  function StatusBadge(status: OrderStatus): (b: Badge)
    ensures b == AwaitingBadge <==> status == AwaitingPayment
    ensures b == PaidBadge <==> status == Paid
    ensures b.PlainBadge? ==> b.text == status.Text()
  {
    match status
    case AwaitingPayment => AwaitingBadge
    case Paid => PaidBadge
    case Cancelled => PlainBadge(status.Text())
    case Shipped => PlainBadge(status.Text())
  }

  /** The action button of an order row. */
  datatype RowAction = MarkPaid | NotifyByWhatsApp(link: string)

  /** The WhatsApp confirmation link: the customer's phone and the first
      eight characters of the order id. */
  function WhatsAppLink(o: Order): (l: string)
    ensures StartsWith(l, "https://wa.me/" + o.customerPhone + "?text=")
  {
    var head := "https://wa.me/" + o.customerPhone + "?text=";
    var l := head + "Olá! Confirmamos o pagamento do seu pedido #" + SubstringTo(o.id, 8)
             + ". Ele já está em separação!";
    assert l[..|head|] == head;
    l
  }

  /** "Mark paid" for an unpaid order, the WhatsApp message for a paid one. */
  function ActionFor(o: Order): (a: RowAction)
    ensures a == MarkPaid <==> o.status != Paid
  {
    if o.status != Paid then MarkPaid else NotifyByWhatsApp(WhatsAppLink(o))
  }

  /** Pressing "mark paid" turns the row's action into the WhatsApp message. */
  lemma MarkPaidThenNotify(orders: seq<Order>, k: nat, now: string)
    requires k < |orders| && ActionFor(orders[k]) == MarkPaid
    ensures var r := UpdateOrderStatus(orders, orders[k].id, Paid, now);
            r.Ok? && ActionFor(r.value[k]).NotifyByWhatsApp?
  {
  }
}

=== FILE: pagbank_api.dfy ===
/** The server function that opens a PagBank order (api/pagbank/createCheckout.ts):
    request checks in a fixed order, the mapping of the cart and customer to
    the provider's order body, and the choice of the payment link. The
    provider call is a parameter: its reply is given, not fetched. */
module PagBankApi {
  import opened Wrappers
  import opened Seqs
  import opened Text

  // ---------------------------------------------------------------------------
  // Incoming request
  // ---------------------------------------------------------------------------

  /** A cart line as the browser sends it; absent fields are `None`. */
  datatype InItem = InItem(
    id: Option<string>,
    productId: Option<string>,
    name: Option<string>,
    selectedSize: Option<string>,
    selectedColor: Option<string>,
    quantity: int,
    promoPrice: Option<real>,
    price: real)

  /** The buyer as the browser sends them. */
  datatype InCustomer = InCustomer(name: string, email: string, taxId: Option<string>, phone: Option<string>)

  /** The delivery address as the browser sends it. */
  datatype InShipping = InShipping(
    price: real,
    cep: Option<string>,
    street: Option<string>,
    number: Option<string>,
    complement: Option<string>,
    neighborhood: Option<string>,
    city: Option<string>,
    state: Option<string>)

  /** The JSON body; a missing object is `None`. */
  datatype InBody = InBody(
    items: Option<seq<InItem>>,
    customer: Option<InCustomer>,
    shipping: Option<InShipping>,
    referenceId: Option<string>)

  /** A text value is truthy: present and not empty. */
  predicate Truthy(s: Option<string>) {
    s.Some? && s.value != ""
  }

  /** `a || b` on optional texts. */
  function OrElse(a: Option<string>, b: Option<string>): (r: Option<string>)
    ensures Truthy(a) ==> r == a
    ensures !Truthy(a) ==> r == b
  {
    if Truthy(a) then a else b
  }

  /** How a template literal prints an optional text. */
  function Show(s: Option<string>): string {
    match s
    case Some(t) => t
    case None => "undefined"
  }

  // ---------------------------------------------------------------------------
  // Order body sent to the provider
  // ---------------------------------------------------------------------------

  /** A provider order line; the amount is in centavos. */
  datatype OutItem = OutItem(referenceId: Option<string>, name: string, quantity: int, unitAmount: int)

  /** The buyer's phone in the provider's shape. */
  datatype Phone = Phone(country: string, area: string, number: string, kind: string)

  datatype OutCustomer = OutCustomer(name: string, email: string, taxId: Digits, phones: seq<Phone>)

  datatype OutAddress = OutAddress(
    street: Option<string>,
    number: Option<string>,
    complement: string,
    locality: Option<string>,
    city: Option<string>,
    regionCode: Option<string>,
    country: string,
    postalCode: Digits)

  datatype OrderBody = OrderBody(
    referenceId: string,
    customer: OutCustomer,
    items: seq<OutItem>,
    address: OutAddress,
    notificationUrls: seq<string>,
    paymentMethods: seq<string>)

  /** `Math.round(x * 100)`: the nearest centavo, halves rounded up. */
  function RoundCents(x: real): (c: int)
    ensures x * 100.0 - 0.5 < c as real <= x * 100.0 + 0.5
  {
    (x * 100.0 + 0.5).Floor
  }

  /** A price that is a whole number of centavos converts exactly. */
  lemma RoundCentsExact(c: int)
    ensures RoundCents(c as real / 100.0) == c
  {
    assert (c as real / 100.0) * 100.0 == c as real;
  }

  /** The price a line is charged at: `item.promoPrice || item.price`. */
  function ChargedPrice(item: InItem): (p: real)
    ensures item.promoPrice.Some? && item.promoPrice.value != 0.0 ==> p == item.promoPrice.value
    ensures item.promoPrice.None? || item.promoPrice == Some(0.0) ==> p == item.price
    ensures p != item.price ==> item.promoPrice == Some(p)
  {
    if item.promoPrice.Some? && item.promoPrice.value != 0.0 then item.promoPrice.value else item.price
  }

  /** One line in the provider's shape: the id (or product id), the name
      with size and colour, the quantity and the charged price in centavos. */
  function MapItem(item: InItem): (o: OutItem)
    ensures o.referenceId == OrElse(item.id, item.productId)
    ensures o.name == Show(item.name) + " (" + Show(item.selectedSize) + "/" + Show(item.selectedColor) + ")"
    ensures o.quantity == item.quantity
    ensures o.unitAmount == RoundCents(ChargedPrice(item))
  {
    OutItem(OrElse(item.id, item.productId),
            Show(item.name) + " (" + Show(item.selectedSize) + "/" + Show(item.selectedColor) + ")",
            item.quantity,
            RoundCents(ChargedPrice(item)))
  }

  /** The items in the provider's shape, one for one and in order. */
  function MapItems(items: seq<InItem>): (r: seq<OutItem>)
    ensures |r| == |items|
    ensures forall i :: 0 <= i < |items| ==> r[i] == MapItem(items[i])
  {
    seq(|items|, i requires 0 <= i < |items| => MapItem(items[i]))
  }

  /** A line priced in whole centavos is sent at exactly that many centavos. */
  lemma MapItemWholeCents(item: InItem, c: int)
    requires ChargedPrice(item) == c as real / 100.0
    ensures MapItem(item).unitAmount == c
  {
    RoundCentsExact(c);
  }

  /** The phone's digits split into the two-digit area code and the rest. */
  function SplitPhone(phone: string): (p: Phone)
    ensures p.area + p.number == DigitsOnly(phone)
    ensures |p.area| == if |DigitsOnly(phone)| < 2 then |DigitsOnly(phone)| else 2
    ensures p.country == "55" && p.kind == "MOBILE"
  {
    var digits := DigitsOnly(phone);
    Phone("55", SubstringTo(digits, 2), SubstringFrom(digits, 2), "MOBILE")
  }

  /** The buyer's CPF and phone cleaned to digits; `None` when either is
      missing, where the TypeScript's `replace` call throws. */
  function MapCustomer(c: InCustomer): (r: Option<OutCustomer>)
    ensures r.Some? <==> c.taxId.Some? && c.phone.Some?
    ensures r.Some? ==> r.value.taxId == DigitsOnly(c.taxId.value)
                        && r.value.phones == [SplitPhone(c.phone.value)]
                        && r.value.name == c.name && r.value.email == c.email
  {
    if c.taxId.None? || c.phone.None? then None
    else Some(OutCustomer(c.name, c.email, DigitsOnly(c.taxId.value), [SplitPhone(c.phone.value)]))
  }

  /** The address with the complement defaulting to the empty text and the
      CEP cleaned to digits; `None` when the CEP is missing and `replace` throws. */
  function MapAddress(s: InShipping): (r: Option<OutAddress>)
    ensures r.Some? <==> s.cep.Some?
    ensures r.Some? ==> r.value.postalCode == DigitsOnly(s.cep.value)
                        && r.value.complement == (if Truthy(s.complement) then s.complement.value else "")
                        && r.value.country == "BRA"
  {
    match s.cep
    case None => None
    case Some(cep) =>
      Some(OutAddress(s.street, s.number, if Truthy(s.complement) then s.complement.value else "",
                      s.neighborhood, s.city, s.state, "BRA", DigitsOnly(cep)))
  }

  /** The methods offered on the provider's page. */
  const PaymentMethods: seq<string> := ["CREDIT_CARD", "BOLETO", "PIX"]

  /** The whole order body, given the host (for the webhook address) and
      the clock (for a default reference); `None` when a mapping throws. */
  function BuildOrder(items: seq<InItem>, customer: InCustomer, shipping: InShipping,
                      referenceId: Option<string>, host: string, now: int): (r: Option<OrderBody>)
    ensures r.Some? <==> customer.taxId.Some? && customer.phone.Some? && shipping.cep.Some?
    ensures r.Some? ==> r.value.items == MapItems(items)
    ensures r.Some? ==> r.value.referenceId == (if Truthy(referenceId) then referenceId.value else "ORDER_" + IntToString(now))
  {
    match (MapCustomer(customer), MapAddress(shipping))
    case (Some(c), Some(a)) =>
      Some(OrderBody(
        if Truthy(referenceId) then referenceId.value else "ORDER_" + IntToString(now),
        c, MapItems(items), a,
        ["https://" + host + "/api/pagbank/webhook"],
        PaymentMethods))
    case _ => None
  }

  // ---------------------------------------------------------------------------
  // Provider reply and the response
  // ---------------------------------------------------------------------------

  /** A link in the provider's reply. */
  datatype Link = Link(rel: string, href: Option<string>)

  /** What the provider call produced: a parsed reply with its status, or a
      throw (network failure or unreadable body). */
  datatype ProviderReply =
    | Replied(ok: bool, status: int, orderId: Option<string>, links: Option<seq<Link>>)
    | ProviderThrew

  /** The position of the first link with `rel` 'PAY'. */
  function FindPay(links: seq<Link>): (r: Option<nat>)
    ensures r.None? <==> forall i :: 0 <= i < |links| ==> links[i].rel != "PAY"
    ensures r.Some? ==> r.value < |links| && links[r.value].rel == "PAY"
                        && forall i :: 0 <= i < r.value ==> links[i].rel != "PAY"
  {
    if |links| == 0 then None
    else if links[0].rel == "PAY" then Some(0)
    else match FindPay(links[1..])
      case None => None
      case Some(k) => Some(k + 1)
  }

  /** `links?.find(l => l.rel === 'PAY')?.href || links?.[0]?.href`. */
  function CheckoutUrl(links: Option<seq<Link>>): (u: Option<string>)
    ensures links.None? ==> u.None?
    ensures links.Some? && |links.value| == 0 ==> u.None?
  {
    match links
    case None => None
    case Some(ls) =>
      match FindPay(ls)
      case Some(k) => if Truthy(ls[k].href) then ls[k].href else if |ls| > 0 then ls[0].href else None
      case None => if |ls| > 0 then ls[0].href else None
  }

  /** The link chosen is the first PAY link when it has an address; else the
      first link of all, whatever its kind. */
  lemma CheckoutUrlChoice(ls: seq<Link>, k: nat)
    requires k < |ls| && ls[k].rel == "PAY" && forall i :: 0 <= i < k ==> ls[i].rel != "PAY"
    ensures Truthy(ls[k].href) ==> CheckoutUrl(Some(ls)) == ls[k].href
    ensures !Truthy(ls[k].href) ==> CheckoutUrl(Some(ls)) == ls[0].href
  {
    assert FindPay(ls) == Some(k);
  }

  /** Without a PAY link the first link is used. */
  lemma CheckoutUrlWithoutPay(ls: seq<Link>)
    requires |ls| > 0 && forall i :: 0 <= i < |ls| ==> ls[i].rel != "PAY"
    ensures CheckoutUrl(Some(ls)) == ls[0].href
  {
  }

  /** The HTTP response: a status with an error text, a status whose error
      text is the runtime's own exception message, or the success body. */
  datatype Response =
    | Failure(status: int, error: string)
    | Crash(status: int)
    | Success(status: int, orderId: Option<string>, links: Option<seq<Link>>, checkoutUrl: Option<string>)

  const MethodNotAllowed: string := "Method not allowed"
  const TokenMissing: string := "PAGBANK_TOKEN not configured on server"
  const MissingData: string := "Missing required checkout data"
  const ProviderError: string := "PagBank API Error"

  /** The request is missing something the order needs: no items, an empty
      item list, no customer or no shipping. */
  predicate MissingCheckoutData(b: InBody) {
    b.items.None? || |b.items.value| == 0 || b.customer.None? || b.shipping.None?
  }

  /** The request passed every check of the handler before the order is
      built: a POST with a body, a configured token and complete data. */
  predicate PassesChecks(verb: string, body: Option<InBody>, token: Option<string>) {
    verb == "POST" && body.Some? && Truthy(token) && !MissingCheckoutData(body.value)
  }

  /** The order the handler would send, once the checks have passed. */
  function OrderFor(body: InBody, host: string, now: int): Option<OrderBody>
    requires !MissingCheckoutData(body)
  {
    BuildOrder(body.items.value, body.customer.value, body.shipping.value, body.referenceId, host, now)
  }

  /** `handler(req, res)`. `body` is `None` when the request carries no
      body, so that destructuring it throws; `token` is the configured
      PagBank token; `reply` is what the provider call yields. */
  function Handle(verb: string, body: Option<InBody>, token: Option<string>,
                  host: string, now: int, reply: ProviderReply): (r: Response)
    ensures verb != "POST" ==> r == Failure(405, MethodNotAllowed)
    ensures verb == "POST" && body.None? ==> r == Crash(500)
    ensures verb == "POST" && body.Some? && !Truthy(token) ==> r == Failure(500, TokenMissing)
    ensures verb == "POST" && body.Some? && Truthy(token) && MissingCheckoutData(body.value) ==>
              r == Failure(400, MissingData)
    ensures r.Success? ==> r.status == 200 && reply.Replied? && reply.ok
                           && r.checkoutUrl == CheckoutUrl(reply.links)
    ensures r.Failure? && r.error == ProviderError ==> reply.Replied? && !reply.ok && r.status == reply.status
    ensures PassesChecks(verb, body, token) && OrderFor(body.value, host, now).None? ==> r == Crash(500)
    ensures PassesChecks(verb, body, token) && OrderFor(body.value, host, now).Some? ==>
              match reply
              case ProviderThrew => r == Crash(500)
              case Replied(ok, status, orderId, links) =>
                if ok then r == Success(200, orderId, links, CheckoutUrl(links))
                else r == Failure(status, ProviderError)
  {
    if verb != "POST" then Failure(405, MethodNotAllowed)
    else match body
      case None => Crash(500)
      case Some(b) =>
        if !Truthy(token) then Failure(500, TokenMissing)
        else if MissingCheckoutData(b) then Failure(400, MissingData)
        else match BuildOrder(b.items.value, b.customer.value, b.shipping.value, b.referenceId, host, now)
          case None => Crash(500)
          case Some(_) =>
            match reply
            case ProviderThrew => Crash(500)
            case Replied(ok, status, orderId, links) =>
              if !ok then Failure(status, ProviderError)
              else Success(200, orderId, links, CheckoutUrl(links))
  }

  /** Each check comes before the next: a later failure is only reported
      when every earlier check passed, and a success needs all of them. */
  lemma HandleOrder(verb: string, body: Option<InBody>, token: Option<string>,
                    host: string, now: int, reply: ProviderReply)
    ensures Handle(verb, body, token, host, now, reply) == Failure(500, TokenMissing) ==>
              verb == "POST" && body.Some?
    ensures Handle(verb, body, token, host, now, reply) == Failure(400, MissingData) ==>
              verb == "POST" && body.Some? && Truthy(token)
    ensures Handle(verb, body, token, host, now, reply).Success? ==>
              verb == "POST" && body.Some? && Truthy(token) && !MissingCheckoutData(body.value)
              && BuildOrder(body.value.items.value, body.value.customer.value, body.value.shipping.value,
                            body.value.referenceId, host, now).Some?
  {
  }

  /** The request checks never depend on the provider: when one fails, any
      reply gives the same response, because no provider call is made. */
  lemma ChecksPrecedeProviderCall(verb: string, body: Option<InBody>, token: Option<string>,
                                  host: string, now: int, reply1: ProviderReply, reply2: ProviderReply)
    requires verb != "POST" || body.None? || !Truthy(token) || MissingCheckoutData(body.value)
    ensures Handle(verb, body, token, host, now, reply1) == Handle(verb, body, token, host, now, reply2)
  {
  }
}

=== FILE: pagbank_service.dfy ===
/** The browser side of the PagBank checkout (services/pagbankService.ts):
    the address check made before any request, the choice of the error
    text shown to the buyer, and the result returned on success. The
    server's reply is a parameter. */
module PagBankService {
  import opened Wrappers
  import PagBankApi

  /** DELIVERY needs an address; PICKUP does not. */
  datatype DeliveryMethod = Delivery | Pickup

  /** The shipping part of the order data; absent fields are `None`. */
  datatype ShippingData = ShippingData(
    price: real,
    cep: Option<string>,
    street: Option<string>,
    number: Option<string>,
    complement: Option<string>,
    neighborhood: Option<string>,
    city: Option<string>,
    state: Option<string>)

  /** The text thrown when a delivery address is incomplete. */
  const IncompleteAddress: string := "Preencha o endereço completo para entrega."

  /** The text shown when the server gives no usable error text. */
  const GenericFailure: string := "Não foi possível iniciar o pagamento. Tente novamente."

  /** Every required address field is filled in; the complement is optional. */
  predicate AddressComplete(s: ShippingData) {
    PagBankApi.Truthy(s.cep) && PagBankApi.Truthy(s.street) && PagBankApi.Truthy(s.number)
    && PagBankApi.Truthy(s.neighborhood) && PagBankApi.Truthy(s.city) && PagBankApi.Truthy(s.state)
  }

  /** The `error` field of the server's JSON: absent, a text, or an object
      with an optional `message`. */
  datatype ErrorField = NoError | ErrorText(text: string) | ErrorObject(message: Option<string>)

  /** The server's JSON and the response's `ok` flag. `success` is `None`
      when absent (or null). */
  datatype ServerData = ServerData(
    ok: bool,
    success: Option<bool>,
    error: ErrorField,
    checkoutUrl: Option<string>,
    orderId: Option<string>)

  /** What the server call produced: its data, or a throw (network failure or unreadable body). */
  datatype ServerReply = Answered(data: ServerData) | CallThrew

  /** What the checkout result carries back to the page. */
  datatype CheckoutResult = CheckoutResult(success: bool, checkoutUrl: Option<string>, orderId: Option<string>)

  /** The outcome of `createPagBankCheckout`: a local rejection before any
      request, a server failure with the text to show, the rethrown call
      failure, or the result. */
  datatype Outcome =
    | Rejected(message: string)
    | Failed(message: string)
    | Threw
    | Started(result: CheckoutResult)

  /** `typeof error === 'string' ? error : (error?.message || generic)`: a
      text is shown as it is, even when empty; an object's message only
      when it is not empty. */
  function ErrorMessage(e: ErrorField): (m: string)
    ensures e.ErrorText? ==> m == e.text
    ensures e.NoError? ==> m == GenericFailure
    ensures e.ErrorObject? ==> m == (if PagBankApi.Truthy(e.message) then e.message.value else GenericFailure)
  {
    match e
    case ErrorText(t) => t
    case ErrorObject(msg) => if PagBankApi.Truthy(msg) then msg.value else GenericFailure
    case NoError => GenericFailure
  }

  /** The buyer always gets some text unless the server sent an empty one. */
  lemma ErrorMessageNonEmpty(e: ErrorField)
    ensures ErrorMessage(e) == "" <==> e == ErrorText("")
  {
  }

  /** `createPagBankCheckout(orderData)`. */
  function CreateCheckout(delivery: DeliveryMethod, shipping: ShippingData, reply: ServerReply): (o: Outcome)
    ensures o.Rejected? <==> delivery.Delivery? && !AddressComplete(shipping)
    ensures o.Rejected? ==> o.message == IncompleteAddress
    ensures o.Failed? <==> (delivery.Pickup? || AddressComplete(shipping))
                           && reply.Answered? && (!reply.data.ok || reply.data.success == Some(false))
    ensures o.Failed? ==> o.message == ErrorMessage(reply.data.error)
    ensures o.Started? ==> reply.Answered? && o.result.success && o.result.checkoutUrl == reply.data.checkoutUrl
    ensures o.Started? ==> o.result.orderId == reply.data.orderId
  {
    if delivery.Delivery? && !AddressComplete(shipping) then Rejected(IncompleteAddress)
    else if reply.CallThrew? then Threw
    else if !reply.data.ok || reply.data.success == Some(false) then Failed(ErrorMessage(reply.data.error))
    else Started(CheckoutResult(reply.data.success.GetOr(true), reply.data.checkoutUrl, reply.data.orderId))
  }

  /** A rejected address sends no request: the outcome is the same whatever
      the server would have answered. Pickup is never rejected. */
  lemma ValidationBeforeRequest(delivery: DeliveryMethod, shipping: ShippingData, r1: ServerReply, r2: ServerReply)
    ensures CreateCheckout(delivery, shipping, r1).Rejected? ==>
              CreateCheckout(delivery, shipping, r1) == CreateCheckout(delivery, shipping, r2)
    ensures delivery.Pickup? ==> !CreateCheckout(delivery, shipping, r1).Rejected?
  {
  }

  /** A delivery with one required field missing is rejected, whatever the
      other fields hold; the complement never matters. */
  lemma EachFieldRequired(shipping: ShippingData, reply: ServerReply, complement: Option<string>)
    ensures shipping.cep.None? || shipping.street.None? || shipping.number.None?
            || shipping.neighborhood.None? || shipping.city.None? || shipping.state.None?
            ==> CreateCheckout(Delivery, shipping, reply) == Rejected(IncompleteAddress)
    ensures CreateCheckout(Delivery, shipping.(complement := complement), reply).Rejected?
            == CreateCheckout(Delivery, shipping, reply).Rejected?
  {
  }

  /** `success ?? true`: an absent flag reads as success, and since an
      explicit `false` is a failure, every started checkout reports success. */
  lemma StartedMeansSuccess(delivery: DeliveryMethod, shipping: ShippingData, d: ServerData)
    requires d.ok && d.success != Some(false)
    requires delivery.Pickup? || AddressComplete(shipping)
    ensures CreateCheckout(delivery, shipping, Answered(d)).Started?
    ensures CreateCheckout(delivery, shipping, Answered(d)).result.success
  {
  }
}

=== FILE: product_context.dfy ===
/** The catalogue writes (context/ProductContext.tsx): the clean-up of a
    product payload before it is stored, the defaults a new product gets,
    and the flag toggles. A payload is an untyped JSON object, modelled as a
    map from keys to values; `parseFloat` is a parameter. */
module ProductContext {
  import opened Wrappers
  import opened Seqs
  import opened Text
  import opened Types

  /** A JSON object. */
  type Payload = map<string, Value>

  /** The keys whose values are read as numbers. 'salePrice' is listed; the
      promotional price, 'promoPrice', is not. */
  const NumericFields: set<string> := {"price", "salePrice", "stock", "weightKg", "lengthCm", "widthCm", "heightCm"}

  /** `parseFloat` gives a number or NaN. */
  ghost predicate IsParse(parse: string -> Value) {
    forall t :: parse(t).Num? || parse(t).NaN?
  }

  /** The value stored for a numeric key: a text has its first ',' turned
      into '.', the empty text becomes 0, and anything else goes through
      `parseFloat`. A number parses to itself; null, a boolean or the server
      timestamp print as text that is not a number. */
  function SanitizeNumber(v: Value, parse: string -> Value): (r: Value)
    ensures v == Str("") ==> r == Num(0.0)
    ensures v.Str? && v.s != "" ==> r == parse(ReplaceFirst(v.s, ',', '.'))
    ensures v.Num? ==> r == v
  {
    match v
    case Str(s) =>
      var t := ReplaceFirst(s, ',', '.');
      if t == "" then Num(0.0) else parse(t)
    case Num(x) => Num(x)
    case Strings(xs) => parse(Join(xs))
    case _ => NaN
  }

  /** How an array prints: its items joined by ','. */
  function Join(xs: seq<string>): string
  {
    if |xs| == 0 then "" else if |xs| == 1 then xs[0] else xs[0] + "," + Join(xs[1..])
  }

  /** `sanitizeProductData(data)`. */
  function Sanitize(data: Payload, parse: string -> Value): (r: Payload)
    ensures forall k :: k in r <==> k in data && data[k] != Undefined
    ensures forall k :: k in r && k !in NumericFields ==> r[k] == data[k]
    ensures forall k :: k in r && k in NumericFields ==> r[k] == SanitizeNumber(data[k], parse)
  {
    map k | k in data && data[k] != Undefined :: if k in NumericFields then SanitizeNumber(data[k], parse) else data[k]
  }

  /** After clean-up every numeric key holds a number or NaN, and cleaning
      again changes nothing. */
  lemma SanitizeIdempotent(data: Payload, parse: string -> Value)
    requires IsParse(parse)
    ensures forall k :: k in Sanitize(data, parse) && k in NumericFields ==>
              Sanitize(data, parse)[k].Num? || Sanitize(data, parse)[k].NaN?
    ensures Sanitize(Sanitize(data, parse), parse) == Sanitize(data, parse)
  {
    var once := Sanitize(data, parse);
    forall k | k in once && k in NumericFields
      ensures once[k].Num? || once[k].NaN?
    {
      var v := data[k];
      if v.Str? && v.s != "" {
        assert ReplaceFirst(v.s, ',', '.') != "";
      }
    }
  }

  /** A comma decimal separator is read as a point: "49,90" is parsed as "49.90". */
  lemma CommaIsDecimalPoint(parse: string -> Value)
    ensures SanitizeNumber(Str("49,90"), parse) == parse("49.90")
  {
    assert ReplaceFirst("49,90", ',', '.') == "49.90";
  }

  /** `addProduct(productData)`: the payload with a zero sales count and
      server timestamps for creation and update, then cleaned. */
  function AddProduct(data: Payload, parse: string -> Value): (r: Payload)
    ensures "soldCount" in r && r["soldCount"] == Num(0.0)
    ensures "createdAt" in r && r["createdAt"] == ServerTimestamp
    ensures "updatedAt" in r && r["updatedAt"] == ServerTimestamp
  {
    Sanitize(data["soldCount" := Num(0.0)]["createdAt" := ServerTimestamp]["updatedAt" := ServerTimestamp], parse)
  }

  /** `updateProduct(id, productData)`: the payload with a new update time, then cleaned. */
  function UpdateProduct(data: Payload, parse: string -> Value): (r: Payload)
    ensures "updatedAt" in r && r["updatedAt"] == ServerTimestamp
    ensures forall k :: k in data && k != "updatedAt" && k !in NumericFields && data[k] != Undefined ==>
              k in r && r[k] == data[k]
  {
    Sanitize(data["updatedAt" := ServerTimestamp], parse)
  }

  /** Whatever sales count a new product's payload carries, it is stored as 0,
      and the other non-numeric keys are stored as given. */
  lemma AddProductDefaults(data: Payload, parse: string -> Value, k: string)
    requires k in data && data[k] != Undefined && k !in NumericFields
    requires k !in {"soldCount", "createdAt", "updatedAt"}
    ensures k in AddProduct(data, parse) && AddProduct(data, parse)[k] == data[k]
    ensures AddProduct(data, parse)["soldCount"] == Num(0.0)
  {
  }

  // ---------------------------------------------------------------------------
  // Flag toggles
  // ---------------------------------------------------------------------------

  /** The three product flags the admin screens switch. */
  datatype Flag = IsActiveFlag | IsLaunchFlag | IsBestSellerFlag

  function FlagOf(p: Product, f: Flag): bool {
    match f
    case IsActiveFlag => p.isActive
    case IsLaunchFlag => p.isLaunch
    case IsBestSellerFlag => p.isBestSeller
  }

  function WithFlag(p: Product, f: Flag, b: bool): (r: Product)
    ensures FlagOf(r, f) == b
    ensures forall g :: g != f ==> FlagOf(r, g) == FlagOf(p, g)
  {
    match f
    case IsActiveFlag => p.(isActive := b)
    case IsLaunchFlag => p.(isLaunch := b)
    case IsBestSellerFlag => p.(isBestSeller := b)
  }

  /** `toggleProductStatus(id, field)` at server time `now`: the flag of the
      first product with the id is negated and written, with the update
      time, to the product document with that id; with no such product
      nothing is written. */
  function ToggleProductStatus(products: seq<Product>, id: string, f: Flag, now: int): (r: seq<Product>)
    ensures |r| == |products|
    ensures (forall i :: 0 <= i < |products| ==> products[i].id != id) ==> r == products
    ensures forall i :: 0 <= i < |products| && products[i].id != id ==> r[i] == products[i]
  {
    match FirstWithId(products, id)
    case None => products
    case Some(k) =>
      var b := !FlagOf(products[k], f);
      seq(|products|, i requires 0 <= i < |products| =>
        if products[i].id == id then WithFlag(products[i], f, b).(updatedAt := Some(now)) else products[i])
  }

  /** The position of the first product with the id. */
  function FirstWithId(products: seq<Product>, id: string): (r: Option<nat>)
    ensures r.None? <==> forall i :: 0 <= i < |products| ==> products[i].id != id
    ensures r.Some? ==> r.value < |products| && products[r.value].id == id
  {
    if |products| == 0 then None
    else if products[0].id == id then Some(0)
    else match FirstWithId(products[1..], id)
      case None => None
      case Some(k) => Some(k + 1)
  }

  /** A toggle never touches another flag, of any product, and touches no
      product with another id. */
  lemma ToggleKeepsOtherFlags(products: seq<Product>, id: string, f: Flag, now: int)
    ensures var r := ToggleProductStatus(products, id, f, now);
            forall i, g :: 0 <= i < |products| && g != f ==> FlagOf(r[i], g) == FlagOf(products[i], g)
  {
  }

  /** With product ids unique, a toggle negates exactly the named flag of
      exactly the named product, leaving its other flags alone, and a
      second toggle restores it. */
  lemma ToggleFlipsOneFlag(products: seq<Product>, k: nat, f: Flag, now: int)
    requires k < |products|
    requires forall i, j :: 0 <= i < j < |products| ==> products[i].id != products[j].id
    ensures var r := ToggleProductStatus(products, products[k].id, f, now);
            FlagOf(r[k], f) == !FlagOf(products[k], f)
            && (forall g :: g != f ==> FlagOf(r[k], g) == FlagOf(products[k], g))
            && r[k].updatedAt == Some(now)
    ensures var twice := ToggleProductStatus(ToggleProductStatus(products, products[k].id, f, now), products[k].id, f, now);
            FlagOf(twice[k], f) == FlagOf(products[k], f)
  {
    var id := products[k].id;
    assert FirstWithId(products, id) == Some(k);
    var r := ToggleProductStatus(products, id, f, now);
    assert r[k].id == id;
    forall i, j | 0 <= i < j < |r|
      ensures r[i].id != r[j].id
    {
      assert r[i].id == products[i].id && r[j].id == products[j].id;
    }
    assert FirstWithId(r, id) == Some(k);
  }
}

=== FILE: product_detail.dfy ===
/** The product page (components/ProductDetail.tsx): which product is shown,
    the quantity stepper, the add-to-cart guard and the wishlist heart. */
module ProductDetail {
  import opened Wrappers
  import opened Seqs
  import opened Types
  import CartContext
  import WishlistContext

  /** `products.find(p => p.id === id)`: the first product with the id. */
  function FindById(products: seq<Product>, id: string): (r: Option<nat>)
    ensures r.None? <==> forall i :: 0 <= i < |products| ==> products[i].id != id
    ensures r.Some? ==> r.value < |products| && products[r.value].id == id
    ensures r.Some? ==> forall i :: 0 <= i < r.value ==> products[i].id != id
  {
    if |products| == 0 then None
    else if products[0].id == id then Some(0)
    else match FindById(products[1..], id)
      case None => None
      case Some(k) => Some(k + 1)
  }

  /** What the page renders. */
  datatype View = NotFound | Detail(product: Product)

  /** `if (!product || !product.isActive)`: the not-found message unless the
      first product with the id exists and is active. */
  function ViewFor(products: seq<Product>, id: string): (v: View)
    ensures v.Detail? ==> v.product in products && v.product.id == id && v.product.isActive
    ensures v.NotFound? <==>
              (forall i :: 0 <= i < |products| ==> products[i].id != id)
              || (exists i :: 0 <= i < |products| && products[i].id == id && !products[i].isActive
                              && forall j :: 0 <= j < i ==> products[j].id != id)
  {
    match FindById(products, id)
    case None => NotFound
    case Some(k) =>
      assert forall i :: (0 <= i < |products| && products[i].id == id
                          && (forall j :: 0 <= j < i ==> products[j].id != id)) ==> i == k;
      if products[k].isActive then Detail(products[k]) else NotFound
  }

  /** With ids unique, the page shows a product exactly when it is listed and active. */
  lemma ViewWithUniqueIds(products: seq<Product>, p: Product)
    requires forall i, j :: 0 <= i < j < |products| ==> products[i].id != products[j].id
    ensures ViewFor(products, p.id) == Detail(p) <==> p in products && p.isActive
  {
    if p in products && p.isActive {
      var k :| 0 <= k < |products| && products[k] == p;
      assert FindById(products, p.id) == Some(k);
    }
  }

  // ---------------------------------------------------------------------------
  // Quantity stepper
  // ---------------------------------------------------------------------------

  /** The quantity the page starts with. */
  const InitialQuantity: int := 1

  /** `product.stock || 99`: a zero stock reads as "no limit given". */
  function StockCap(stock: int): int {
    if stock != 0 then stock else 99
  }

  /** The minus button: `Math.max(1, quantity - 1)`. */
  function Decrement(q: int): (r: int)
    ensures r >= 1
    ensures q > 1 ==> r == q - 1
    ensures q <= 1 ==> r == 1
  {
    if q - 1 > 1 then q - 1 else 1
  }

  /** The plus button: `Math.min(product.stock || 99, quantity + 1)`. */
  function Increment(stock: int, q: int): (r: int)
    ensures r <= StockCap(stock) && r <= q + 1
    ensures r == StockCap(stock) || r == q + 1
  {
    if StockCap(stock) < q + 1 then StockCap(stock) else q + 1
  }

  datatype Press = Minus | Plus

  /** The quantity after a run of presses. */
  function Run(stock: int, q: int, presses: seq<Press>): (r: int)
    ensures |presses| == 0 ==> r == q
    ensures stock >= 0 && 1 <= q <= StockCap(stock) ==> 1 <= r <= StockCap(stock)
    decreases |presses|
  {
    if |presses| == 0 then q
    else
      var next := if presses[0] == Minus then Decrement(q) else Increment(stock, q);
      Run(stock, next, presses[1..])
  }

  /** Whatever is pressed, the quantity stays between 1 and the stock cap
      when the stock is not negative. */
  lemma {:induction false} StepperBounds(stock: int, q: int, presses: seq<Press>)
    requires stock >= 0
    requires 1 <= q <= StockCap(stock)
    ensures 1 <= Run(stock, q, presses) <= StockCap(stock)
    decreases |presses|
  {
    if |presses| > 0 {
      var next := if presses[0] == Minus then Decrement(q) else Increment(stock, q);
      assert 1 <= next <= StockCap(stock);
      StepperBounds(stock, next, presses[1..]);
    }
  }

  /** From the initial quantity the stepper never leaves 1..stock for a
      product in stock, nor 1..99 for a product with zero stock. */
  lemma StepperFromStart(stock: int, presses: seq<Press>)
    requires stock >= 0
    ensures 1 <= Run(stock, InitialQuantity, presses)
    ensures stock >= 1 ==> Run(stock, InitialQuantity, presses) <= stock
    ensures stock == 0 ==> Run(stock, InitialQuantity, presses) <= 99
  {
    StepperBounds(stock, InitialQuantity, presses);
  }

  // ---------------------------------------------------------------------------
  // Add to cart and the wishlist heart
  // ---------------------------------------------------------------------------

  /** `handleAddToCart`: the cart changes only when a (non-empty) size is selected. */
  function AddSelected(items: seq<CartItem>, p: Product, size: Option<string>, q: int): (r: seq<CartItem>)
    ensures size.None? || size == Some("") ==> r == items
    ensures size.Some? && size.value != "" ==> CartContext.HasLine(r, p.id, size.value)
  {
    match size
    case Some(s) => if s != "" then CartContext.AddToCart(items, p, s, q) else items
    case None => items
  }

  /** Adding with a size puts exactly the chosen quantity more pieces in the bag. */
  lemma AddSelectedCount(items: seq<CartItem>, p: Product, size: string, q: int)
    requires size != ""
    requires CartContext.KeysUnique(items)
    ensures CartContext.CartCount(AddSelected(items, p, Some(size), q)) == CartContext.CartCount(items) + q
  {
    CartContext.AddCount(items, p, size, q);
  }

  /** `toggleWishlist`: remove the id when it is listed, add it otherwise. */
  function ToggleWishlist(ids: seq<string>, id: string): (r: seq<string>)
    ensures WishlistContext.IsInWishlist(r, id) <==> !WishlistContext.IsInWishlist(ids, id)
    ensures forall o :: o != id ==> (o in r <==> o in ids)
  {
    if WishlistContext.IsInWishlist(ids, id) then
      var r := WishlistContext.RemoveFromWishlist(ids, id);
      assert forall o :: o in Elements(r) <==> o in r;
      assert forall o :: o in Elements(ids) <==> o in ids;
      r
    else
      var r := WishlistContext.AddToWishlist(ids, id);
      assert forall o :: o in Elements(r) <==> o in r;
      assert forall o :: o in Elements(ids) <==> o in ids;
      r
  }

  /** Two presses of the heart on an unlisted product restore the wishlist;
      on a listed one they restore its set of ids. */
  lemma ToggleWishlistTwice(ids: seq<string>, id: string)
    ensures !WishlistContext.IsInWishlist(ids, id) ==> ToggleWishlist(ToggleWishlist(ids, id), id) == ids
    ensures Elements(ToggleWishlist(ToggleWishlist(ids, id), id)) == Elements(ids)
  {
    var twice := ToggleWishlist(ToggleWishlist(ids, id), id);
    if !WishlistContext.IsInWishlist(ids, id) {
      WishlistContext.RemoveUndoesAdd(ids, id);
    }
    forall o
      ensures o in Elements(twice) <==> o in Elements(ids)
    {
      assert o in Elements(twice) <==> o in twice;
      assert o in Elements(ids) <==> o in ids;
    }
  }
}

=== FILE: product_form.dfy ===
/** The admin product form (components/admin/ProductForm.tsx): the form's
    defaults and edit prefill, the size and colour toggles, and the submit
    sequence — admin check, promotional-price check, image upload, payload.
    `parseFloat`, `parseInt`, number printing and the upload call are
    parameters. */
module ProductForm {
  import opened Wrappers
  import opened Seqs
  import opened Types
  import ProductContext

  /** The form's fields, as the inputs hold them. */
  datatype FormData = FormData(
    name: string,
    description: string,
    price: string,
    promoPrice: string,
    category: string,
    brand: string,
    imageUrl: string,
    sizes: seq<string>,
    colors: seq<string>,
    stock: string,
    weightKg: string,
    lengthCm: string,
    widthCm: string,
    heightCm: string,
    isActive: bool,
    isLaunch: bool,
    isBestSeller: bool)

  /** The first brand of the catalogue's brand list. */
  const FirstBrand: string := "Completa Signature"

  /** The form of a new product. */
  const NewForm: FormData := FormData("", "", "", "", "Vestidos", FirstBrand, "", [], [],
                                      "1", "0.3", "25", "18", "4", true, false, false)

  /** A stored product as the edit screen reads it: any field may be absent. */
  datatype StoredProduct = StoredProduct(
    name: Option<string>,
    description: Option<string>,
    price: Option<real>,
    promoPrice: Option<real>,
    category: Option<string>,
    brand: Option<string>,
    imageUrl: Option<string>,
    sizes: Option<seq<string>>,
    colors: Option<seq<string>>,
    stock: Option<int>,
    weightKg: Option<real>,
    lengthCm: Option<real>,
    widthCm: Option<real>,
    heightCm: Option<real>,
    isActive: Option<bool>,
    isLaunch: Option<bool>,
    isBestSeller: Option<bool>)

  /** `s || d` for an optional text. */
  function TextOr(s: Option<string>, d: string): string {
    if s.Some? && s.value != "" then s.value else d
  }

  /** `x?.toString() || d`, printing numbers with `show`. */
  function NumberTextOr<N>(x: Option<N>, show: N -> string, d: string): string {
    if x.Some? && show(x.value) != "" then show(x.value) else d
  }

  /** The edit prefill: each field from the stored product, with the form's
      own default where the stored field is absent (or empty). */
  function Prefill(p: StoredProduct, showReal: real -> string, showInt: int -> string): (f: FormData)
    ensures p.stock.None? ==> f.stock == "1"
    ensures p.weightKg.None? ==> f.weightKg == "0.3"
    ensures p.isActive.None? ==> f.isActive
    ensures p.isLaunch.None? ==> !f.isLaunch
    ensures p.isBestSeller.None? ==> !f.isBestSeller
    ensures p.promoPrice.None? ==> f.promoPrice == ""
    ensures p.isActive.Some? ==> f.isActive == p.isActive.value
    ensures p.isLaunch.Some? ==> f.isLaunch == p.isLaunch.value
    ensures p.isBestSeller.Some? ==> f.isBestSeller == p.isBestSeller.value
    ensures p.sizes.Some? ==> f.sizes == p.sizes.value
    ensures p.colors.Some? ==> f.colors == p.colors.value
    ensures p.name.Some? && p.name.value != "" ==> f.name == p.name.value
    ensures p.description.Some? && p.description.value != "" ==> f.description == p.description.value
    ensures p.category.Some? && p.category.value != "" ==> f.category == p.category.value
    ensures p.category.None? ==> f.category == "Vestidos"
    ensures p.brand.Some? && p.brand.value != "" ==> f.brand == p.brand.value
    ensures p.brand.None? ==> f.brand == FirstBrand
    ensures p.imageUrl.Some? && p.imageUrl.value != "" ==> f.imageUrl == p.imageUrl.value
    ensures p.price.Some? && showReal(p.price.value) != "" ==> f.price == showReal(p.price.value)
    ensures p.promoPrice.Some? && showReal(p.promoPrice.value) != "" ==> f.promoPrice == showReal(p.promoPrice.value)
    ensures p.stock.Some? && showInt(p.stock.value) != "" ==> f.stock == showInt(p.stock.value)
    ensures p.weightKg.Some? && showReal(p.weightKg.value) != "" ==> f.weightKg == showReal(p.weightKg.value)
    ensures p.lengthCm.Some? && showReal(p.lengthCm.value) != "" ==> f.lengthCm == showReal(p.lengthCm.value)
    ensures p.widthCm.Some? && showReal(p.widthCm.value) != "" ==> f.widthCm == showReal(p.widthCm.value)
    ensures p.heightCm.Some? && showReal(p.heightCm.value) != "" ==> f.heightCm == showReal(p.heightCm.value)
  {
    FormData(
      TextOr(p.name, ""),
      TextOr(p.description, ""),
      NumberTextOr(p.price, showReal, ""),
      NumberTextOr(p.promoPrice, showReal, ""),
      TextOr(p.category, "Vestidos"),
      TextOr(p.brand, FirstBrand),
      TextOr(p.imageUrl, ""),
      p.sizes.GetOr([]),
      p.colors.GetOr([]),
      NumberTextOr(p.stock, showInt, "1"),
      NumberTextOr(p.weightKg, showReal, "0.3"),
      NumberTextOr(p.lengthCm, showReal, "25"),
      NumberTextOr(p.widthCm, showReal, "18"),
      NumberTextOr(p.heightCm, showReal, "4"),
      p.isActive.GetOr(true),
      p.isLaunch.GetOr(false),
      p.isBestSeller.GetOr(false))
  }

  /** A stored product with no fields at all prefills the new-product form. */
  lemma EmptyStoredPrefillsNewForm(showReal: real -> string, showInt: int -> string)
    ensures Prefill(StoredProduct(None, None, None, None, None, None, None, None, None, None,
                                  None, None, None, None, None, None, None), showReal, showInt) == NewForm
  {
  }

  /** The two list fields with checkboxes. */
  datatype ArrayField = SizesField | ColorsField

  /** `handleArrayChange(field, value)`: the value leaves the list when it is
      in it, and joins it at the end otherwise; nothing else changes. */
  function HandleArrayChange(f: FormData, field: ArrayField, value: string): (r: FormData)
    ensures field.SizesField? ==> r.(sizes := f.sizes) == f
    ensures field.ColorsField? ==> r.(colors := f.colors) == f
    ensures field.SizesField? ==> (value in r.sizes <==> value !in f.sizes)
    ensures field.ColorsField? ==> (value in r.colors <==> value !in f.colors)
    ensures field.SizesField? ==> forall v :: v != value ==> (v in r.sizes <==> v in f.sizes)
    ensures field.ColorsField? ==> forall v :: v != value ==> (v in r.colors <==> v in f.colors)
  {
    match field
    case SizesField => f.(sizes := Toggle(f.sizes, value))
    case ColorsField => f.(colors := Toggle(f.colors, value))
  }

  /** Ticking a box twice restores a list that did not hold the value. */
  lemma ArrayChangeTwice(f: FormData, field: ArrayField, value: string)
    requires field == SizesField ==> value !in f.sizes
    requires field == ColorsField ==> value !in f.colors
    ensures HandleArrayChange(HandleArrayChange(f, field, value), field, value) == f
  {
    if field == SizesField {
      ToggleTwiceAbsent(f.sizes, value);
    } else {
      ToggleTwiceAbsent(f.colors, value);
    }
  }

  // ---------------------------------------------------------------------------
  // Submit
  // ---------------------------------------------------------------------------

  const PromoTooHighMessage: string := "O preço promocional deve ser menor que o preço original."
  const UploadFallbackMessage: string := "Falha no upload via API"

  /** What the upload endpoint did: the stored image's address, or a
      failure with the error text of its reply, if any. */
  datatype UploadReply = Uploaded(url: string) | UploadRefused(error: Option<string>)

  /** What the database write did: stored, or refused with the message of
      the error the context rethrows. */
  datatype SaveReply = SaveOk | SaveRefused(message: string)

  /** The end of a submit. */
  datatype SubmitOutcome =
    | Ignored                           // not an admin: nothing happens
    | Rejected(message: string)         // the promotional price alert
    | Failed(message: string)           // the error alert
    | Saved(payload: ProductContext.Payload)

  /** `parseFloat(promo) >= parseFloat(price)`: false when either is NaN (`None`). */
  predicate PromoNotBelow(promo: string, price: string, parse: string -> Option<real>) {
    parse(promo).Some? && parse(price).Some? && parse(promo).value >= parse(price).value
  }

  /** A parse result as a JSON value. */
  function NumberValue(x: Option<real>): Value {
    match x
    case Some(v) => Num(v)
    case None => NaN
  }

  /** `productDataToSave`: the form with the image address and the numbers
      parsed; an empty promotional price is saved as null. */
  function PayloadOf(f: FormData, imageUrl: string, parse: string -> Option<real>, parseInt: string -> Option<real>): (m: ProductContext.Payload)
    ensures "promoPrice" in m
    ensures f.promoPrice == "" ==> m["promoPrice"] == Null
    ensures f.promoPrice != "" ==> m["promoPrice"] == NumberValue(parse(f.promoPrice))
    ensures "imageUrl" in m && m["imageUrl"] == Str(imageUrl)
  {
    map[
      "name" := Str(f.name),
      "description" := Str(f.description),
      "price" := NumberValue(parse(f.price)),
      "promoPrice" := (if f.promoPrice != "" then NumberValue(parse(f.promoPrice)) else Null),
      "category" := Str(f.category),
      "brand" := Str(f.brand),
      "imageUrl" := Str(imageUrl),
      "sizes" := Strings(f.sizes),
      "colors" := Strings(f.colors),
      "stock" := NumberValue(parseInt(f.stock)),
      "weightKg" := NumberValue(parse(f.weightKg)),
      "lengthCm" := NumberValue(parse(f.lengthCm)),
      "widthCm" := NumberValue(parse(f.widthCm)),
      "heightCm" := NumberValue(parse(f.heightCm)),
      "isActive" := Bool(f.isActive),
      "isLaunch" := Bool(f.isLaunch),
      "isBestSeller" := Bool(f.isBestSeller)]
  }

  /** The prefix of the error alert. */
  const ErrorAlertPrefix: string := "Ocorreu um erro: "

  /** The submit gets past the admin and promotional-price checks. */
  predicate PassesChecks(isAdmin: bool, f: FormData, parse: string -> Option<real>) {
    isAdmin && !(f.promoPrice != "" && PromoNotBelow(f.promoPrice, f.price, parse))
  }

  /** `handleSubmit`: admins only; a promotional price that is not below the
      price is refused before anything is uploaded or saved; a selected file
      is uploaded and its address replaces the image field; then the payload
      is written, and a refused upload or write shows the error alert. */
  function Submit(isAdmin: bool, f: FormData, file: bool, upload: UploadReply, save: SaveReply,
                  parse: string -> Option<real>, parseInt: string -> Option<real>): (o: SubmitOutcome)
    ensures !isAdmin ==> o == Ignored
    ensures o.Rejected? <==> isAdmin && f.promoPrice != "" && PromoNotBelow(f.promoPrice, f.price, parse)
    ensures o.Failed? <==> PassesChecks(isAdmin, f, parse) && ((file && upload.UploadRefused?) || save.SaveRefused?)
    ensures PassesChecks(isAdmin, f, parse) && !(file && upload.UploadRefused?) && save.SaveRefused? ==>
              o == Failed(ErrorAlertPrefix + save.message)
    ensures o.Saved? <==> PassesChecks(isAdmin, f, parse) && !(file && upload.UploadRefused?) && save.SaveOk?
    ensures o.Saved? && file ==> upload.Uploaded? && "imageUrl" in o.payload && o.payload["imageUrl"] == Str(upload.url)
    ensures o.Saved? && !file ==> "imageUrl" in o.payload && o.payload["imageUrl"] == Str(f.imageUrl)
  {
    if !isAdmin then Ignored
    else if f.promoPrice != "" && PromoNotBelow(f.promoPrice, f.price, parse) then Rejected(PromoTooHighMessage)
    else if file && upload.UploadRefused? then
      Failed(ErrorAlertPrefix + (if upload.error.Some? && upload.error.value != "" then upload.error.value else UploadFallbackMessage))
    else
      match save
      case SaveRefused(message) => Failed(ErrorAlertPrefix + message)
      case SaveOk => Saved(PayloadOf(f, if file then upload.url else f.imageUrl, parse, parseInt))
  }

  /** The checks come before the upload and the write: a refused submit gives
      the same outcome whatever the upload and the write would have done. */
  lemma ChecksBeforeUpload(isAdmin: bool, f: FormData, file: bool, u1: UploadReply, u2: UploadReply,
                           s1: SaveReply, s2: SaveReply,
                           parse: string -> Option<real>, parseInt: string -> Option<real>)
    requires !isAdmin || (f.promoPrice != "" && PromoNotBelow(f.promoPrice, f.price, parse))
    ensures Submit(isAdmin, f, file, u1, s1, parse, parseInt) == Submit(isAdmin, f, file, u2, s2, parse, parseInt)
  {
  }

  /** A refused upload stops the submit before the write: the outcome is the
      same whatever the write would have done. */
  lemma UploadBeforeSave(isAdmin: bool, f: FormData, upload: UploadReply, s1: SaveReply, s2: SaveReply,
                         parse: string -> Option<real>, parseInt: string -> Option<real>)
    requires upload.UploadRefused?
    ensures Submit(isAdmin, f, true, upload, s1, parse, parseInt) == Submit(isAdmin, f, true, upload, s2, parse, parseInt)
  {
  }

  /** A saved product never has a promotional price at or above its price,
      as far as both parse. An empty promotional price is stored as null,
      since the clean-up before storing leaves that key alone. */
  lemma SavedPromoBelowPrice(isAdmin: bool, f: FormData, file: bool, upload: UploadReply, save: SaveReply,
                             parse: string -> Option<real>, parseInt: string -> Option<real>,
                             parseValue: string -> Value)
    requires Submit(isAdmin, f, file, upload, save, parse, parseInt).Saved?
    ensures f.promoPrice != "" && parse(f.promoPrice).Some? && parse(f.price).Some? ==>
              parse(f.promoPrice).value < parse(f.price).value
    ensures f.promoPrice == "" ==>
              var stored := ProductContext.AddProduct(Submit(isAdmin, f, file, upload, save, parse, parseInt).payload, parseValue);
              "promoPrice" in stored && stored["promoPrice"] == Null
  {
    var payload := Submit(isAdmin, f, file, upload, save, parse, parseInt).payload;
    assert "promoPrice" in payload && payload["promoPrice"] == (if f.promoPrice != "" then NumberValue(parse(f.promoPrice)) else Null);
    ProductContext.AddProductDefaults(payload, parseValue, "promoPrice");
  }
}

=== FILE: product_list.dfy ===
/** The admin product list (components/admin/ProductList.tsx): the search
    by name or category, the count of rows found, the empty state and the
    status button. */
module ProductList {
  import opened Wrappers
  import opened Seqs
  import opened Text
  import opened Types
  import Shop
  import ProductContext

  /** `filteredProducts`: the products whose lower-cased name or category
      contains the lower-cased term, in catalogue order. */
  function Filtered(products: seq<Product>, term: string): (r: seq<Product>)
    ensures forall p :: p in r <==> p in products && Shop.SearchMatches(term, p)
    ensures IsSubsequence(r, products)
  {
    FilterIsSubsequence(products, (p: Product) => Shop.SearchMatches(term, p));
    Filter(products, (p: Product) => Shop.SearchMatches(term, p))
  }

  /** What the page shows: the rows, the "n itens encontrados" count and
      whether the "nothing found" note appears. */
  datatype ListView = ListView(rows: seq<Product>, found: nat, emptyNote: bool)

  function View(products: seq<Product>, term: string): (v: ListView)
    ensures v.found == |v.rows|
    ensures v.emptyNote <==> forall p :: p in products ==> !Shop.SearchMatches(term, p)
    ensures forall p :: p in v.rows <==> p in products && Shop.SearchMatches(term, p)
  {
    var rows := Filtered(products, term);
    assert |rows| > 0 ==> rows[0] in rows;
    ListView(rows, |rows|, |rows| == 0)
  }

  /** An empty search lists every product. */
  lemma EmptySearchListsAll(products: seq<Product>)
    ensures Filtered(products, "") == products
    ensures View(products, "").found == |products|
  {
    forall p: Product
      ensures Shop.SearchMatches("", p)
    {
      ContainsEmpty(ToLower(p.name));
    }
    FilterAll(products, (p: Product) => Shop.SearchMatches("", p));
  }

  /** The admin search is the shop's search: the same products for every
      term, the empty term included. */
  lemma SameAsShopSearch(products: seq<Product>, term: string)
    ensures Filtered(products, term) == Shop.SearchFilter(products, Some(term))
  {
    if term == "" {
      EmptySearchListsAll(products);
    }
  }

  /** The status button: `toggleProductStatus(id, 'isActive')`. */
  function ToggleStatus(products: seq<Product>, id: string, now: int): (r: seq<Product>)
    ensures |r| == |products|
    ensures forall i :: 0 <= i < |products| ==>
              r[i].isLaunch == products[i].isLaunch && r[i].isBestSeller == products[i].isBestSeller
    ensures forall i :: 0 <= i < |products| && products[i].id != id ==> r[i] == products[i]
  {
    ProductContext.ToggleKeepsOtherFlags(products, id, ProductContext.IsActiveFlag, now);
    var r := ProductContext.ToggleProductStatus(products, id, ProductContext.IsActiveFlag, now);
    assert forall i :: 0 <= i < |products| ==>
             ProductContext.FlagOf(r[i], ProductContext.IsLaunchFlag) == ProductContext.FlagOf(products[i], ProductContext.IsLaunchFlag)
             && ProductContext.FlagOf(r[i], ProductContext.IsBestSellerFlag) == ProductContext.FlagOf(products[i], ProductContext.IsBestSellerFlag);
    r
  }

  /** With unique ids, the button switches the row's product between active
      and inactive. */
  lemma StatusButtonFlips(products: seq<Product>, k: nat, now: int)
    requires k < |products|
    requires forall i, j :: 0 <= i < j < |products| ==> products[i].id != products[j].id
    ensures ToggleStatus(products, products[k].id, now)[k].isActive == !products[k].isActive
  {
    ProductContext.ToggleFlipsOneFlag(products, k, ProductContext.IsActiveFlag, now);
  }
}

=== FILE: seqs.dfy ===
/** Sequence operations the storefront uses everywhere: `Array.prototype.filter`,
    membership toggles, `slice(0, n)`, folds and the (stable) `Array.prototype.sort`. */
module Seqs {

  // ---------------------------------------------------------------------------
  // Filter
  // ---------------------------------------------------------------------------

  /** The elements of `s` that satisfy `keep`, in their original order. */
  function Filter<T(!new)>(s: seq<T>, keep: T -> bool): (r: seq<T>)
    ensures |r| <= |s|
    ensures forall x :: x in r <==> x in s && keep(x)
  {
    if |s| == 0 then []
    else
      var rest := Filter(s[1..], keep);
      assert forall x :: x in s <==> x == s[0] || x in s[1..];
      if keep(s[0]) then [s[0]] + rest else rest
  }

  /** `a` can be obtained from `b` by deleting elements (greedy matching). */
  predicate IsSubsequence<T(==,!new)>(a: seq<T>, b: seq<T>)
    decreases |b|
  {
    if |a| == 0 then true
    else if |b| == 0 then false
    else if a[0] == b[0] then IsSubsequence(a[1..], b[1..])
    else IsSubsequence(a, b[1..])
  }

  /** Dropping the first element of a subsequence leaves a subsequence. */
  lemma {:induction false} SubsequenceDropFirst<T(!new)>(a: seq<T>, b: seq<T>)
    requires |a| > 0 && IsSubsequence(a, b)
    ensures IsSubsequence(a[1..], b)
    decreases |b|, 1
  {
    assert b == [b[0]] + b[1..];
    if a[0] == b[0] {
      SubsequenceWeaken(a[1..], b[1..], b[0]);
    } else {
      SubsequenceDropFirst(a, b[1..]);
      SubsequenceWeaken(a[1..], b[1..], b[0]);
    }
  }

  /** Prepending an element to the larger sequence keeps the relation. */
  lemma {:induction false} SubsequenceWeaken<T(!new)>(a: seq<T>, b: seq<T>, x: T)
    requires IsSubsequence(a, b)
    ensures IsSubsequence(a, [x] + b)
    decreases |b|, 2
  {
    var xb := [x] + b;
    assert xb[1..] == b;
    if |a| > 0 && a[0] == x {
      SubsequenceDropFirst(a, b);
    }
  }

  /** Every subsequence is a sub-multiset: nothing is invented or duplicated. */
  lemma {:induction false} SubsequenceSubMultiset<T(!new)>(a: seq<T>, b: seq<T>)
    requires IsSubsequence(a, b)
    ensures multiset(a) <= multiset(b)
    decreases |b|
  {
    if |a| == 0 {
    } else if a[0] == b[0] {
      SubsequenceSubMultiset(a[1..], b[1..]);
      assert a == [a[0]] + a[1..];
      assert b == [b[0]] + b[1..];
    } else {
      SubsequenceSubMultiset(a, b[1..]);
      assert b == [b[0]] + b[1..];
    }
  }

  /** Filtering keeps the survivors in their original relative order. */
  lemma {:induction false} FilterIsSubsequence<T(!new)>(s: seq<T>, keep: T -> bool)
    ensures IsSubsequence(Filter(s, keep), s)
    decreases |s|
  {
    if |s| > 0 {
      FilterIsSubsequence(s[1..], keep);
      var rest := Filter(s[1..], keep);
      if keep(s[0]) {
        assert Filter(s, keep) == [s[0]] + rest;
        assert ([s[0]] + rest)[1..] == rest;
      } else {
        assert Filter(s, keep) == rest;
        SubsequenceWeaken(rest, s[1..], s[0]);
        assert [s[0]] + s[1..] == s;
      }
    }
  }

  /** Filtering a concatenation filters each part. */
  lemma {:induction false} FilterConcat<T(!new)>(a: seq<T>, b: seq<T>, keep: T -> bool)
    ensures Filter(a + b, keep) == Filter(a, keep) + Filter(b, keep)
    decreases |a|
  {
    if |a| > 0 {
      assert (a + b)[1..] == a[1..] + b;
      FilterConcat(a[1..], b, keep);
    } else {
      assert a + b == b;
    }
  }

  /** Filtering with a predicate every element meets changes nothing. */
  lemma {:induction false} FilterAll<T(!new)>(s: seq<T>, keep: T -> bool)
    requires forall x :: x in s ==> keep(x)
    ensures Filter(s, keep) == s
    decreases |s|
  {
    if |s| > 0 {
      assert forall x :: x in s[1..] ==> x in s;
      FilterAll(s[1..], keep);
      assert [s[0]] + s[1..] == s;
    }
  }

  /** Filtering out exactly the element at `k` leaves the rest in order. */
  lemma {:induction false} FilterDropsOne<T(!new)>(s: seq<T>, k: nat, keep: T -> bool)
    requires k < |s| && !keep(s[k])
    requires forall i :: 0 <= i < |s| && i != k ==> keep(s[i])
    ensures Filter(s, keep) == s[..k] + s[k + 1..]
    decreases k
  {
    assert forall i :: 0 <= i < |s[1..]| ==> s[1..][i] == s[i + 1];
    if k == 0 {
      forall x | x in s[1..]
        ensures keep(x)
      {
        var m :| 0 <= m < |s[1..]| && s[1..][m] == x;
      }
      FilterAll(s[1..], keep);
    } else {
      FilterDropsOne(s[1..], k - 1, keep);
      assert s[..k] + s[k + 1..] == [s[0]] + (s[1..][..k - 1] + s[1..][k..]);
    }
  }

  /** Filtering with a predicate no element meets leaves nothing. */
  lemma {:induction false} FilterNone<T(!new)>(s: seq<T>, keep: T -> bool)
    requires forall x :: x in s ==> !keep(x)
    ensures Filter(s, keep) == []
    decreases |s|
  {
    if |s| > 0 {
      assert forall x :: x in s[1..] ==> x in s;
      FilterNone(s[1..], keep);
    }
  }

  /** Two predicates that agree on every element of `s` filter it alike. */
  lemma {:induction false} FilterCongruent<T(!new)>(s: seq<T>, f: T -> bool, g: T -> bool)
    requires forall x :: x in s ==> f(x) == g(x)
    ensures Filter(s, f) == Filter(s, g)
    decreases |s|
  {
    if |s| > 0 {
      assert forall x :: x in s[1..] ==> x in s;
      FilterCongruent(s[1..], f, g);
    }
  }

  /** Filtering two equally long sequences gives the same result when they
      agree on which positions survive and on the surviving elements. */
  lemma {:induction false} FilterAgree<T(!new)>(a: seq<T>, b: seq<T>, keep: T -> bool)
    requires |a| == |b|
    requires forall i :: 0 <= i < |a| ==> keep(a[i]) == keep(b[i])
    requires forall i :: 0 <= i < |a| && keep(a[i]) ==> a[i] == b[i]
    ensures Filter(a, keep) == Filter(b, keep)
    decreases |a|
  {
    if |a| > 0 {
      FilterAgree(a[1..], b[1..], keep);
    }
  }

  /** A relation that holds between every earlier and later element. */
  predicate Pairwise<T(!new)>(s: seq<T>, ok: (T, T) -> bool) {
    forall i, j :: 0 <= i < j < |s| ==> ok(s[i], s[j])
  }

  /** Filtering keeps every pairwise relation, because it keeps the order. */
  lemma {:induction false} FilterPairwise<T(!new)>(s: seq<T>, keep: T -> bool, ok: (T, T) -> bool)
    requires Pairwise(s, ok)
    ensures Pairwise(Filter(s, keep), ok)
    decreases |s|
  {
    if |s| > 0 {
      assert Pairwise(s[1..], ok) by {
        forall i, j | 0 <= i < j < |s[1..]|
          ensures ok(s[1..][i], s[1..][j])
        {
          assert s[1..][i] == s[i + 1] && s[1..][j] == s[j + 1];
        }
      }
      FilterPairwise(s[1..], keep, ok);
      var rest := Filter(s[1..], keep);
      if keep(s[0]) {
        var r := [s[0]] + rest;
        forall i, j | 0 <= i < j < |r|
          ensures ok(r[i], r[j])
        {
          if i == 0 {
            assert r[j] == rest[j - 1];
            assert rest[j - 1] in s[1..];
            var m :| 0 <= m < |s[1..]| && s[1..][m] == rest[j - 1];
            assert s[m + 1] == r[j];
          } else {
            assert r[i] == rest[i - 1] && r[j] == rest[j - 1];
          }
        }
      }
    }
  }

  /** Filtering twice is filtering once by the conjunction. */
  lemma {:induction false} FilterFusion<T(!new)>(s: seq<T>, f: T -> bool, g: T -> bool, h: T -> bool)
    requires forall x :: h(x) == (f(x) && g(x))
    ensures Filter(Filter(s, f), g) == Filter(s, h)
    decreases |s|
  {
    if |s| > 0 {
      FilterFusion(s[1..], f, g, h);
      if f(s[0]) {
        assert Filter(s, f) == [s[0]] + Filter(s[1..], f);
        FilterConcat([s[0]], Filter(s[1..], f), g);
        assert Filter([s[0]], g) == (if g(s[0]) then [s[0]] else []) + Filter([s[0]][1..], g);
      }
    }
  }

  /** A conditional filter step: `if (cond) result = result.filter(keep)`. */
  function FilterIf<T(!new)>(s: seq<T>, cond: bool, keep: T -> bool): (r: seq<T>)
    ensures |r| <= |s|
    ensures forall x :: x in r <==> x in s && (cond ==> keep(x))
  {
    if cond then Filter(s, keep) else s
  }

  /** A conditional step is an unconditional filter by `!cond || keep`. */
  lemma FilterIfIsFilter<T(!new)>(s: seq<T>, cond: bool, keep: T -> bool, h: T -> bool)
    requires forall x :: h(x) == (!cond || keep(x))
    ensures FilterIf(s, cond, keep) == Filter(s, h)
  {
    if cond {
      FilterCongruent(s, keep, h);
    } else {
      FilterAll(s, h);
    }
  }

  /** The number of elements of `s` that satisfy `keep`. */
  function CountWhere<T(!new)>(s: seq<T>, keep: T -> bool): (n: nat)
    ensures n <= |s|
  {
    |Filter(s, keep)|
  }

  /** All elements are counted exactly when every element satisfies `keep`. */
  lemma {:induction false} CountWhereAll<T(!new)>(s: seq<T>, keep: T -> bool)
    ensures CountWhere(s, keep) == |s| <==> forall i :: 0 <= i < |s| ==> keep(s[i])
    decreases |s|
  {
    if |s| > 0 {
      CountWhereAll(s[1..], keep);
      assert forall i :: 0 < i < |s| ==> s[i] == s[1..][i - 1];
      assert (forall i :: 0 < i < |s| ==> keep(s[i])) <==> (forall i :: 0 <= i < |s[1..]| ==> keep(s[1..][i]));
    }
  }

  /** Every element either satisfies `keep` or does not. */
  lemma {:induction false} CountSplit<T(!new)>(s: seq<T>, keep: T -> bool, drop: T -> bool)
    requires forall x :: drop(x) == !keep(x)
    ensures CountWhere(s, keep) + CountWhere(s, drop) == |s|
    decreases |s|
  {
    if |s| > 0 {
      CountSplit(s[1..], keep, drop);
    }
  }

  // ---------------------------------------------------------------------------
  // Duplicate-free lists and membership toggles
  // ---------------------------------------------------------------------------

  /** No value occurs twice. */
  predicate NoDuplicates<T(==,!new)>(s: seq<T>) {
    forall i, j :: 0 <= i < j < |s| ==> s[i] != s[j]
  }

  /** The distinct values of a list. */
  function Elements<T(==,!new)>(s: seq<T>): set<T> {
    set x | x in s
  }

  /** A duplicate-free list has as many elements as distinct values. */
  lemma {:induction false} NoDuplicatesCardinality<T(!new)>(s: seq<T>)
    requires NoDuplicates(s)
    ensures |Elements(s)| == |s|
    decreases |s|
  {
    if |s| > 0 {
      var init := s[..|s| - 1];
      var last := s[|s| - 1];
      assert NoDuplicates(init);
      NoDuplicatesCardinality(init);
      forall k | 0 <= k < |init|
        ensures init[k] != last
      {
        assert init[k] == s[k];
      }
      assert s == init + [last];
      assert Elements(s) == Elements(init) + {last};
    }
  }

  /** Every occurrence of `v` removed: `s.filter(x => x !== v)`. */
  function RemoveAll<T(==,!new)>(s: seq<T>, v: T): (r: seq<T>)
    ensures v !in r
    ensures forall x :: x != v ==> (x in r <==> x in s)
  {
    Filter(s, (x: T) => x != v)
  }

  /** `v` removed if present, otherwise appended: the checkbox toggle. */
  function Toggle<T(==,!new)>(s: seq<T>, v: T): (r: seq<T>)
    ensures v in r <==> v !in s
    ensures forall x :: x != v ==> (x in r <==> x in s)
    ensures v !in s ==> r == s + [v]
  {
    if v in s then RemoveAll(s, v) else s + [v]
  }

  /** Removing a value that does not occur changes nothing. */
  lemma RemoveAllAbsent<T(!new)>(s: seq<T>, v: T)
    requires v !in s
    ensures RemoveAll(s, v) == s
  {
    FilterAll(s, (x: T) => x != v);
  }

  /** Removing keeps the other values in their original order. */
  lemma RemoveAllIsSubsequence<T(!new)>(s: seq<T>, v: T)
    ensures IsSubsequence(RemoveAll(s, v), s)
  {
    FilterIsSubsequence(s, (x: T) => x != v);
  }

  /** Toggling an absent value twice restores the original list. */
  lemma ToggleTwiceAbsent<T(!new)>(s: seq<T>, v: T)
    requires v !in s
    ensures Toggle(Toggle(s, v), v) == s
  {
    assert v in s + [v];
    FilterConcat(s, [v], (x: T) => x != v);
    RemoveAllAbsent(s, v);
    assert Filter([v], (x: T) => x != v) == [] + Filter([v][1..], (x: T) => x != v);
  }

  /** A filter of a duplicate-free list is duplicate-free. */
  lemma FilterNoDuplicates<T(!new)>(s: seq<T>, keep: T -> bool)
    requires NoDuplicates(s)
    ensures NoDuplicates(Filter(s, keep))
  {
    var r := Filter(s, keep);
    FilterIsSubsequence(s, keep);
    SubsequenceSubMultiset(r, s);
    forall i, j | 0 <= i < j < |r|
      ensures r[i] != r[j]
    {
      if r[i] == r[j] {
        MultisetTwice(r, i, j);
        assert multiset(s)[r[i]] >= 2;
        NoDuplicatesMultiplicity(s, r[i]);
      }
    }
  }

  /** A value at two positions occurs at least twice. */
  lemma MultisetTwice<T(!new)>(s: seq<T>, i: int, j: int)
    requires 0 <= i < j < |s| && s[i] == s[j]
    ensures multiset(s)[s[i]] >= 2
  {
    assert s == s[..i] + [s[i]] + s[i + 1..j] + [s[j]] + s[j + 1..];
  }

  /** In a duplicate-free list every value occurs at most once. */
  lemma {:induction false} NoDuplicatesMultiplicity<T(!new)>(s: seq<T>, x: T)
    requires NoDuplicates(s)
    ensures multiset(s)[x] <= 1
    decreases |s|
  {
    if |s| > 0 {
      assert NoDuplicates(s[1..]);
      NoDuplicatesMultiplicity(s[1..], x);
      assert s == [s[0]] + s[1..];
      forall k | 0 <= k < |s[1..]|
        ensures s[1..][k] != s[0]
      {
        assert s[1..][k] == s[k + 1];
      }
    }
  }

  /** Removing keeps a list duplicate-free. */
  lemma RemoveAllNoDuplicates<T(!new)>(s: seq<T>, v: T)
    requires NoDuplicates(s)
    ensures NoDuplicates(RemoveAll(s, v))
  {
    FilterNoDuplicates(s, (x: T) => x != v);
  }

  /** Removing a value that occurs once in a duplicate-free list shortens it by one. */
  lemma {:induction false} RemoveAllLength<T(!new)>(s: seq<T>, v: T)
    requires NoDuplicates(s) && v in s
    ensures |RemoveAll(s, v)| == |s| - 1
    decreases |s|
  {
    var keep := (x: T) => x != v;
    assert s == [s[0]] + s[1..];
    assert NoDuplicates(s[1..]);
    if s[0] == v {
      forall x | x in s[1..]
        ensures keep(x)
      {
        var k :| 0 <= k < |s[1..]| && s[1..][k] == x;
        assert s[k + 1] == x;
      }
      FilterAll(s[1..], keep);
    } else {
      RemoveAllLength(s[1..], v);
    }
  }

  /** Toggling keeps a list duplicate-free. */
  lemma ToggleNoDuplicates<T(!new)>(s: seq<T>, v: T)
    requires NoDuplicates(s)
    ensures NoDuplicates(Toggle(s, v))
  {
    if v in s {
      RemoveAllNoDuplicates(s, v);
    }
  }

  // ---------------------------------------------------------------------------
  // Prefixes
  // ---------------------------------------------------------------------------

  /** `s.slice(0, n)` for `n >= 0`: the first `n` elements, or all of them. */
  function Take<T(!new)>(s: seq<T>, n: nat): (r: seq<T>)
    ensures |r| == if n < |s| then n else |s|
    ensures r == s[..|r|]
  {
    if n < |s| then s[..n] else s
  }

  // ---------------------------------------------------------------------------
  // Folds
  // ---------------------------------------------------------------------------

  /** `s.reduce((acc, x) => acc + f(x), 0)` over real numbers. */
  function SumOf<T(!new)>(s: seq<T>, f: T -> real): real
  {
    if |s| == 0 then 0.0 else SumOf(s[..|s| - 1], f) + f(s[|s| - 1])
  }

  /** `s.reduce((acc, x) => acc + f(x), 0)` over integers. */
  function SumOfInt<T(!new)>(s: seq<T>, f: T -> int): int
  {
    if |s| == 0 then 0 else SumOfInt(s[..|s| - 1], f) + f(s[|s| - 1])
  }

  /** Appending one element adds its term. */
  lemma SumOfAppend<T(!new)>(s: seq<T>, x: T, f: T -> real)
    ensures SumOf(s + [x], f) == SumOf(s, f) + f(x)
  {
    assert (s + [x])[..|s|] == s;
  }

  /** Appending one element adds its term. */
  lemma SumOfIntAppend<T(!new)>(s: seq<T>, x: T, f: T -> int)
    ensures SumOfInt(s + [x], f) == SumOfInt(s, f) + f(x)
  {
    assert (s + [x])[..|s|] == s;
  }

  /** The sum over a concatenation is the sum of the sums. */
  lemma {:induction false} SumOfConcat<T(!new)>(a: seq<T>, b: seq<T>, f: T -> real)
    ensures SumOf(a + b, f) == SumOf(a, f) + SumOf(b, f)
    decreases |b|
  {
    if |b| == 0 {
      assert a + b == a;
    } else {
      var n := |b| - 1;
      assert (a + b)[..|a + b| - 1] == a + b[..n];
      SumOfConcat(a, b[..n], f);
    }
  }

  /** The sum over a concatenation is the sum of the sums. */
  lemma {:induction false} SumOfIntConcat<T(!new)>(a: seq<T>, b: seq<T>, f: T -> int)
    ensures SumOfInt(a + b, f) == SumOfInt(a, f) + SumOfInt(b, f)
    decreases |b|
  {
    if |b| == 0 {
      assert a + b == a;
    } else {
      var n := |b| - 1;
      assert (a + b)[..|a + b| - 1] == a + b[..n];
      SumOfIntConcat(a, b[..n], f);
    }
  }

  /** Changing one position changes the sum by the change of its term. */
  lemma {:induction false} SumOfPointChange<T(!new)>(a: seq<T>, b: seq<T>, k: int, f: T -> real)
    requires |a| == |b| && 0 <= k < |a|
    requires forall i :: 0 <= i < |a| && i != k ==> f(a[i]) == f(b[i])
    ensures SumOf(b, f) == SumOf(a, f) - f(a[k]) + f(b[k])
    decreases |a|
  {
    var n := |a| - 1;
    if k == n {
      SumOfAgree(a[..n], b[..n], f, f);
    } else {
      SumOfPointChange(a[..n], b[..n], k, f);
    }
  }

  /** Raising the term at one position by `d` raises the sum by `d`. */
  lemma SumOfPointDelta<T(!new)>(a: seq<T>, b: seq<T>, k: int, f: T -> real, d: real)
    requires |a| == |b| && 0 <= k < |a|
    requires forall i :: 0 <= i < |a| && i != k ==> f(a[i]) == f(b[i])
    requires f(b[k]) == f(a[k]) + d
    ensures SumOf(b, f) == SumOf(a, f) + d
  {
    SumOfPointChange(a, b, k, f);
  }

  /** Changing one position changes the sum by the change of its term. */
  lemma {:induction false} SumOfIntPointChange<T(!new)>(a: seq<T>, b: seq<T>, k: int, f: T -> int)
    requires |a| == |b| && 0 <= k < |a|
    requires forall i :: 0 <= i < |a| && i != k ==> f(a[i]) == f(b[i])
    ensures SumOfInt(b, f) == SumOfInt(a, f) - f(a[k]) + f(b[k])
    decreases |a|
  {
    var n := |a| - 1;
    if k == n {
      SumOfIntAgree(a[..n], b[..n], f);
    } else {
      SumOfIntPointChange(a[..n], b[..n], k, f);
    }
  }

  /** Sequences whose terms agree position by position have equal sums. */
  lemma {:induction false} SumOfAgree<T(!new), U(!new)>(a: seq<T>, b: seq<U>, f: T -> real, g: U -> real)
    requires |a| == |b|
    requires forall i :: 0 <= i < |a| ==> f(a[i]) == g(b[i])
    ensures SumOf(a, f) == SumOf(b, g)
    decreases |a|
  {
    if |a| > 0 {
      SumOfAgree(a[..|a| - 1], b[..|b| - 1], f, g);
    }
  }

  /** Sequences whose terms agree position by position have equal sums. */
  lemma {:induction false} SumOfIntAgree<T(!new)>(a: seq<T>, b: seq<T>, f: T -> int)
    requires |a| == |b|
    requires forall i :: 0 <= i < |a| ==> f(a[i]) == f(b[i])
    ensures SumOfInt(a, f) == SumOfInt(b, f)
    decreases |a|
  {
    if |a| > 0 {
      SumOfIntAgree(a[..|a| - 1], b[..|b| - 1], f);
    }
  }

  /** A sum of non-negative terms is non-negative. */
  lemma {:induction false} SumOfNonNegative<T(!new)>(s: seq<T>, f: T -> real)
    requires forall i :: 0 <= i < |s| ==> f(s[i]) >= 0.0
    ensures SumOf(s, f) >= 0.0
    decreases |s|
  {
    if |s| > 0 {
      SumOfNonNegative(s[..|s| - 1], f);
    }
  }

  /** A sum of non-negative terms is non-negative. */
  lemma {:induction false} SumOfIntNonNegative<T(!new)>(s: seq<T>, f: T -> int)
    requires forall i :: 0 <= i < |s| ==> f(s[i]) >= 0
    ensures SumOfInt(s, f) >= 0
    decreases |s|
  {
    if |s| > 0 {
      SumOfIntNonNegative(s[..|s| - 1], f);
    }
  }

  // ---------------------------------------------------------------------------
  // Stable sorting by a key
  // ---------------------------------------------------------------------------

  /** `s` is in ascending order of `key`. */
  predicate SortedBy<T(!new)>(s: seq<T>, key: T -> real) {
    forall i, j :: 0 <= i < j < |s| ==> key(s[i]) <= key(s[j])
  }

  /** Inserts `x` before the first element whose key is not smaller. */
  function Insert<T(!new)>(x: T, s: seq<T>, key: T -> real): (r: seq<T>)
    requires SortedBy(s, key)
    ensures multiset(r) == multiset(s) + multiset{x}
    ensures SortedBy(r, key)
    ensures |r| == |s| + 1
    ensures r[0] == x || (|s| > 0 && r[0] == s[0])
  {
    if |s| == 0 then [x]
    else if key(x) <= key(s[0]) then [x] + s
    else
      var rest := Insert(x, s[1..], key);
      assert s == [s[0]] + s[1..];
      [s[0]] + rest
  }

  /** Stable insertion sort in ascending order of `key`. JavaScript's
      `Array.prototype.sort` is stable, and a stable sort by a key has exactly
      one possible result, so this is the storefront's sort for any comparator of
      the form `(a, b) => key(a) - key(b)`. */
  function SortBy<T(!new)>(s: seq<T>, key: T -> real): (r: seq<T>)
    ensures multiset(r) == multiset(s)
    ensures SortedBy(r, key)
  {
    if |s| == 0 then []
    else
      assert s == [s[0]] + s[1..];
      Insert(s[0], SortBy(s[1..], key), key)
  }

  /** Inserting by two keys that agree everywhere gives the same list. */
  lemma {:induction false} InsertCongruent<T(!new)>(x: T, s: seq<T>, k1: T -> real, k2: T -> real)
    requires SortedBy(s, k1) && SortedBy(s, k2)
    requires forall y :: k1(y) == k2(y)
    ensures Insert(x, s, k1) == Insert(x, s, k2)
    decreases |s|
  {
    if |s| > 0 && k1(x) > k1(s[0]) {
      SortedTail(s, k1);
      SortedTail(s, k2);
      InsertCongruent(x, s[1..], k1, k2);
    }
  }

  /** Sorting by two keys that agree everywhere gives the same list. */
  lemma {:induction false} SortByCongruent<T(!new)>(s: seq<T>, k1: T -> real, k2: T -> real)
    requires forall y :: k1(y) == k2(y)
    ensures SortBy(s, k1) == SortBy(s, k2)
    decreases |s|
  {
    if |s| > 0 {
      SortByCongruent(s[1..], k1, k2);
      var t := SortBy(s[1..], k1);
      assert SortedBy(t, k2);
      InsertCongruent(s[0], t, k1, k2);
    }
  }

  /** A sorted permutation has the same length as its input. */
  lemma SortByLength<T(!new)>(s: seq<T>, key: T -> real)
    ensures |SortBy(s, key)| == |s|
  {
    assert |multiset(SortBy(s, key))| == |multiset(s)|;
  }

  /** Sorting input that is already in order returns it unchanged (stability). */
  lemma {:induction false} SortBySorted<T(!new)>(s: seq<T>, key: T -> real)
    requires SortedBy(s, key)
    ensures SortBy(s, key) == s
    decreases |s|
  {
    if |s| > 0 {
      SortBySorted(s[1..], key);
      assert s == [s[0]] + s[1..];
    }
  }

  /** Keys tell the elements of `s` apart. */
  predicate KeyInjective<T(==,!new)>(s: seq<T>, key: T -> real) {
    forall x, y :: x in s && y in s && key(x) == key(y) ==> x == y
  }

  /** Two sorted arrangements of the same elements are equal when no two
      elements share a key. */
  lemma {:induction false} SortedUnique<T(!new)>(a: seq<T>, b: seq<T>, key: T -> real)
    requires multiset(a) == multiset(b)
    requires SortedBy(a, key) && SortedBy(b, key)
    requires KeyInjective(a, key)
    ensures a == b
    decreases |a|
  {
    assert |a| == |b| by {
      assert |a| == |multiset(a)| && |b| == |multiset(b)|;
    }
    if |a| > 0 {
      SortedUniqueStep(a, b, key);
      SortedUnique(a[1..], b[1..], key);
      assert a == [a[0]] + a[1..];
      assert b == [b[0]] + b[1..];
    }
  }

  /** The first elements agree and the tails meet the same conditions. */
  lemma SortedUniqueStep<T(!new)>(a: seq<T>, b: seq<T>, key: T -> real)
    requires |a| > 0 && |b| > 0 && multiset(a) == multiset(b)
    requires SortedBy(a, key) && SortedBy(b, key)
    requires KeyInjective(a, key)
    ensures a[0] == b[0]
    ensures multiset(a[1..]) == multiset(b[1..])
    ensures SortedBy(a[1..], key) && SortedBy(b[1..], key)
    ensures KeyInjective(a[1..], key)
  {
    SortedHeads(a, b, key);
    MultisetTails(a, b);
    SortedTail(a, key);
    SortedTail(b, key);
    assert forall x :: x in a[1..] ==> x in a;
  }

  /** The tail of a sorted list is sorted. */
  lemma SortedTail<T(!new)>(s: seq<T>, key: T -> real)
    requires |s| > 0 && SortedBy(s, key)
    ensures SortedBy(s[1..], key)
  {
    forall i, j | 0 <= i < j < |s[1..]|
      ensures key(s[1..][i]) <= key(s[1..][j])
    {
      assert s[1..][i] == s[i + 1] && s[1..][j] == s[j + 1];
    }
  }

  /** Sorted arrangements of the same elements start with the same element
      when keys tell the elements apart. */
  lemma SortedHeads<T(!new)>(a: seq<T>, b: seq<T>, key: T -> real)
    requires |a| > 0 && |b| > 0 && multiset(a) == multiset(b)
    requires SortedBy(a, key) && SortedBy(b, key)
    requires KeyInjective(a, key)
    ensures a[0] == b[0]
  {
    assert a[0] in multiset(b);
    var j :| 0 <= j < |b| && b[j] == a[0];
    assert b[0] in multiset(a);
    var i :| 0 <= i < |a| && a[i] == b[0];
    assert key(a[0]) <= key(a[i]);
    assert key(b[0]) <= key(b[j]);
  }

  /** Equal multisets with equal first elements have equal tails. */
  lemma MultisetTails<T(!new)>(a: seq<T>, b: seq<T>)
    requires |a| > 0 && |b| > 0 && a[0] == b[0] && multiset(a) == multiset(b)
    ensures multiset(a[1..]) == multiset(b[1..])
  {
    assert a == [a[0]] + a[1..];
    assert b == [b[0]] + b[1..];
    assert multiset(a[1..]) == multiset(a) - multiset{a[0]};
    assert multiset(b[1..]) == multiset(b) - multiset{b[0]};
  }

  /** The elements of `s` in the opposite order. */
  function Reverse<T>(s: seq<T>): (r: seq<T>)
    ensures |r| == |s|
    ensures forall i :: 0 <= i < |s| ==> r[i] == s[|s| - 1 - i]
  {
    seq(|s|, i requires 0 <= i < |s| => s[|s| - 1 - i])
  }

  /** Reversing keeps the elements. */
  lemma {:induction false} ReverseMultiset<T(!new)>(s: seq<T>)
    ensures multiset(Reverse(s)) == multiset(s)
    decreases |s|
  {
    if |s| > 0 {
      var r := Reverse(s);
      ReverseMultiset(s[1..]);
      assert r == Reverse(s[1..]) + [s[0]];
      assert s == [s[0]] + s[1..];
    }
  }

  /** Reversing an ascending arrangement gives an ascending arrangement of the negated key. */
  lemma ReverseSorted<T(!new)>(s: seq<T>, key: T -> real, neg: T -> real)
    requires SortedBy(s, key)
    requires forall x :: neg(x) == -key(x)
    ensures SortedBy(Reverse(s), neg)
  {
    var r := Reverse(s);
    forall i, j | 0 <= i < j < |r|
      ensures neg(r[i]) <= neg(r[j])
    {
      assert key(s[|s| - 1 - j]) <= key(s[|s| - 1 - i]);
    }
  }
}

=== FILE: shipping.dfy ===
/** The canonical shipping quote (services/shippingService.ts): an 8-digit CEP
    check, free shipping from R$ 199, three regional tiers chosen by the
    first two CEP digits, and R$ 2 more for every three pieces. */
module ShippingService {
  import opened Wrappers
  import opened Text
  import opened Types
  import CartContext

  /** A quote: service label, price in reais, days to deliver and the free flag. */
  datatype ShippingOption = ShippingOption(service: string, price: int, days: int, isFree: bool)

  /** Subtotal from which shipping is free. */
  const FreeShippingThreshold: real := 199.0

  /** The answer for a CEP that is not 8 digits long. */
  const Unavailable: ShippingOption := ShippingOption("Indisponível", 0, 0, false)

  /** The answer for a subtotal of at least the threshold. */
  const FreeShipping: ShippingOption := ShippingOption("Frete Grátis (Padrão)", 0, 5, true)

  /** The label of a paid quote. */
  const StandardService: string := "Entrega Padrão"

  /** A regional base price and delivery time. */
  datatype Tier = Tier(basePrice: int, days: int)

  /** The tier of a two-digit CEP prefix, checked in the TypeScript's order: São
      Paulo first, then the five southern and south-eastern ranges, then the
      default for every other region. */
  function RegionTier(ufCode: int): (t: Tier)
    ensures t == Tier(14, 2) || t == Tier(19, 4) || t == Tier(24, 7)
    ensures t == Tier(14, 2) <==> 1 <= ufCode <= 19
  {
    if 1 <= ufCode <= 19 then Tier(14, 2)
    else if (20 <= ufCode <= 28) || (30 <= ufCode <= 39) || (80 <= ufCode <= 87)
         || (88 <= ufCode <= 89) || (90 <= ufCode <= 99)
    then Tier(19, 4)
    else Tier(24, 7)
  }

  /** The three tiers over the prefixes a CEP can have: 01-19, then 20-28,
      30-39 and 80-99, then the rest (00, 29 and 40-79). */
  lemma RegionTierTable(ufCode: int)
    requires 0 <= ufCode <= 99
    ensures RegionTier(ufCode) == Tier(14, 2) <==> 1 <= ufCode <= 19
    ensures RegionTier(ufCode) == Tier(19, 4) <==>
              20 <= ufCode <= 28 || 30 <= ufCode <= 39 || 80 <= ufCode <= 99
    ensures RegionTier(ufCode) == Tier(24, 7) <==>
              ufCode == 0 || ufCode == 29 || 40 <= ufCode <= 79
  {
  }

  /** `Math.floor(totalItems / 3) * 2`: R$ 2 per complete group of three pieces. */
  function VolumeSurcharge(totalItems: int): (s: int)
    ensures s % 2 == 0 && 3 * (s / 2) <= totalItems < 3 * (s / 2) + 3
    ensures totalItems >= 0 ==> 0 <= s && 3 * s <= 2 * totalItems
  {
    (totalItems / 3) * 2
  }

  /** Three more pieces cost exactly R$ 2 more, and more pieces never cost less. */
  lemma VolumeSurchargeSteps(n: int, m: int)
    ensures VolumeSurcharge(n + 3) == VolumeSurcharge(n) + 2
    ensures n <= m ==> VolumeSurcharge(n) <= VolumeSurcharge(m)
  {
    assert (n + 3) / 3 == n / 3 + 1;
    if n <= m {
      assert n / 3 <= m / 3 by {
        assert 3 * (n / 3) <= n <= m < 3 * (m / 3) + 3;
      }
    }
  }

  /** `calculateShipping(cep, items, subtotal)`. */
  function CalculateShipping(cep: string, items: seq<CartItem>, subtotal: real): (r: ShippingOption)
    ensures |DigitsOnly(cep)| != 8 ==> r == Unavailable
    ensures |DigitsOnly(cep)| == 8 && subtotal >= FreeShippingThreshold ==> r == FreeShipping
    ensures r.isFree <==> |DigitsOnly(cep)| == 8 && subtotal >= FreeShippingThreshold
    ensures r.service == StandardService <==> |DigitsOnly(cep)| == 8 && subtotal < FreeShippingThreshold
  {
    var clean := DigitsOnly(cep);
    if |clean| != 8 then Unavailable
    else if subtotal >= FreeShippingThreshold then FreeShipping
    else
      var tier := RegionTier(DigitsValue(SubstringTo(clean, 2)));
      ShippingOption(StandardService, tier.basePrice + VolumeSurcharge(CartContext.CartCount(items)), tier.days, false)
  }

  /** The two-digit prefix of a valid CEP, as `parseInt(cleanCep.substring(0, 2))` reads it. */
  function Prefix(cep: string): (u: int)
    requires |DigitsOnly(cep)| == 8
    ensures 0 <= u <= 99
  {
    var p := SubstringTo(DigitsOnly(cep), 2);
    TwoDigitsRange(p);
    DigitsValue(p)
  }

  /** A paid quote is the prefix's tier plus the volume surcharge of the piece count. */
  lemma PaidQuote(cep: string, items: seq<CartItem>, subtotal: real)
    requires |DigitsOnly(cep)| == 8 && subtotal < FreeShippingThreshold
    ensures var r := CalculateShipping(cep, items, subtotal);
            r.price == RegionTier(Prefix(cep)).basePrice + VolumeSurcharge(CartContext.CartCount(items))
            && r.days == RegionTier(Prefix(cep)).days
  {
  }

  /** When no quantity is negative, a paid quote costs at least R$ 14 and
      takes 2, 4 or 7 days. */
  lemma PaidQuoteBounds(cep: string, items: seq<CartItem>, subtotal: real)
    requires |DigitsOnly(cep)| == 8 && subtotal < FreeShippingThreshold
    requires forall i :: 0 <= i < |items| ==> items[i].quantity >= 0
    ensures var r := CalculateShipping(cep, items, subtotal);
            14 <= r.price && r.days in {2, 4, 7}
  {
  }

  /** With the destination and subtotal fixed, more pieces never make shipping cheaper. */
  lemma MorePiecesNeverCheaper(cep: string, a: seq<CartItem>, b: seq<CartItem>, subtotal: real)
    requires CartContext.CartCount(a) <= CartContext.CartCount(b)
    ensures CalculateShipping(cep, a, subtotal).price <= CalculateShipping(cep, b, subtotal).price
  {
    VolumeSurchargeSteps(CartContext.CartCount(a), CartContext.CartCount(b));
  }

  /** Punctuation in the CEP does not matter: quoting the digit-only form gives the same answer. */
  lemma FormattingIrrelevant(cep: string, items: seq<CartItem>, subtotal: real)
    ensures CalculateShipping(DigitsOnly(cep), items, subtotal) == CalculateShipping(cep, items, subtotal)
  {
    DigitsOnlyOfDigits(DigitsOnly(cep));
  }
}

=== FILE: shop.dfy ===
/** The shop page (components/Shop.tsx): the URL parameters, the search box
    and the filtered, sorted catalogue. */
module Shop {
  import opened Wrappers
  import opened Seqs
  import opened Text
  import opened Types
  import opened Listing

  /** `name.toLowerCase().includes(lower) || category.toLowerCase().includes(lower)`. */
  predicate SearchMatches(term: string, p: Product) {
    Contains(ToLower(p.name), ToLower(term)) || Contains(ToLower(p.category), ToLower(term))
  }

  /** `searchParam` is truthy: present and not empty. */
  predicate Searching(search: Option<string>) {
    search.Some? && search.value != ""
  }

  /** The search step of `filterProducts()`: applied only for a truthy search parameter. */
  function SearchFilter(s: seq<Product>, search: Option<string>): (r: seq<Product>)
    ensures forall p :: p in r <==> p in s && (Searching(search) ==> SearchMatches(search.value, p))
    ensures IsSubsequence(r, s)
  {
    if Searching(search) then
      FilterIsSubsequence(s, (p: Product) => SearchMatches(search.value, p));
      Filter(s, (p: Product) => SearchMatches(search.value, p))
    else
      FilterAll(s, (p: Product) => true);
      FilterIsSubsequence(s, (p: Product) => true);
      s
  }

  /** The search ignores letter case in the term. */
  lemma SearchIgnoresCase(s: seq<Product>, term: string)
    ensures SearchFilter(s, Some(ToLower(term))) == SearchFilter(s, Some(term))
  {
    ToLowerIdempotent(term);
    FilterCongruent(s, (p: Product) => SearchMatches(ToLower(term), p), (p: Product) => SearchMatches(term, p));
  }

  /** `sortProducts(filterProducts())`. */
  function Results(products: seq<Product>, search: Option<string>, f: FilterState, o: SortOption): (r: seq<Product>)
    ensures forall p :: p in r ==> p in products && p.isActive && (Searching(search) ==> SearchMatches(search.value, p))
  {
    var matching := ApplyFilters(SearchFilter(ActiveProducts(products), search), f);
    var r := SortProducts(matching, o);
    assert forall p :: p in r ==> p in matching by {
      forall p | p in r
        ensures p in matching
      {
        assert p in multiset(r);
      }
    }
    r
  }

  /** The results are exactly the active products that match the search and
      meet every switched-on criterion, each as often as in the catalogue. */
  lemma ResultsSpec(products: seq<Product>, search: Option<string>, f: FilterState, o: SortOption)
    ensures forall p :: p in Results(products, search, f, o) <==>
              p in products && p.isActive
              && (Searching(search) ==> SearchMatches(search.value, p))
              && MeetsCriteria(f, p)
    ensures multiset(Results(products, search, f, o)) <= multiset(products)
  {
    var active := ActiveProducts(products);
    var searched := SearchFilter(active, search);
    var filtered := ApplyFilters(searched, f);
    FilterResults(searched, f);
    SubsequenceSubMultiset(filtered, searched);
    SubsequenceSubMultiset(searched, active);
    SubsequenceSubMultiset(active, products);
    forall p
      ensures p in Results(products, search, f, o) <==> p in filtered
    {
      assert p in Results(products, search, f, o) <==> p in multiset(Results(products, search, f, o));
      assert p in filtered <==> p in multiset(filtered);
    }
  }

  /** An empty search term searches nothing away. */
  lemma EmptySearchKeepsAll(s: seq<Product>)
    ensures SearchFilter(s, Some("")) == s
    ensures SearchFilter(s, None) == s
  {
  }

  /** The page state the URL can set: the filters and the sort option. */
  datatype PageState = PageState(filters: FilterState, sortBy: SortOption)

  /** The URL-parameter effect: a truthy `category` selects exactly that
      category; `sort=new` selects newest and `sort=best` best-selling; any
      other sort value changes nothing. */
  function InitFromParams(st: PageState, category: Option<string>, sort: Option<string>): (r: PageState)
    ensures category.Some? && category.value != "" ==> r.filters == st.filters.(category := [category.value])
    ensures !(category.Some? && category.value != "") ==> r.filters == st.filters
    ensures sort == Some("new") ==> r.sortBy == Newest
    ensures sort == Some("best") ==> r.sortBy == BestSelling
    ensures sort != Some("new") && sort != Some("best") ==> r.sortBy == st.sortBy
  {
    var filters := if category.Some? && category.value != "" then st.filters.(category := [category.value]) else st.filters;
    var sortBy :=
      if sort.Some? && sort.value != "" then
        if sort.value == "new" then Newest else if sort.value == "best" then BestSelling else st.sortBy
      else st.sortBy;
    PageState(filters, sortBy)
  }

  /** The page's initial state: no filter and 'relevance'. */
  const InitialState: PageState := PageState(EmptyFilters, Relevance)

  /** Opening `?category=c` shows exactly the active products of category `c`. */
  lemma CategoryLinkShowsCategory(products: seq<Product>, c: string, p: Product)
    requires c != ""
    ensures var st := InitFromParams(InitialState, Some(c), None);
            p in Results(products, None, st.filters, st.sortBy) <==> p in products && p.isActive && p.category == c
  {
    var st := InitFromParams(InitialState, Some(c), None);
    ResultsSpec(products, None, st.filters, st.sortBy);
  }
}

=== FILE: text.dfy ===
/** String operations of the storefront: `replace(/\D/g, '')`, `toLowerCase`,
    `includes`, `substring`, `replace(',', '.')` and number-to-text conversion. */
module Text {
  import opened Seqs

  /** A decimal digit, the complement of the regular-expression class `\D`. */
  predicate IsDigit(c: char) {
    '0' <= c <= '9'
  }

  /** Every character is a decimal digit. */
  predicate IsDigits(s: string) {
    forall i :: 0 <= i < |s| ==> IsDigit(s[i])
  }

  /** Text made of decimal digits only. */
  type Digits = s: string | IsDigits(s) witness ""

  /** `s.replace(/\D/g, '')`: the digits of `s`, in order. */
  function DigitsOnly(s: string): (r: Digits)
    ensures |r| <= |s|
    ensures forall c :: c in r <==> c in s && IsDigit(c)
  {
    var r := Filter(s, IsDigit);
    assert forall i :: 0 <= i < |r| ==> r[i] in r;
    r
  }

  /** Cleaning keeps the digits in their original order. */
  lemma DigitsOnlyIsSubsequence(s: string)
    ensures IsSubsequence(DigitsOnly(s), s)
  {
    FilterIsSubsequence(s, IsDigit);
  }

  /** Cleaning text that is already digits changes nothing, so cleaning is idempotent. */
  lemma DigitsOnlyOfDigits(s: string)
    requires IsDigits(s)
    ensures DigitsOnly(s) == s
  {
    forall c | c in s
      ensures IsDigit(c)
    {
      var k :| 0 <= k < |s| && s[k] == c;
    }
    FilterAll(s, IsDigit);
  }

  /** The value of one decimal digit. */
  function DigitValue(c: char): (v: nat)
    requires IsDigit(c)
    ensures v <= 9
  {
    c as int - '0' as int
  }

  /** The number written by a string of decimal digits (`parseInt` on digits). */
  function DigitsValue(s: Digits): nat
  {
    if |s| == 0 then 0 else 10 * DigitsValue(s[..|s| - 1]) + DigitValue(s[|s| - 1])
  }

  /** A string of `n` digits writes a number below `10^n`; two digits give 0..99. */
  lemma TwoDigitsRange(s: Digits)
    requires |s| == 2
    ensures DigitsValue(s) <= 99
    ensures DigitsValue(s) == 10 * DigitValue(s[0]) + DigitValue(s[1])
  {
    assert s[..1][..0] == [];
    assert DigitsValue(s[..1]) == DigitValue(s[0]);
  }

  /** The digit character for a value 0..9. */
  function DigitChar(d: nat): (c: char)
    requires d <= 9
    ensures IsDigit(c) && DigitValue(c) == d
  {
    ('0' as int + d) as char
  }

  /** Decimal text of a natural number, as JavaScript prints it. */
  function NatToString(n: nat): (r: Digits)
    ensures |r| >= 1
  {
    if n < 10 then [DigitChar(n)]
    else
      var r := NatToString(n / 10) + [DigitChar(n % 10)];
      assert forall i :: 0 <= i < |r| - 1 ==> r[i] == NatToString(n / 10)[i];
      r
  }

  /** Printing then reading a number gives the number back. */
  lemma {:induction false} NatToStringRoundTrip(n: nat)
    ensures DigitsValue(NatToString(n)) == n
    decreases n
  {
    if n >= 10 {
      NatToStringRoundTrip(n / 10);
      var r := NatToString(n);
      assert r[..|r| - 1] == NatToString(n / 10);
    }
  }

  /** Decimal text of an integer, with a leading '-' for negatives. */
  function IntToString(n: int): string
  {
    if n < 0 then "-" + NatToString(-n) else NatToString(n)
  }

  /** `s.substring(0, n)`: at most the first `n` characters. */
  function SubstringTo(s: string, n: nat): (r: string)
    ensures |r| == if n < |s| then n else |s|
  {
    Take(s, n)
  }

  /** `s.substring(n)`: everything after the first `n` characters. */
  function SubstringFrom(s: string, n: nat): (r: string)
    ensures SubstringTo(s, n) + r == s
  {
    if n < |s| then s[n..] else ""
  }

  /** `toLowerCase` on one character: the Latin-1 capitals (A-Z and
      U+00C0..U+00DE except the multiplication sign U+00D7) become small letters. */
  function LowerChar(c: char): char
  {
    if 'A' <= c <= 'Z' || ('\U{00C0}' <= c <= '\U{00DE}' && c != '\U{00D7}')
    then (c as int + 32) as char
    else c
  }

  /** `s.toLowerCase()` for Latin-1 text. */
  function ToLower(s: string): (r: string)
    ensures |r| == |s|
    ensures forall i :: 0 <= i < |s| ==> r[i] == LowerChar(s[i])
  {
    seq(|s|, i requires 0 <= i < |s| => LowerChar(s[i]))
  }

  /** Lower-casing twice is lower-casing once. */
  lemma ToLowerIdempotent(s: string)
    ensures ToLower(ToLower(s)) == ToLower(s)
  {
  }

  /** The character lies outside the Basic Multilingual Plane, so UTF-16
      stores it as a surrogate pair. */
  predicate IsAstral(c: char) {
    c as int > 0xFFFF
  }

  /** JavaScript's `s.length`: the number of UTF-16 code units, two for each
      character outside the Basic Multilingual Plane. */
  function Utf16Length(s: string): (n: nat)
    ensures |s| <= n <= 2 * |s|
    ensures n == |s| + CountWhere(s, IsAstral)
  {
    if |s| == 0 then 0
    else (if IsAstral(s[0]) then 2 else 1) + Utf16Length(s[1..])
  }

  /** Text in the Basic Multilingual Plane has one code unit per character. */
  lemma Utf16LengthOfBmp(s: string)
    requires forall i :: 0 <= i < |s| ==> !IsAstral(s[i])
    ensures Utf16Length(s) == |s|
  {
    forall x | x in s
      ensures !IsAstral(x)
    {
      var k :| 0 <= k < |s| && s[k] == x;
    }
    FilterNone(s, IsAstral);
  }

  /** Two letters and two emoji are six code units, though four characters. */
  lemma Utf16LengthOfEmoji()
    ensures |"ab\U{1F600}\U{1F600}"| == 4
    ensures Utf16Length("ab\U{1F600}\U{1F600}") == 6
  {
    var s := "ab\U{1F600}\U{1F600}";
    assert s[1..][1..][1..][1..] == [];
  }

  /** `s` starts with `p`. */
  predicate StartsWith(s: string, p: string) {
    |p| <= |s| && s[..|p|] == p
  }

  /** `s.includes(t)`: `t` occurs in `s` at some position. */
  predicate Contains(s: string, t: string)
    decreases |s|
  {
    StartsWith(s, t) || (|s| > 0 && Contains(s[1..], t))
  }

  /** `t` occurs in `s` starting at position `i`. */
  predicate OccursAt(s: string, t: string, i: int) {
    0 <= i <= |s| - |t| && s[i..i + |t|] == t
  }

  /** `includes` agrees with the positional definition of an occurrence. */
  lemma {:induction false} ContainsIffOccurs(s: string, t: string)
    ensures Contains(s, t) <==> exists i :: OccursAt(s, t, i)
    decreases |s|
  {
    if StartsWith(s, t) {
      assert OccursAt(s, t, 0);
    }
    if |s| > 0 {
      ContainsIffOccurs(s[1..], t);
      if Contains(s[1..], t) {
        var i :| OccursAt(s[1..], t, i);
        assert s[1..][i..i + |t|] == s[i + 1..i + 1 + |t|];
        assert OccursAt(s, t, i + 1);
      }
      if exists i :: OccursAt(s, t, i) {
        var i :| OccursAt(s, t, i);
        if i > 0 {
          assert s[1..][i - 1..i - 1 + |t|] == t;
          assert OccursAt(s[1..], t, i - 1);
        } else {
          assert StartsWith(s, t);
        }
      }
    } else {
      if exists i :: OccursAt(s, t, i) {
        var i :| OccursAt(s, t, i);
        assert i == 0 && |t| == 0;
        assert StartsWith(s, t);
      }
    }
  }

  /** Every string contains the empty string, so an empty search matches everything. */
  lemma ContainsEmpty(s: string)
    ensures Contains(s, "")
  {
    assert StartsWith(s, "");
  }

  /** The position of the first occurrence of `c` in `s`. */
  function IndexOf(s: string, c: char): (k: nat)
    requires c in s
    ensures k < |s| && s[k] == c && c !in s[..k]
  {
    if s[0] == c then 0
    else
      assert s[1..][..IndexOf(s[1..], c)] == s[1..IndexOf(s[1..], c) + 1];
      1 + IndexOf(s[1..], c)
  }

  /** `s.replace(from, to)` with a one-character pattern. */
  function ReplaceFirst(s: string, from: char, to: char): (r: string)
    ensures |r| == |s|
  {
    if |s| == 0 then s
    else if s[0] == from then [to] + s[1..]
    else [s[0]] + ReplaceFirst(s[1..], from, to)
  }

  /** Only the first occurrence of the pattern is replaced; without one the
      text is unchanged. */
  lemma {:induction false} ReplaceFirstSpec(s: string, from: char, to: char)
    ensures from !in s ==> ReplaceFirst(s, from, to) == s
    ensures from in s ==> ReplaceFirst(s, from, to)
                          == s[..IndexOf(s, from)] + [to] + s[IndexOf(s, from) + 1..]
    decreases |s|
  {
    if |s| > 0 {
      assert s == [s[0]] + s[1..];
      ReplaceFirstSpec(s[1..], from, to);
      if s[0] != from && from in s {
        var k := IndexOf(s[1..], from);
        assert s[..k + 1] == [s[0]] + s[1..][..k];
        assert s[k + 2..] == s[1..][k + 1..];
      }
    }
  }

  /** A second occurrence of the pattern survives the replacement. */
  lemma ReplaceFirstKeepsLater(s: string, from: char, to: char, j: int)
    requires 0 <= j < |s| && s[j] == from && from in s[..j] && from != to
    ensures from in ReplaceFirst(s, from, to)
  {
    ReplaceFirstSpec(s, from, to);
    var r := ReplaceFirst(s, from, to);
    var k := IndexOf(s, from);
    var i :| 0 <= i < j && s[..j][i] == from;
    assert s[i] == from;
    forall m | 0 <= m < k
      ensures s[m] != from
    {
      assert s[..k][m] == s[m];
    }
    assert r[j] == s[j];
  }
}

=== FILE: types.dfy ===
/** The storefront's records: products, cart lines, orders, the catalogue
    sort options and filter state. Money is in reais, as a real number. */
module Types {
  import opened Wrappers
  import opened Text

  /** A catalogue product as the store keeps it. */
  datatype Product = Product(
    id: string,
    name: string,
    description: string,
    price: real,
    promoPrice: Option<real>,
    category: string,
    brand: Option<string>,
    imageUrl: string,
    sizes: seq<string>,
    colors: seq<string>,
    stock: int,
    weightKg: real,
    lengthCm: real,
    widthCm: real,
    heightCm: real,
    isActive: bool,
    isLaunch: bool,
    isBestSeller: bool,
    createdAt: int,           // creation time as a timestamp; date parsing is not modelled
    updatedAt: Option<int>,
    soldCount: int)

  /** `promoPrice || price`: a promotional price counts only when present and
      non-zero (zero is falsy in JavaScript). */
  function EffectivePrice(p: Product): (r: real)
    ensures p.promoPrice.Some? && p.promoPrice.value != 0.0 ==> r == p.promoPrice.value
    ensures p.promoPrice.None? || p.promoPrice == Some(0.0) ==> r == p.price
    ensures r != p.price ==> p.promoPrice == Some(r) && r != 0.0
  {
    if p.promoPrice.Some? && p.promoPrice.value != 0.0 then p.promoPrice.value else p.price
  }

  /** `p.brand` is truthy: present and not the empty string. */
  predicate HasBrand(p: Product) {
    p.brand.Some? && p.brand.value != ""
  }

  /** A cart line: the product snapshot, a quantity and the chosen size.
      There is no colour field. */
  datatype CartItem = CartItem(product: Product, quantity: int, selectedSize: string)

  /** The four order states. */
  datatype OrderStatus = AwaitingPayment | Paid | Cancelled | Shipped {
    /** The stored text of the state. */
    function Text(): string {
      match this
      case AwaitingPayment => "aguardando_pagamento"
      case Paid => "pago"
      case Cancelled => "cancelado"
      case Shipped => "enviado"
    }
  }

  /** Reads a stored state; any other text is not a state. */
  function ParseOrderStatus(s: string): (r: Option<OrderStatus>)
    ensures r.Some? ==> r.value.Text() == s
  {
    if s == "aguardando_pagamento" then Some(AwaitingPayment)
    else if s == "pago" then Some(Paid)
    else if s == "cancelado" then Some(Cancelled)
    else if s == "enviado" then Some(Shipped)
    else None
  }

  /** Exactly four texts are states, one per state. */
  lemma OrderStatusClosed(s: string, st: OrderStatus)
    ensures ParseOrderStatus(s) == Some(st) <==> s == st.Text()
    ensures ParseOrderStatus(s).Some? <==>
              s in {"aguardando_pagamento", "pago", "cancelado", "enviado"}
  {
  }

  /** A delivery address as stored on an order. */
  datatype Address = Address(
    cep: string,
    street: string,
    number: string,
    complement: Option<string>,
    neighborhood: string,
    city: string,
    state: string)

  /** A line of a stored order. */
  datatype OrderItem = OrderItem(productId: string, name: string, quantity: int, price: real, size: string)

  /** The shipping choice stored on an order. */
  datatype OrderShipping = OrderShipping(service: string, price: real, days: int)

  /** A stored order. */
  datatype Order = Order(
    id: string,
    userId: Option<string>,
    customerName: string,
    customerPhone: string,
    customerEmail: string,
    address: Address,
    items: seq<OrderItem>,
    shipping: OrderShipping,
    subtotal: real,
    total: real,
    status: OrderStatus,
    paymentLink: Option<string>,
    createdAt: string,
    paidAt: Option<string>)

  /** The six catalogue orderings. */
  datatype SortOption = Newest | BestSelling | PriceAsc | PriceDesc | Relevance | Discount {
    /** The option's value in the sort menu. */
    function Text(): string {
      match this
      case Newest => "newest"
      case BestSelling => "best_selling"
      case PriceAsc => "price_asc"
      case PriceDesc => "price_desc"
      case Relevance => "relevance"
      case Discount => "discount"
    }
  }

  /** Reads a sort-menu value. */
  function ParseSortOption(s: string): (r: Option<SortOption>)
    ensures r.Some? ==> r.value.Text() == s
  {
    if s == "newest" then Some(Newest)
    else if s == "best_selling" then Some(BestSelling)
    else if s == "price_asc" then Some(PriceAsc)
    else if s == "price_desc" then Some(PriceDesc)
    else if s == "relevance" then Some(Relevance)
    else if s == "discount" then Some(Discount)
    else None
  }

  /** Every sort option has its own menu value and is read back from it. */
  lemma SortOptionRoundTrip(o: SortOption, s: string)
    ensures ParseSortOption(o.Text()) == Some(o)
    ensures ParseSortOption(s) == Some(o) <==> s == o.Text()
  {
  }

  /** A price bound of the filter: a number, or the empty marker `''`. */
  datatype PriceBound = Unset | Bound(value: real)

  /** The catalogue filters: four value lists and two price bounds. */
  datatype FilterState = FilterState(
    category: seq<string>,
    colors: seq<string>,
    sizes: seq<string>,
    brands: seq<string>,
    minPrice: PriceBound,
    maxPrice: PriceBound)

  /** No filter selected. */
  const EmptyFilters: FilterState := FilterState([], [], [], [], Unset, Unset)

  datatype UserRole = Shopper | Admin

  /** A signed-in user. */
  datatype User = User(id: string, name: string, email: string, role: UserRole, photoUrl: Option<string>)

  /** A shipping quote as the cart and checkout screens hold it: a price and
      a delivery-time label. */
  datatype ShippingQuote = ShippingQuote(price: real, time: string)

  /** A JavaScript value in an untyped payload. `NaN` is the failed parse. */
  datatype Value =
    | Undefined
    | Null
    | Bool(b: bool)
    | Num(x: real)
    | NaN
    | Str(s: string)
    | Strings(xs: seq<string>)
    | ServerTimestamp
}

=== FILE: vitrines.dfy ===
/** The showcase screen (components/admin/Vitrines.tsx): active products
    searched by name, each with a launch button and a best-seller button. */
module Vitrines {
  import opened Seqs
  import opened Text
  import opened Types
  import Shop
  import ProductContext
  import ProductList

  /** `p.isActive && name.toLowerCase().includes(term.toLowerCase())`: the
      category is not searched. */
  predicate Matches(term: string, p: Product) {
    p.isActive && Contains(ToLower(p.name), ToLower(term))
  }

  predicate IsActive(p: Product) {
    p.isActive
  }

  /** `filteredProducts`. */
  function Filtered(products: seq<Product>, term: string): (r: seq<Product>)
    ensures forall p :: p in r <==> p in products && p.isActive && Contains(ToLower(p.name), ToLower(term))
    ensures forall i :: 0 <= i < |r| ==> r[i].isActive
    ensures IsSubsequence(r, products)
  {
    FilterIsSubsequence(products, (p: Product) => Matches(term, p));
    Filter(products, (p: Product) => Matches(term, p))
  }

  /** With an empty search the screen lists exactly the active products. */
  lemma EmptySearchListsActive(products: seq<Product>)
    ensures Filtered(products, "") == Filter(products, IsActive)
  {
    forall p: Product
      ensures Matches("", p) == IsActive(p)
    {
      ContainsEmpty(ToLower(p.name));
    }
    FilterCongruent(products, (p: Product) => Matches("", p), IsActive);
  }

  /** Every showcase row is also a row of the admin product list for the
      same term, in the same order; the converse fails, since the product
      list also searches the category and shows inactive products. */
  lemma WithinProductList(products: seq<Product>, term: string)
    ensures IsSubsequence(Filtered(products, term), ProductList.Filtered(products, term))
  {
    var f := (p: Product) => Shop.SearchMatches(term, p);
    var h := (p: Product) => Matches(term, p);
    FilterFusion(products, f, h, h);
    FilterIsSubsequence(Filter(products, f), h);
  }

  /** A match in the category alone does not list a product here, though the
      admin product list shows it. */
  lemma CategoryNotSearched(products: seq<Product>, term: string, p: Product)
    requires p in products && p.isActive
    requires !Contains(ToLower(p.name), ToLower(term)) && Contains(ToLower(p.category), ToLower(term))
    ensures p !in Filtered(products, term)
    ensures p in ProductList.Filtered(products, term)
  {
  }

  /** The launch button: `toggleProductStatus(id, 'isLaunch')`. */
  function ToggleLaunch(products: seq<Product>, id: string, now: int): (r: seq<Product>)
    ensures |r| == |products|
    ensures forall i :: 0 <= i < |products| ==>
              r[i].isActive == products[i].isActive && r[i].isBestSeller == products[i].isBestSeller
    ensures forall i :: 0 <= i < |products| && products[i].id != id ==> r[i] == products[i]
  {
    ProductContext.ToggleKeepsOtherFlags(products, id, ProductContext.IsLaunchFlag, now);
    var r := ProductContext.ToggleProductStatus(products, id, ProductContext.IsLaunchFlag, now);
    assert forall i :: 0 <= i < |products| ==>
             ProductContext.FlagOf(r[i], ProductContext.IsActiveFlag) == ProductContext.FlagOf(products[i], ProductContext.IsActiveFlag)
             && ProductContext.FlagOf(r[i], ProductContext.IsBestSellerFlag) == ProductContext.FlagOf(products[i], ProductContext.IsBestSellerFlag);
    r
  }

  /** The best-seller button: `toggleProductStatus(id, 'isBestSeller')`. */
  function ToggleBestSeller(products: seq<Product>, id: string, now: int): (r: seq<Product>)
    ensures |r| == |products|
    ensures forall i :: 0 <= i < |products| ==>
              r[i].isActive == products[i].isActive && r[i].isLaunch == products[i].isLaunch
    ensures forall i :: 0 <= i < |products| && products[i].id != id ==> r[i] == products[i]
  {
    ProductContext.ToggleKeepsOtherFlags(products, id, ProductContext.IsBestSellerFlag, now);
    var r := ProductContext.ToggleProductStatus(products, id, ProductContext.IsBestSellerFlag, now);
    assert forall i :: 0 <= i < |products| ==>
             ProductContext.FlagOf(r[i], ProductContext.IsActiveFlag) == ProductContext.FlagOf(products[i], ProductContext.IsActiveFlag)
             && ProductContext.FlagOf(r[i], ProductContext.IsLaunchFlag) == ProductContext.FlagOf(products[i], ProductContext.IsLaunchFlag);
    r
  }

  /** With unique ids, each button switches its own flag of the row's
      product, and the row stays listed since it stays active. */
  lemma ButtonsFlip(products: seq<Product>, k: nat, now: int, term: string)
    requires k < |products|
    requires forall i, j :: 0 <= i < j < |products| ==> products[i].id != products[j].id
    ensures ToggleLaunch(products, products[k].id, now)[k].isLaunch == !products[k].isLaunch
    ensures ToggleBestSeller(products, products[k].id, now)[k].isBestSeller == !products[k].isBestSeller
    ensures products[k] in Filtered(products, term) ==>
              ToggleLaunch(products, products[k].id, now)[k] in Filtered(ToggleLaunch(products, products[k].id, now), term)
  {
    ProductContext.ToggleFlipsOneFlag(products, k, ProductContext.IsLaunchFlag, now);
    ProductContext.ToggleFlipsOneFlag(products, k, ProductContext.IsBestSellerFlag, now);
  }
}

=== FILE: wishlist.dfy ===
/** The wishlist (context/WishlistContext.tsx): an ordered list of product ids. */
module WishlistContext {
  import opened Seqs

  /** `addToWishlist(id)`: appended when absent, otherwise nothing changes. */
  function AddToWishlist(ids: seq<string>, id: string): (r: seq<string>)
    ensures Elements(r) == Elements(ids) + {id}
    ensures |ids| <= |r| <= |ids| + 1
    ensures r[..|ids|] == ids
  {
    if id in ids then ids else ids + [id]
  }

  /** `removeFromWishlist(id)`: every occurrence of the id goes; the rest keep their order. */
  function RemoveFromWishlist(ids: seq<string>, id: string): (r: seq<string>)
    ensures Elements(r) == Elements(ids) - {id}
    ensures IsSubsequence(r, ids)
  {
    RemoveAllIsSubsequence(ids, id);
    RemoveAll(ids, id)
  }

  /** `isInWishlist(id)`. */
  predicate IsInWishlist(ids: seq<string>, id: string) {
    id in ids
  }

  /** `wishlistCount`: the length of the list. */
  function WishlistCount(ids: seq<string>): (n: nat)
    ensures NoDuplicates(ids) ==> n == |Elements(ids)|
  {
    if NoDuplicates(ids) then NoDuplicatesCardinality(ids); |ids| else |ids|
  }

  /** Adding keeps the list free of repeated ids. */
  lemma AddKeepsNoDuplicates(ids: seq<string>, id: string)
    requires NoDuplicates(ids)
    ensures NoDuplicates(AddToWishlist(ids, id))
  {
    if id !in ids {
      var r := ids + [id];
      forall i, j | 0 <= i < j < |r|
        ensures r[i] != r[j]
      {
        assert r[i] == ids[i];
        if j < |ids| {
          assert r[j] == ids[j];
        } else {
          assert r[i] in ids;
        }
      }
    }
  }

  /** Removing keeps the list free of repeated ids. */
  lemma RemoveKeepsNoDuplicates(ids: seq<string>, id: string)
    requires NoDuplicates(ids)
    ensures NoDuplicates(RemoveFromWishlist(ids, id))
  {
    RemoveAllNoDuplicates(ids, id);
  }

  /** Adding the same id twice is adding it once. */
  lemma AddIdempotent(ids: seq<string>, id: string)
    ensures AddToWishlist(AddToWishlist(ids, id), id) == AddToWishlist(ids, id)
  {
  }

  /** Removing an id that was just added restores a list that did not hold it. */
  lemma RemoveUndoesAdd(ids: seq<string>, id: string)
    requires !IsInWishlist(ids, id)
    ensures RemoveFromWishlist(AddToWishlist(ids, id), id) == ids
  {
    ToggleTwiceAbsent(ids, id);
  }

  /** After removal the id is reported absent, after adding present. */
  lemma MembershipAfter(ids: seq<string>, id: string, other: string)
    ensures IsInWishlist(AddToWishlist(ids, id), id)
    ensures !IsInWishlist(RemoveFromWishlist(ids, id), id)
    ensures other != id ==>
              (IsInWishlist(AddToWishlist(ids, id), other) <==> IsInWishlist(ids, other))
    ensures other != id ==>
              (IsInWishlist(RemoveFromWishlist(ids, id), other) <==> IsInWishlist(ids, other))
  {
    assert other in Elements(ids) <==> other in ids;
    assert other in Elements(AddToWishlist(ids, id)) <==> other in AddToWishlist(ids, id);
    assert other in Elements(RemoveFromWishlist(ids, id)) <==> other in RemoveFromWishlist(ids, id);
    assert id in Elements(AddToWishlist(ids, id));
  }
}

=== FILE: wishlist_page.dfy ===
/** The wishlist page (components/Wishlist.tsx): the catalogue products whose
    id is on the wishlist and that are active. */
module WishlistPage {
  import opened Seqs
  import opened Types

  /** A product the page shows for the list `ids`. */
  predicate Shown(ids: seq<string>, p: Product) {
    p.id in ids && p.isActive
  }

  /** `products.filter(p => wishlistIds.includes(p.id) && p.isActive)`. */
  function WishlistProducts(products: seq<Product>, ids: seq<string>): (r: seq<Product>)
    ensures forall p :: p in r <==> p in products && p.id in ids && p.isActive
    ensures IsSubsequence(r, products)
  {
    FilterIsSubsequence(products, (p: Product) => Shown(ids, p));
    Filter(products, (p: Product) => Shown(ids, p))
  }

  /** The page depends only on which ids are listed, not on their order or repeats. */
  lemma DependsOnlyOnIdSet(products: seq<Product>, a: seq<string>, b: seq<string>)
    requires Elements(a) == Elements(b)
    ensures WishlistProducts(products, a) == WishlistProducts(products, b)
  {
    forall p | p in products
      ensures Shown(a, p) == Shown(b, p)
    {
      assert p.id in a <==> p.id in Elements(a);
      assert p.id in b <==> p.id in Elements(b);
    }
    FilterCongruent(products, (p: Product) => Shown(a, p), (p: Product) => Shown(b, p));
  }

  /** An empty wishlist shows the empty state. */
  lemma EmptyWishlistShowsNothing(products: seq<Product>)
    ensures WishlistProducts(products, []) == []
  {
    FilterNone(products, (p: Product) => Shown([], p));
  }

  /** Deactivated products never show, even when listed. */
  lemma InactiveHidden(products: seq<Product>, ids: seq<string>)
    requires forall i :: 0 <= i < |products| ==> !products[i].isActive
    ensures WishlistProducts(products, ids) == []
  {
    FilterNone(products, (p: Product) => Shown(ids, p));
  }
}

=== FILE: wrappers.dfy ===
/** Optional values and results: the model's rendering of `undefined`/`null`
    and of thrown errors. */
module Wrappers {

  /** A value that may be absent (`undefined` or `null` in the TypeScript). */
  datatype Option<+T> = None | Some(value: T) {

    /** The value, or `default` when absent (the TypeScript `x ?? default`). */
    function GetOr(default: T): T {
      match this
      case Some(v) => v
      case None => default
    }
  }

  /** The outcome of an operation that either produces a value or fails
      with an error (an exception or an error response in the TypeScript). */
  datatype Result<+R, +E> = Ok(value: R) | Err(error: E)
}
